=== FILE: README.md ===
# Moody-bitch game logic in Dafny

This project models the client-side game layer of a gamified wellness
tracker. Users log daily check-ins (mood, energy, sleep, highlights) and
complete self-made quests. A role-playing character with levels, skills,
perks, an inventory, spells and a menu advances as the reward. The model
covers the pure logic around the document store; each write is modelled
as the state it produces.

Modules, one per part of the program:

- `Common`: `Option`, the four swipe directions, JavaScript's `||`
  defaults, `Array.prototype.filter` and Firestore's one-element
  `arrayUnion`.
- `Sorting`: the stable sort of ES2019 `Array.prototype.sort` for an
  integer key, written as an insertion sort. `Select` picks the
  subsequence with one key.
- `Stats` (`src/context/GameContext.tsx`):
  - the character sheet `UserStats`, `DEFAULT_SKILLS` and `LOOT_TABLE`;
  - the snapshot reader with its `||` defaults and the active effects;
  - `addXP`, `completeQuest`, `useItem`, `castSpell`, `spendSkillPoint`
    and `updateAttributes`.
- `Constellations` (`src/data/constellations.ts`): the eight perk trees as
  graphs, with lemmas on the shape of the data.
- `SkillsPage` (`src/pages/Skills.tsx`):
  - the star-click prerequisite rule, the focus-panel unlock button and
    the lit-line rule;
  - the page as an event machine;
  - which perks star clicks can and cannot reach.
- `Quests` (`src/components/Skyrim/PauseMenu.tsx` and
  `src/components/Quests.tsx`):
  - reading quest documents and the daily reset by calendar day;
  - the completed-last sort;
  - adding, toggling and deleting quests, and the selection.
- `Magic` (`src/pages/Magic.tsx`) and `Inventory` (`src/pages/Inventory.tsx`):
  - the tab filters;
  - the cast and use buttons;
  - the pages as event machines.
- `CheckIn` (`src/components/Skyrim/AddLogModal.tsx`): the face beside each
  slider, editing highlights and what a submit writes and grants.
- `Dashboard` (`src/pages/Dashboard.tsx`): the sorted journal, the chart
  series and the five most recent entries.
- `TouchSwipe` (`src/hooks/useTwoFingerSwipe.ts`): the two-finger
  direction classifier.
- `TrackpadSwipe` (`src/hooks/useTrackpadSwipe.ts`): the wheel
  accumulator with threshold, cooldown and idle reset.
- `Navigation` (`src/App.tsx` and `src/components/Skyrim/Menu.tsx`):
  - the two overlays (character menu and pause menu) and the route;
  - the shell's character menu and the second one that the skills, magic
    and inventory pages each render, with a trackpad hook each;
  - keyboard shortcuts, buttons and swipe navigation;
  - the protected route table.

Conventions:

- Numbers on the sheet are unbounded integers.
- Times are integer milliseconds of local time. A calendar day is
  `t / 86400000`.
- Swipe coordinates and wheel deltas are exact reals.
- The check-in's sleep is counted in half-hours, because it is a number
  input with step 0.5 (the browser's step check keeps submitted values on
  the half-hour). `sleep * 10` is therefore `sleepHalfHours * 5`.
- The products `Math.floor(x * 1.1)`, `Math.floor(x * 1.2)` and
  `Math.floor(x * 1.5)` are the exact rational floors `x * 11 / 10`,
  `x * 6 / 5` and `x * 3 / 2`.

Behaviour the model states as the code has it:

- A star click that fails the prerequisite calls a `notify` the skills
  page never took from the context. That throws, so nothing changes;
  `SkillsPage.StarClick` flags this branch.
- The focus panel's unlock button skips the prerequisite check, so it can
  buy perks that star clicks never reach.
- A second lifted finger at coordinate 0 is read as missing by the touch
  swipe.
- A trackpad swipe can open the character menu on top of an open pause
  menu. Keys and clicks alone never do.
- The skills, magic and inventory pages render a second character menu
  with its props left at their defaults. Its button therefore shows on
  the magic and inventory pages, where the shell hides its own. Its
  trackpad hook runs while the loading screen is up and ignores the flag
  that turns gestures off.
- The check-in form's top faces (star-struck, rocket) are never shown on
  the 1..10 sliders.

Facts about the sheet and its rewards:

- `completeQuest` grants loot on exactly every fifth completion it
  counts; only the choice of item is random. Neither quest list calls it:
  both toggles call `addXP` directly, so completing a quest in either list
  neither raises `completedQuestCount` nor grants loot.
- Attributes have no upper bound and no clamp. Only item restores are
  capped, at 100. `updateAttributes` writes `mood * 10` and
  `energy * 10` as they are.
- The sheet has no `pendingLevelUps` field, no maximum for any attribute
  and no equipped items.

## Model

| member | source | states |
|---|---|---|
| `Stats.Normalise` | src/context/GameContext.tsx:113-136 | The read sheet holds every default skill plus every stored one, and a stored skill overrides the default. A missing or zero number reads as its default: level 1, XP 0, threshold 100, health, magicka and stamina 50, skill points 0, completed quests 0. A missing or empty race reads as "Nord". Missing perks or inventory read as empty lists; stored ones are kept, even when empty. Any other stored value is kept. |
| `Stats.NormaliseRoundTrip` | src/context/GameContext.tsx:123-136 | Writing a sheet and reading it back gives the same sheet if and only if none of level, threshold, health, magicka and stamina is 0, the race is not empty, and all eight default skills are present. |
| `Stats.ZeroMagickaReadsAsFifty` | src/context/GameContext.tsx:128 | A sheet stored with magicka 0 comes back with magicka 50. |
| `Stats.Load` | src/context/GameContext.tsx:111-147 | A missing document yields the initial sheet: magicka 70 and one skill point. An existing document yields its normalised reading. |
| `Stats.LoadValid` | src/context/GameContext.tsx:111-147 | Reading any document whose numbers are not negative gives a valid sheet: no negative number, positive thresholds, and all eight skills present. |
| `Stats.Effects` | src/context/GameContext.tsx:117-121 | Well Rested, Heroic Spirit and Vitality are active exactly when stored magicka, health and stamina, respectively, are at least 80. |
| `Stats.WellRestedIffMagicka` | src/context/GameContext.tsx:117-118 | The Well Rested effect that gives the XP bonus is active exactly when the normalised sheet's magicka is at least 80. |
| `Stats.FinalAmount` | src/context/GameContext.tsx:154-155 | A well-rested character gets floor(amount × 1.1), as bounds on the result; others get exactly the amount. |
| `Stats.NextSkillThreshold` | src/context/GameContext.tsx:164 | The next skill threshold is floor(old × 1.2), as bounds on the result. |
| `Stats.NextCharacterThreshold` | src/context/GameContext.tsx:176 | The next character threshold is floor(old × 1.5), as bounds on the result. |
| `Stats.AddXP` | src/context/GameContext.tsx:151-189 | A known skill gains the final amount, levels at most once, and on level-up loses the old threshold and gets the new one. A skill level-up gives the character ten times the new skill level in XP. The character levels at most once and gets a skill point exactly when it does. With no skill or an unknown skill, only character XP changes. Attributes, perks, inventory and other skills never change. |
| `Stats.AddXPPreservesValid` | src/context/GameContext.tsx:151-189 | Adding a non-negative amount keeps a valid sheet valid. |
| `Stats.AddXPOneLevelPerCall` | src/context/GameContext.tsx:159-165 | A single call never levels a skill twice. 500 XP into Speech on a fresh sheet gives level 16 with 400 XP, above the new threshold of 120. |
| `Stats.CompleteQuest` | src/context/GameContext.tsx:191-206 | The count goes up by one. The inventory gains exactly the chosen loot item when the new count is a multiple of 5 and is otherwise unchanged. Then 40 XP go to the quest's skill. Attributes and perks are untouched. |
| `Stats.LootEveryFifth` | src/context/GameContext.tsx:194-202 | After k completions from count c, the count is c + k and the inventory has grown by exactly one item per multiple of 5 in c+1 .. c+k. |
| `Stats.CompleteQuestPreservesValid` | src/context/GameContext.tsx:191-206 | Completing a quest keeps a valid sheet valid. |
| `Stats.RemoveUid` | src/context/GameContext.tsx:214 | Every entry with the used item's instance id is dropped; every other entry is kept, and nothing is added. |
| `Stats.RemoveUidKeepsOrder` | src/context/GameContext.tsx:214 | Removal works item by item: it distributes over concatenation, and a single item stays exactly when its id differs. So order and copies of the kept items are preserved. |
| `Stats.Restore` | src/context/GameContext.tsx:217-219 | A restore raises an attribute by the effect value, capped at 100. |
| `Stats.UseItem` | src/context/GameContext.tsx:208-228 | The item's instance leaves the inventory. A restore effect raises only its own attribute, capped at 100 and with a missing value counting as 0. An XP item delegates to addXP with its value and target. Nothing else changes. |
| `Stats.UseItemPreservesValid` | src/context/GameContext.tsx:208-228 | Using any loot-table item keeps a valid sheet valid. |
| `Stats.CastSpell` | src/context/GameContext.tsx:230-241 | A cast succeeds exactly when a user is signed in and magicka covers the cost. Success removes exactly the cost, so magicka stays non-negative; refusal changes nothing. |
| `Stats.SpendSkillPoint` | src/context/GameContext.tsx:243-252 | Without points or with the perk owned, nothing changes. Otherwise exactly one point is spent and the perk is added. Points never go negative. |
| `Stats.SpendSkillPointIdempotent` | src/context/GameContext.tsx:243-252 | Spending on the same perk twice is the same as spending once. |
| `Stats.CheckInGrants` | src/context/GameContext.tsx:263-267 | The check-in's `addXP` calls never change health, magicka, stamina, perks, inventory or the quest count. They touch only Restoration, Speech, Alteration and one weapon skill: Two-Handed is untouched below energy 8, One-Handed outside energies 5 to 7. |
| `Stats.UpdateAttributes` | src/context/GameContext.tsx:254-268 | Health becomes ten times the mood and stamina ten times the energy. Magicka becomes ten times the hours slept, capped at 100. The XP grants touch only Restoration, Speech, Alteration and one of the two weapon skills: Two-Handed is untouched below energy 8, One-Handed outside energies 5 to 7. |
| `Stats.UpdateAttributesGrants` | src/context/GameContext.tsx:154-155 | Restoration, Speech and Alteration each end as a lone 20 XP grant would leave them on the sheet from before the check-in, whose effects every `addXP` call reads. Two-Handed ends as 30 XP would leave it for energy 8 and up, One-Handed as 20 XP would for energy 5 to 7. |
| `Stats.CheckInBonusFromSheetBefore` | src/context/GameContext.tsx:154 | When the sheet before the check-in was not well rested, eight hours of sleep make the new sheet well rested, yet Restoration still gains exactly 20 XP, not 22. |
| `Stats.UpdateAttributesLevels` | src/context/GameContext.tsx:254-268 | In the sequential model, where each grant sees the previous one's result, the check-in raises the level by at most one per grant, so at most four, and grants exactly one skill point per level gained. In the source every `addXP` reads the same captured sheet and the last write wins, so the level rises by at most one (see the concurrency line under "## Left out"). |
| `Stats.UpdateAttributesPreservesValid` | src/context/GameContext.tsx:254-268 | A check-in with non-negative values keeps a valid sheet valid. |
| `Constellations.DataWellFormed` | src/data/constellations.ts:18-173 | Every tree has a root, every line end names one of its perks, perk ids are unique within and across trees, and each tree's name is its skill key. The eight skill keys are exactly the default skills. |
| `Constellations.TreeFacts` | src/data/constellations.ts:18-173 | Each tree is well formed and all its perk ids begin with the tree's own tag. |
| `Constellations.DifferentTagsDisjoint` | src/data/constellations.ts:30-170 | Trees whose ids carry different tags of one length share no perk id. |
| `Constellations.NumberedIdsDistinct` | src/data/constellations.ts:30-170 | Ids that end in their own 1-based position are distinct within a tree. |
| `Constellations.RestorationFacts` | src/data/constellations.ts:19-39 | The Restoration tree is well formed, tagged `res`. |
| `Constellations.EnchantingFacts` | src/data/constellations.ts:40-58 | The Enchanting tree is well formed, tagged `enc`. |
| `Constellations.SmithingFacts` | src/data/constellations.ts:59-77 | The Smithing tree is well formed, tagged `smi`. |
| `Constellations.SpeechFacts` | src/data/constellations.ts:78-97 | The Speech tree is well formed, tagged `spe`. |
| `Constellations.AlchemyFacts` | src/data/constellations.ts:98-115 | The Alchemy tree is well formed, tagged `alc`. |
| `Constellations.TwoHandedFacts` | src/data/constellations.ts:116-135 | The Two-Handed tree is well formed, tagged `two`. |
| `Constellations.OneHandedFacts` | src/data/constellations.ts:136-154 | The One-Handed tree is well formed, tagged `one`. |
| `Constellations.AlterationFacts` | src/data/constellations.ts:155-172 | The Alteration tree is well formed, tagged `alt`. |
| `SkillsPage.FindIndex` | src/pages/Skills.tsx:39 | The result is the first index with the id, or -1 exactly when no perk has it. |
| `SkillsPage.SomeLineIff` | src/pages/Skills.tsx:42-44 | The scan of the lines finds a line into the perk exactly when some line ends at it and starts at an owned perk. |
| `SkillsPage.HasPrereq` | src/pages/Skills.tsx:42-44 | A star click's prerequisite: the root, or a line ending at the perk whose start is owned. |
| `SkillsPage.HasPrereqIff` | src/pages/Skills.tsx:41-44 | A perk's prerequisite holds exactly when it is the root, or some line from an owned perk ends at it. |
| `SkillsPage.HasPrereqMonotone` | src/pages/Skills.tsx:42-44 | Owning more perks never removes a prerequisite. |
| `SkillsPage.StarClick` | src/pages/Skills.tsx:34-55 | Clicking an unfocused star only focuses it. Clicking the focused star changes the sheet exactly when the perk is unowned, a point is available and the prerequisite holds; the change is one spend on that perk. The failing-prerequisite branch throws and changes nothing. |
| `SkillsPage.UnlockFocused` | src/pages/Skills.tsx:162-169 | The unlock button spends a point on the focused perk with no prerequisite check, and leaves focus and tree as they are. |
| `SkillsPage.LineLit` | src/pages/Skills.tsx:140 | A line is drawn lit when both its ends are owned. |
| `SkillsPage.StarClickLightsLine` | src/pages/Skills.tsx:137-143 | A non-root perk bought by a star click always has a lit line into it: both ends of that line are owned. |
| `SkillsPage.DisplayedSkill` | src/pages/Skills.tsx:74 | A tree whose skill is missing from the sheet shows level 0, 0 XP and a threshold of 100; otherwise it shows the sheet's skill. |
| `SkillsPage.LoadedSheetHasEverySkill` | src/pages/Skills.tsx:73-74 | After any read of the sheet, every tree finds its skill, so the fallback bar is never shown. |
| `SkillsPage.Step` | src/pages/Skills.tsx:71-169 | Only star clicks and the unlock button change the perks. No owned perk is ever lost, and at most one point is spent per action. |
| `SkillsPage.Run` | src/pages/Skills.tsx:71-169 | Over any sequence of actions, owned perks are never lost. |
| `SkillsPage.SharedIdSameTree` | src/data/constellations.ts:30-170 | Two positions holding the same perk id are the same position in the same tree. |
| `SkillsPage.StepKeepsWithin` | src/pages/Skills.tsx:34-50 | If the owned perks of a tree lie in a set that holds the root and is closed under its lines, one action other than the unlock button keeps them there. |
| `SkillsPage.RunKeepsWithin` | src/pages/Skills.tsx:34-50 | Any sequence of actions without the unlock button keeps a tree's owned perks inside a root-holding, line-closed set. |
| `SkillsPage.SpeechSecondPerkUnreachable` | src/data/constellations.ts:96 | No sequence of star clicks ever buys Speech's second perk, because no line ends at it. |
| `SkillsPage.OneHandedOnlyRootReachable` | src/data/constellations.ts:153 | Star clicks buy no One-Handed perk except the root. |
| `SkillsPage.UnlockButtonSkipsPrerequisite` | src/pages/Skills.tsx:162-169 | A new character can still buy Speech's second perk: select the tree, focus the star, press unlock. |
| `SkillsPage.ClickTwiceBuys` | src/pages/Skills.tsx:34-47 | Two clicks on a star whose prerequisite holds buy it, losing nothing, with one point available. |
| `SkillsPage.ClickThroughOrder` | src/pages/Skills.tsx:34-47 | Clicking each star twice through an order in which each perk's prerequisite comes earlier buys every perk in the order. |
| `SkillsPage.BuyInOrder` | src/pages/Skills.tsx:71-76 | Choosing a tree and then clicking twice through an unlock order buys every perk in it. |
| `SkillsPage.RestorationOrder` | src/data/constellations.ts:38 | Restoration can be bought in index order. |
| `SkillsPage.EnchantingOrder` | src/data/constellations.ts:57 | Enchanting can be bought in index order. |
| `SkillsPage.SmithingOrder` | src/data/constellations.ts:76 | Smithing can be bought in index order. |
| `SkillsPage.SpeechOrder` | src/data/constellations.ts:96 | Speech can be bought in the order 1, 3, 4, 5, 6, which skips the second perk. |
| `SkillsPage.AlchemyOrder` | src/data/constellations.ts:114 | Alchemy can be bought in index order. |
| `SkillsPage.TwoHandedOrder` | src/data/constellations.ts:134 | Two-Handed can be bought in index order. |
| `SkillsPage.AlterationOrder` | src/data/constellations.ts:171 | Alteration can be bought in index order. |
| `SkillsPage.WholeTreeByStars` | src/data/constellations.ts:18-173 | Star clicks alone buy every perk of Restoration, Enchanting, Smithing, Alchemy, Two-Handed and Alteration, given one point per perk. |
| `SkillsPage.SpeechAllButSecondByStars` | src/data/constellations.ts:78-97 | Star clicks alone buy every Speech perk except the second. |
| `SkillsPage.OneHandedRootByStars` | src/data/constellations.ts:136-154 | Star clicks do buy the One-Handed root. |
| `Quests.Read` | src/components/Quests.tsx:42-45 | A stored `id` field wins over the document id, which is used only when the field is missing. Title, kind, description, skill, state and last completion are taken as stored. |
| `Quests.ReadWithDefaults` | src/components/Skyrim/PauseMenu.tsx:91 | Missing description and skill read as the empty text and Restoration. With both present, the reading is the plain one. |
| `Quests.Day` | src/components/Skyrim/PauseMenu.tsx:93-97 | The day of an instant is the whole number of days before it. |
| `Quests.Stale` | src/components/Skyrim/PauseMenu.tsx:96-98 | A daily quest, completed, with a stamp on an earlier calendar day. |
| `Quests.ResetDaily` | src/components/Skyrim/PauseMenu.tsx:95-104 | After the reset no quest is stale. A quest stays completed exactly when it was completed and not stale, meaning a daily finished on an earlier day. Nothing but `completed` changes. |
| `Quests.ResetAll` | src/components/Skyrim/PauseMenu.tsx:95-104 | The load resets each quest in place and keeps the count. |
| `Quests.ResetKeeps` | src/components/Skyrim/PauseMenu.tsx:96 | One-off, incomplete and never-completed quests are never reset, and the reset is idempotent. |
| `Quests.CompletedTodayStays` | src/components/Skyrim/PauseMenu.tsx:98 | A quest completed earlier on the same day stays completed. |
| `Quests.CompletedYesterdayReopens` | src/components/Skyrim/PauseMenu.tsx:96-101 | A daily completed before today's midnight becomes incomplete. |
| `Quests.CompletedKey` | src/components/Skyrim/PauseMenu.tsx:83 | The sort key is 1 exactly for completed quests and 0 otherwise. |
| `Quests.SortQuests` | src/components/Skyrim/PauseMenu.tsx:82-84 | The sorted list is a permutation with completed quests last, and each group keeps its order. |
| `Quests.SortQuestsPartition` | src/components/Skyrim/PauseMenu.tsx:82-84 | The sorted list is exactly the incomplete quests in order, followed by the completed ones in order. |
| `Quests.SortQuestsIncompleteFirst` | src/components/Skyrim/PauseMenu.tsx:82-84 | Every incomplete quest comes before every completed one. |
| `Quests.SortQuestsIdempotent` | src/components/Skyrim/PauseMenu.tsx:82-84 | Sorting a sorted list changes nothing. |
| `Quests.MarkCompleted` | src/components/Skyrim/PauseMenu.tsx:158 | Only quests with the id change, and only their `completed` flag; the order and the ids stay. |
| `Quests.MarkCompletedUndo` | src/components/Skyrim/PauseMenu.tsx:158 | Flipping a quest and flipping it back restores the list. |
| `Quests.RemoveId` | src/components/Skyrim/PauseMenu.tsx:169 | The quests with the id are gone, every other quest is kept, nothing is added, and a list without the id is unchanged. |
| `Quests.RemoveIdKeepsOrder` | src/components/Skyrim/PauseMenu.tsx:169 | Removal works quest by quest: it distributes over concatenation, and a single quest stays exactly when its id differs. So the kept quests keep their order and copies, as `filter` does, which fixes the "first remaining quest" the delete selects. |
| `Quests.RemoveAppended` | src/components/Quests.tsx:119 | Deleting the quest just appended with a fresh id gives back the list before the add. |
| `Quests.ToggleWrite` | src/components/Skyrim/PauseMenu.tsx:148-152 | The write flips `completed`. Completing stamps the current time; un-completing sends back the previous stamp. |
| `Quests.LoadedQuests` | src/components/Skyrim/PauseMenu.tsx:89-104 | Entry i is document i read with the pause menu's defaults and then reset if a stale daily. |
| `Quests.Fetch` | src/components/Skyrim/PauseMenu.tsx:86-108 | The list is exactly the loaded quests, one per document: the open ones in document order, then the completed ones in document order. None is stale. An existing selection is kept; otherwise the first quest, if any, is selected. |
| `Quests.SortedFromSettled` | src/components/Skyrim/PauseMenu.tsx:95-107 | Sorting keeps a reset list free of stale quests. |
| `Quests.AddQuest` | src/components/Skyrim/PauseMenu.tsx:120-144 | A blank title, no user or an add in flight changes nothing. Otherwise the new incomplete quest goes after the incomplete ones and before the completed ones, becomes the selection, and the title is cleared. |
| `Quests.ToggleQuest` | src/components/Skyrim/PauseMenu.tsx:146-164 | Only the target's flag flips, and the list is re-sorted. The selection follows the flip only if it is the target. Completing grants 40 XP to the quest's skill; un-completing grants nothing. |
| `Quests.ToggleMovesQuest` | src/components/Skyrim/PauseMenu.tsx:158 | A quest just completed ends up after every incomplete quest, and one just reopened before every completed quest. |
| `Quests.ToggleTwice` | src/components/Skyrim/PauseMenu.tsx:146-164 | When both writes succeed, completing a quest and reopening it restores the list up to order. The sheet keeps only the 40 XP of the completion, and the reopening write sends back the stamp the quest was loaded with. |
| `Quests.CompletionStampNotKept` | src/components/Skyrim/PauseMenu.tsx:151-158 | A completion does not record its stamp in the list: the quest's entry keeps its loaded `lastCompleted`, so reopening it sends that old stamp, or none. |
| `Quests.DeleteQuest` | src/components/Skyrim/PauseMenu.tsx:166-175 | The quest with the id is removed. A deleted selection moves to the first remaining quest or none; any other selection stays. The selection is never the deleted quest. |
| `Quests.DeleteKeepsOrder` | src/components/Skyrim/PauseMenu.tsx:169-171 | Deleting keeps completed quests last. |
| `Quests.FetchBoard` | src/components/Quests.tsx:37-71 | The board's list reads each document and resets it in place, unsorted, so none is stale. |
| `Quests.AddBoardQuest` | src/components/Quests.tsx:73-95 | A blank title or no user changes nothing. Otherwise an incomplete quest with no description or skill is appended at the end. |
| `Quests.ToggleBoardQuest` | src/components/Quests.tsx:97-114 | Only the target's flag flips, in place. Completing grants 25 XP to the character alone; un-completing grants nothing and keeps the old stamp. |
| `Quests.BoardToggleTwice` | src/components/Quests.tsx:97-114 | When both writes succeed, completing and then reopening on the board restores the list exactly; only the 25 character XP remain. |
| `Quests.BoardAddThenDelete` | src/components/Quests.tsx:73-123 | Adding a quest and deleting it gives back the original board. |
| `Magic.FilteredItems` | src/pages/Magic.tsx:54-57 | The ALL tab lists the spells followed by the shouts. Any other tab lists exactly the items of its school. |
| `Magic.TabSplits` | src/pages/Magic.tsx:54-57 | A school tab lists its spells first, then its shouts, in the fixed order. |
| `Magic.ShoutTab` | src/pages/Magic.tsx:25-57 | The SHOUTS tab lists exactly the three shouts in order. |
| `Magic.SpellTab` | src/pages/Magic.tsx:18-57 | Each spell's school tab lists exactly that one spell. |
| `Magic.SchoolsDistinct` | src/pages/Magic.tsx:18-23 | No two spells share a school. |
| `Magic.EffectsTabEmpty` | src/pages/Magic.tsx:46-57 | The ACTIVE EFFECTS tab lists no spell. |
| `Magic.EverySpellHasATab` | src/pages/Magic.tsx:18-46 | Every item appears under a school tab other than ALL and ACTIVE EFFECTS, and every shout costs 0. |
| `Magic.CastEnabled` | src/pages/Magic.tsx:157 | The cast button is enabled for a shout, or for a spell whose cost the magicka covers. |
| `Magic.CastLabel` | src/pages/Magic.tsx:165 | Shouts read UNLEASH SHOUT. A spell reads CAST SPELL exactly when the button is enabled, and INSUFFICIENT MAGICKA otherwise. |
| `Magic.HandleCast` | src/pages/Magic.tsx:59-67 | A shout leaves the sheet alone; a spell asks the context to spend its cost. |
| `Magic.EnabledIffContextCasts` | src/pages/Magic.tsx:157 | For a signed-in user, a spell's button is enabled exactly when the context would accept the cast. |
| `Magic.MagicStep` | src/pages/Magic.tsx:59-165 | Choosing a school clears the selection. Picking spell i outside the effects tab selects entry i of the tab's list; any other pick changes nothing. Pressing cast with the button enabled goes through `handleCast`, and for a signed-in user a spell lowers magicka by its cost. A disabled or absent button does nothing. Only such a cast changes the sheet, and only its magicka. A chosen spell is always one of the page's items. |
| `Magic.MagicRunKeepsMagicka` | src/pages/Magic.tsx:59-67 | Whatever the user does on the page, magicka never rises or goes negative, and nothing else on the sheet changes. |
| `Inventory.CategoryName` | src/pages/Inventory.tsx:9 | Every item category is one of the tab names other than ALL. |
| `Inventory.CategoryNameInjective` | src/context/GameContext.tsx:23 | Different categories have different names. |
| `Inventory.FilteredItems` | src/pages/Inventory.tsx:17-19 | ALL shows the whole inventory. Any other tab shows exactly the items of that category. |
| `Inventory.FilteredItemsKeepOrder` | src/pages/Inventory.tsx:17-19 | A tab's list distributes over concatenation, and a single item is listed exactly when the tab is ALL or its category. So a tab keeps the inventory's order and copies. |
| `Inventory.CategoriesPartition` | src/pages/Inventory.tsx:17-19 | The four category tabs together list every item exactly once: their sizes add up to the inventory's. |
| `Inventory.UseEnabled` | src/pages/Inventory.tsx:97 | The use button is disabled exactly for apparel. |
| `Inventory.UseLabel` | src/pages/Inventory.tsx:106 | The button reads USE ITEM exactly for potions and miscellany, and EQUIP ITEM otherwise. |
| `Inventory.BooksEquipButAreUsed` | src/pages/Inventory.tsx:97-106 | A book is labelled for equipping, yet its button is enabled and consumes it. |
| `Inventory.InventoryStep` | src/pages/Inventory.tsx:21-106 | Choosing a category clears the selection. Only the enabled use button changes the sheet; it uses the chosen item and clears the choice. An apparel item cannot be used. |
| `Inventory.PickThenUseRemoves` | src/pages/Inventory.tsx:21-26 | Choosing any usable item and pressing use removes every copy of its instance, shrinks the inventory and clears the choice. |
| `Inventory.RemoveShrinks` | src/context/GameContext.tsx:214 | Using an item that is present makes the inventory strictly shorter. |
| `CheckIn.FaceFor` | src/components/Skyrim/AddLogModal.tsx:24-25 | The face is the table entry for floor((v - 1) / 2); an index outside the table gives the neutral face. |
| `CheckIn.SliderFaces` | src/components/Skyrim/AddLogModal.tsx:24-25 | On sliders 1..10 the index stays within 0..4, so the top faces never show. Both faces are neutral exactly at 5 and 6. |
| `CheckIn.LowerFacesShown` | src/components/Skyrim/AddLogModal.tsx:24-25 | Each of the five lower faces of each table is shown for some slider value. |
| `CheckIn.FacesMonotone` | src/components/Skyrim/AddLogModal.tsx:24-25 | A higher slider never shows a face earlier in its table. |
| `CheckIn.SetHighlight` | src/components/Skyrim/AddLogModal.tsx:27-31 | Editing a highlight replaces that one field and keeps the length. |
| `CheckIn.SetHighlightUndo` | src/components/Skyrim/AddLogModal.tsx:27-31 | Typing the old text back restores the list, and the last edit to a field wins. |
| `CheckIn.Submit` | src/components/Skyrim/AddLogModal.tsx:33-60 | Without a user, or while a submit is in flight, nothing happens. Otherwise the entry holds the form's values and the time, and the form closes. The sheet is the check-in's plus 50 character XP, with the Well Rested bonus of the sheet from before the submit. |
| `CheckIn.SubmitAttributesMatchEntry` | src/components/Skyrim/AddLogModal.tsx:39-48 | After a submit, health, stamina and magicka are read off the stored entry. |
| `CheckIn.SubmitPreservesValid` | src/components/Skyrim/AddLogModal.tsx:33-60 | A submit from in-range sliders keeps a valid sheet valid. Perks, inventory and quest count are untouched. |
| `CheckIn.SubmitIsCheckInThenXP` | src/components/Skyrim/AddLogModal.tsx:48-49 | When the check-in leaves the Well Rested bonus as it was, a submit is exactly the check-in followed by `addXP(50)` for the character. |
| `Dashboard.SortEntries` | src/pages/Dashboard.tsx:64 | Entries are permuted into ascending whole seconds, and entries within the same second keep their order. |
| `Dashboard.SortSortedIsIdentity` | src/pages/Dashboard.tsx:64 | Entries already in order are left alone. |
| `Dashboard.ChartData` | src/pages/Dashboard.tsx:79-84 | One chart point per entry, in entry order, with the entry's day and readings. |
| `Dashboard.ChartDaysInOrder` | src/pages/Dashboard.tsx:64-84 | Over sorted entries the chart's days never go backwards. |
| `Dashboard.RecentEntries` | src/pages/Dashboard.tsx:87 | There are min(5, n) recent entries: the last ones, newest first. |
| `Dashboard.RecentNewestFirst` | src/pages/Dashboard.tsx:87 | Over sorted entries the recent list is in non-increasing time, headed by the newest entry. |
| `Dashboard.RecentIsChartTail` | src/pages/Dashboard.tsx:79-87 | The recent list is the end of the chart read backwards. |
| `TouchSwipe.Classify` | src/hooks/useTwoFingerSwipe.ts:31-42 | The horizontal axis wins exactly when strictly larger; ties go vertical. A direction is reported exactly when the winning magnitude exceeds the threshold, and the component's sign chooses its way. |
| `TouchSwipe.ClassifyMeans` | src/hooks/useTwoFingerSwipe.ts:34-42 | For a non-negative threshold, the result is direction d exactly when the move travels further than the threshold along d and d's axis dominates. |
| `TouchSwipe.ClassifyNegate` | src/hooks/useTwoFingerSwipe.ts:34-42 | Reversing a move reverses the direction reported and keeps "nothing" as nothing. |
| `TouchSwipe.ShortMovesIgnored` | src/hooks/useTwoFingerSwipe.ts:34-42 | A move within the threshold on both axes is never a swipe. |
| `TouchSwipe.Mid` | src/hooks/useTwoFingerSwipe.ts:17-18 | The midpoint is equally far from both fingers. |
| `TouchSwipe.EndCoord` | src/hooks/useTwoFingerSwipe.ts:28-29 | The end coordinate is the midpoint with the second finger unless that finger is missing or at 0. In that case it is the first finger's coordinate. |
| `TouchSwipe.EndPoint` | src/hooks/useTwoFingerSwipe.ts:28-29 | The end midpoint of one lifted finger is that finger. Of two, each coordinate is halfway between them unless the second finger's coordinate is 0. |
| `TouchSwipe.Handle` | src/hooks/useTwoFingerSwipe.ts:14-45 | A start records the two-finger midpoint and reports nothing; other starts are ignored. An end with no start does nothing. Any other end classifies the midpoint's travel and forgets the start. |
| `TouchSwipe.OneSwipePerStart` | src/hooks/useTwoFingerSwipe.ts:44 | A run reports no more swipes than it has two-finger starts, plus one for a start already recorded. A start still pending at the end has not been spent. |
| `TouchSwipe.TranslationInvariant` | src/hooks/useTwoFingerSwipe.ts:14-42 | Moving the whole gesture by a fixed offset does not change the swipe, as long as no second-finger coordinate at the end is 0. |
| `TouchSwipe.ZeroCoordinateReadAsMissing` | src/hooks/useTwoFingerSwipe.ts:28-29 | Two fingers starting at (0,0) and lifted at (60,0) and (0,0) report RIGHT. The same gesture one unit away reports nothing. |
| `TouchSwipe.KnownSwipes` | src/hooks/useTwoFingerSwipe.test.ts:6-79 | 90 to the right gives RIGHT, 90 up gives UP, and 20 to the right gives nothing. |
| `TrackpadSwipe.Fire` | src/hooks/useTrackpadSwipe.ts:52-62 | The sum fires exactly when either axis exceeds the threshold. |
| `TrackpadSwipe.FireIsTouchClassify` | src/hooks/useTrackpadSwipe.ts:52-62 | The trackpad fires on a sum exactly the direction the touch classifier gives for the same move. |
| `TrackpadSwipe.Wheel` | src/hooks/useTrackpadSwipe.ts:28-72 | A disabled hook does nothing. Blocking is decided first, from the raw deltas. Within the cooldown nothing else happens. Otherwise the sum is reported. A fire stamps the time, resets and reports zero; without a fire the sum stays within the threshold. |
| `TrackpadSwipe.Idle` | src/hooks/useTrackpadSwipe.ts:67-77 | The idle timer, if armed, resets the sum and reports zero; the time of the last swipe stays. |
| `TrackpadSwipe.RunKeepsBounded` | src/hooks/useTrackpadSwipe.ts:52-77 | Between events the sum never exceeds the threshold on either axis. |
| `TrackpadSwipe.SwipesSpacedByCooldown` | src/hooks/useTrackpadSwipe.ts:42-64 | Each swipe in a run comes at least one cooldown after the previous one, and the first after the last swipe before the run. The refs remember the last swipe's time. |
| `TrackpadSwipe.DisabledIsInert` | src/hooks/useTrackpadSwipe.ts:28-29 | A disabled hook never fires and never changes its refs. |
| `TrackpadSwipe.DefaultsBlockOnlyHorizontal` | src/hooks/useTrackpadSwipe.ts:15-40 | With the defaults, mostly vertical scrolling is never blocked. A mostly horizontal move of more than 5 is always blocked, even during the cooldown. |
| `TrackpadSwipe.MountedSwipes` | src/hooks/useTrackpadSwipe.ts:15-65 | After mounting, 130 to the right fires RIGHT at once. 70 + 60 fires on the second event. A third event 100 ms later falls in the cooldown. |
| `Navigation.ShowHUD` | src/App.tsx:43 | The HUD layer shows for a signed-in user off the auth pages once the loading screen is gone. |
| `Navigation.Visible` | src/components/Skyrim/Menu.tsx:66-142 | The character button shows from either menu; the menu's controls show while it is open and a menu is on screen; SYSTEM shows with the HUD and both overlays closed; the pause backdrop shows with the pause menu open. |
| `Navigation.CharacterButtonShown` | src/App.tsx:42-95 | The shell's button shows exactly for a signed-in user off the auth pages, after loading, with both overlays closed and the page neither magic nor inventory. Counting the pages' own menus, a button shows exactly when the HUD is up and the character menu closed, and either the pause menu is closed or the page has its own menu. On magic and inventory only the page's button shows. |
| `Navigation.PageFor` | src/components/Skyrim/Menu.tsx:37-41 | Every diamond direction leads to one of the four menu pages, never an auth page. |
| `Navigation.PageForInjective` | src/components/Skyrim/Menu.tsx:37-41 | Each menu page is reached from exactly one direction. |
| `Navigation.Navigate` | src/pages/Skills.tsx:68 | A route change keeps the overlays and the shell menu's state. Leaving a page unmounts its menu, and the next page starts with fresh trackpad refs and no drag. Staying on the same route changes nothing. |
| `Navigation.HandleGesture` | src/components/Skyrim/Menu.tsx:36-51 | With the menu open, a swipe goes to its direction's page and closes the menu. With it closed, a swipe opens it exactly when the current page is the one the opposite direction leads to, and the route stays. The pause menu is untouched. |
| `Navigation.GestureRoundTrip` | src/components/Skyrim/Menu.tsx:36-51 | Swiping out of the menu and then the opposite way gives the same state as navigating to the first swipe's page with the menu still open. |
| `Navigation.NoReturnElsewhere` | src/components/Skyrim/Menu.tsx:42-50 | Off the four menu pages, no swipe opens the menu; the swipe changes nothing. |
| `Navigation.Gestures` | src/components/Skyrim/Menu.tsx:36-51 | The swipes fired by both menus on one event read the state from before it. With the menu open, it closes and the last swipe's page wins. With it closed, the route stays and the menu opens when any swipe points back to it. |
| `Navigation.GestureBatch` | src/components/Skyrim/Menu.tsx:36-51 | One fired swipe has the effect of `HandleGesture`. With two, an open menu closes on the second one's page, and a closed menu opens exactly when either swipe alone would open it. |
| `Navigation.GesturesAgree` | src/components/Skyrim/Menu.tsx:36-51 | One swipe handled alone, or the same swipe from both menus, is exactly one `HandleGesture`. |
| `Navigation.HandleProgress` | src/components/Skyrim/Menu.tsx:53-56 | The menu trails the fingers at half the distance, in the opposite direction. |
| `Navigation.MenuPadConfig` | src/components/Skyrim/Menu.tsx:58-64 | A menu's hook uses the default options with threshold 120. Its swipes are off exactly when its `disabledGestures` prop is set and the menu is closed. |
| `Navigation.PadConfig` | src/App.tsx:92-95 | The shell's menu passes the shared flag: its hook is disabled exactly when gestures are disabled and the menu is closed. |
| `Navigation.PageMenuNeverDisabled` | src/pages/Magic.tsx:73 | A page's menu leaves `disabledGestures` at false, so its hook always has the default options. When gestures are disabled and the menu is closed, that differs from the shell's options. |
| `Navigation.MenuWheel` | src/components/Skyrim/Menu.tsx:58-64 | A wheel event runs each mounted menu's hook; with neither mounted nothing changes. Without a swipe, overlays and route stay. One swipe has the effect of `HandleGesture`. Two swipes combine as `GestureBatch` states. The sign-in, loading, pause and gesture flags are kept. |
| `Navigation.MenuIdle` | src/hooks/useTrackpadSwipe.ts:67-77 | The idle reset of either hook never changes overlays or route, does nothing while its menu is unmounted, and leaves the other menu alone. |
| `Navigation.WheelTrail` | src/components/Skyrim/Menu.tsx:53-64 | After any wheel event, a menu drawn at minus half its hook's running sum still is. |
| `Navigation.GesturesKeepDrag` | src/components/Skyrim/Menu.tsx:36-51 | Handling the fired swipes keeps each menu drawn at minus half its hook's running sum, a fresh page menu included. |
| `Navigation.MenuWheelKeepsDrag` | src/components/Skyrim/Menu.tsx:49-64 | After a wheel event both menus are still drawn at minus half their hooks' running sums. |
| `Navigation.MenuIdleKeepsDrag` | src/components/Skyrim/Menu.tsx:53-56 | After either idle reset both menus are still drawn at minus half their running sums. |
| `Navigation.KeyDown` | src/App.tsx:50-59 | Keys do nothing on auth pages or while loading. Escape flips the pause menu and closes the character menu; Tab does the reverse. Other keys do nothing. |
| `Navigation.KeyLeavesOneOverlay` | src/App.tsx:52-58 | After a handled shortcut at most one overlay is open, whatever was open before. |
| `Navigation.KeyTwice` | src/App.tsx:52-58 | Pressing a shortcut twice restores its own overlay and leaves the other one closed. |
| `Navigation.ClickOn` | src/components/Skyrim/Menu.tsx:66-142 | Each visible control, from either menu, sets the overlays as its handler says. Only a diamond link changes the route, to its page; otherwise the page menu's state is kept. A control not on screen does nothing. |
| `Navigation.PageControlsNeedHUD` | src/components/Skyrim/LoadingScreen.tsx:26-33 | The loading screen covers a page's menu, so every clickable control needs the shell's HUD layer to be up. |
| `Navigation.SystemButtonOpensPause` | src/App.tsx:70-89 | The SYSTEM button is only on screen with both overlays closed, so it always opens the pause menu. |
| `Navigation.Step` | src/App.tsx:48-99 | A key press is the shortcut handler, a press the click handler, a scroll the wheel handler and a scroll pause the idle reset of one hook. No event signs in or out or ends the loading screen. |
| `Navigation.KeysAndClicksKeepOneOverlay` | src/App.tsx:50-98 | Keys and clicks alone never leave both overlays open. |
| `Navigation.RunKeepsDrag` | src/components/Skyrim/Menu.tsx:49-64 | Whatever happens, both menus stay drawn at minus half their hooks' running sums. |
| `Navigation.SwipeStacksOverlays` | src/components/Skyrim/Menu.tsx:42-47 | With the pause menu open on the skills page, a downward scroll of 130 opens the character menu over it. |
| `Navigation.PageMenuSwipes` | src/pages/Magic.tsx:73 | On the magic page, a rightward scroll of 130 opens the menu while the loading screen is up, and also with gestures disabled, though the shell's hook does nothing. |
| `Navigation.Protected` | src/App.tsx:24-29 | A protected page shows exactly for a known signed-in user, and the loading message exactly while sign-in is being restored. |
| `Navigation.Route` | src/App.tsx:103-118 | Auth pages always show. The protected pages go through the guard, `/` redirects to the dashboard, and anything else is not found. |
| `Navigation.OnlyUsersSeePages` | src/App.tsx:24-118 | A page other than an auth page is shown only to a signed-in user once sign-in is known. A visitor to a protected page is sent to sign in, which shows. |

## Left out

- Firestore and authentication calls (`onSnapshot`, `setDoc`, `updateDoc`, `addDoc`, `deleteDoc`, `getDocs`, sign-in and sign-out): every write is modelled as the state it produces; a failed write, where the source only logs, is not modelled.
- `Stats.AddXP`, `Stats.CompleteQuest`, `Stats.UseItem`, `Stats.SpendSkillPoint` and `Stats.UpdateAttributes` model the signed-in path only. The source returns early without a user (GameContext.tsx lines 152, 192, 209, 244 and 255), and every caller sits behind the protected route.
- The pages' own pause menus (the `PauseMenu` each of the skills, magic and inventory pages renders) never open: the `onOpenPause` callback they pass is not a prop the character menu reads. Their state is constant and not modelled.
- Concurrency and stale closures: `updateAttributes` fires its `addXP` calls without awaiting them, the check-in form's `addXP(50)` follows, and `completeQuest` calls `addXP` after its own write, each reading the same captured sheet. The model composes them one after another, so writes that would overwrite each other are not modelled. The Well Rested bonus, which each call reads from the captured effects, is modelled as the sheet's from before the check-in.
- `Quests.ToggleQuest`, `Quests.ToggleBoardQuest`, `Quests.ToggleTwice` and `Quests.BoardToggleTwice` model the toggle as if its write succeeds. Reopening a quest whose list entry has no stamp (one completed in this session, or never stamped) sends `lastCompleted: undefined`. Firestore's default settings reject such a write, and then nothing changes locally. The Firestore configuration is not part of this model, so the round trips hold only for stamped quests or when undefined fields are ignored.
- An emptied sleep field: `parseFloat("")` is NaN and the unrequired input lets it through, so `updateAttributes` would store NaN as magicka, which `data.magicka || 50` later reads back as 50. `CheckIn.Form.sleepHalfHours` is an integer, so this path is not modelled.
- A quest document without a `completed` field: `Quests.QuestDoc.completed` is a boolean, whereas the source would read `undefined`, which the sort comparator treats as different from `false`. Both add paths always write `completed: false`.
- Randomness: the loot item and its instance id in `completeQuest` are parameters (`pick`, `uid`), and the quest lore text and new document ids are parameters too.
- Timers: the notification timeout, the sound effects and the first-load timer are left out; the loading screen is a flag, and the trackpad's 150 ms idle reset is an explicit event.
- Floating point: the 1.1, 1.2 and 1.5 multipliers are exact rational floors, which can differ from IEEE products by one; the sleep field, a number input with step 0.5, is counted in half-hours, so magicka is an integer; swipe coordinates are exact reals with no NaN.
- Local time: a day is a whole multiple of 86400000 ms of local time; time zones, daylight saving and date formatting are not modelled.
- Presentation: star positions, perk descriptions, decorative paths, icons, spell descriptions, the HUD's compass and bars, animations and the chart library are not modelled; only what decides behaviour is.
- The context's initial in-memory sheet before the first snapshot arrives, and the `ui`, `setUI` and `pendingLevelUps` the shell and menu use but the context file does not define; the overlay flags are modelled as their own record.
- The pause menu's journal and stats tabs, location capture after a check-in, the lore service, the wisdom ticker and the quit button's sign-out.
- The trackpad hook's teardown and re-arming on option changes: refs survive as long as the menu stays mounted, and a timer pending at teardown is dropped.
- `Quests.IsSpace`: the whitespace set of `String.prototype.trim` is written out from the ECMAScript standard's WhiteSpace and LineTerminator sets.
- `CheckIn.SetHighlight`: requires the index to be inside the list, since the form only edits its three fields; JavaScript would grow the array for an index beyond it.
- `TouchSwipe.EndPoint`: requires at least one lifted finger, which every touch end reports; the source would throw on an empty list.
- `SkillsPage.StarClick`: requires a constellation to be open, as the stars only exist then; the notification the failing branch was meant to show is not modelled.
- `Magic.HandleCast`: the shout's announcement is a notification only and is not modelled.

=== FILE: checkin_form.dfy ===
/** The daily check-in form (src/components/Skyrim/AddLogModal.tsx): the
    faces beside the two sliders, editing the three highlights, and what a
    submit writes and grants. */
module CheckIn {
  import opened Common
  import opened Stats

  /** The faces the form can show. */
  datatype Face =
    | Sobbing | Disappointed | Neutral | Smiling | Grinning | StarStruck
    | Sleeping | Yawning | Charged | Lightning | Rocket

  const MOOD_FACES: seq<Face> := [Sobbing, Disappointed, Neutral, Smiling, Grinning, StarStruck]
  const ENERGY_FACES: seq<Face> := [Sleeping, Yawning, Neutral, Charged, Lightning, Rocket]

  /** `table[Math.floor((v - 1) / 2)] || neutral`: an index outside the
      table falls back to the neutral face. */
  function FaceFor(table: seq<Face>, v: int): (r: Face)
    ensures 0 <= (v - 1) / 2 < |table| ==> r == table[(v - 1) / 2]
    ensures !(0 <= (v - 1) / 2 < |table|) ==> r == Neutral
  {
    var i := (v - 1) / 2;
    if 0 <= i < |table| then table[i] else Neutral
  }

  function MoodFace(v: int): Face { FaceFor(MOOD_FACES, v) }
  function EnergyFace(v: int): Face { FaceFor(ENERGY_FACES, v) }

  /** On the slider's range 1..10 the faces go up one step every two
      values; the top face of each table is never shown, and both faces
      are the neutral one exactly at 5 and 6. */
  lemma SliderFaces(v: int)
    requires 1 <= v <= 10
    ensures MoodFace(v) == MOOD_FACES[(v - 1) / 2] && EnergyFace(v) == ENERGY_FACES[(v - 1) / 2]
    ensures (v - 1) / 2 <= 4
    ensures MoodFace(v) != StarStruck && EnergyFace(v) != Rocket
    ensures MoodFace(v) == Neutral <==> v == 5 || v == 6
    ensures EnergyFace(v) == Neutral <==> v == 5 || v == 6
  {
  }

  /** Every face but the last of each table is shown for some slider value. */
  lemma LowerFacesShown(k: nat)
    requires k < 5
    ensures 1 <= 2 * k + 1 <= 10
    ensures MoodFace(2 * k + 1) == MOOD_FACES[k] && EnergyFace(2 * k + 1) == ENERGY_FACES[k]
  {
  }

  /** A higher slider never shows a lower face. */
  lemma FacesMonotone(v: int, w: int)
    requires 1 <= v <= w <= 10
    ensures exists i, j :: 0 <= i <= j < 5 && MoodFace(v) == MOOD_FACES[i] && MoodFace(w) == MOOD_FACES[j]
    ensures exists i, j :: 0 <= i <= j < 5 && EnergyFace(v) == ENERGY_FACES[i] && EnergyFace(w) == ENERGY_FACES[j]
  {
    var i, j := (v - 1) / 2, (w - 1) / 2;
    SliderFaces(v);
    SliderFaces(w);
    assert 0 <= i <= j < 5 && MoodFace(v) == MOOD_FACES[i] && MoodFace(w) == MOOD_FACES[j];
    assert EnergyFace(v) == ENERGY_FACES[i] && EnergyFace(w) == ENERGY_FACES[j];
  }

  /** `handleHighlightChange`: a copy with one field replaced. */
  function SetHighlight(highlights: seq<string>, index: nat, value: string): (r: seq<string>)
    requires index < |highlights|
    ensures |r| == |highlights| && r[index] == value
    ensures forall i :: 0 <= i < |r| && i != index ==> r[i] == highlights[i]
  {
    highlights[index := value]
  }

  /** Typing the old text back restores the list; the last edit of a field
      wins. */
  lemma SetHighlightUndo(highlights: seq<string>, index: nat, value: string, other: string)
    requires index < |highlights|
    ensures SetHighlight(SetHighlight(highlights, index, value), index, highlights[index]) == highlights
    ensures SetHighlight(SetHighlight(highlights, index, value), index, other)
            == SetHighlight(highlights, index, other)
  {
  }

  /** The form: two sliders, a sleep number input in half-hour steps, three highlights and
      the in-flight flag. */
  datatype Form = Form(mood: int, energy: int, sleepHalfHours: int, highlights: seq<string>, loading: bool)

  /** Mood 5, energy 5, seven hours of sleep, three empty highlights. */
  const INITIAL_FORM := Form(5, 5, 14, ["", "", ""], false)

  /** The journal entry a submit stores. */
  datatype Entry = Entry(mood: int, energy: int, sleepHalfHours: int, highlights: seq<string>, timestamp: int)

  datatype Submitted = Submitted(form: Form, stats: UserStats, entry: Option<Entry>, closed: bool)

  /** `handleSubmit`: without a user or while a submit is in flight nothing
      happens; otherwise the entry is stored, the sliders become the
      attributes with their XP grants, 50 more XP go to the character, and
      the form closes with its loading flag cleared. The final `addXP(50)`
      reads the effects of the sheet from before the submit, like the
      grants, so its bonus is the old sheet's. */
  function Submit(f: Form, s: UserStats, signedIn: bool, now: int): (r: Submitted)
    ensures !signedIn || f.loading ==> r == Submitted(f, s, None, false)
    ensures signedIn && !f.loading ==>
              r.entry == Some(Entry(f.mood, f.energy, f.sleepHalfHours, f.highlights, now)) && r.closed && r.form == f
    ensures signedIn && !f.loading ==>
              var u := UpdateAttributes(s, f.mood, f.energy, f.sleepHalfHours);
              r.stats == u.(xp := u.xp + FinalAmount(50, IsWellRested(s)))
  {
    if !signedIn || f.loading then Submitted(f, s, None, false)
    else
      var entry := Entry(f.mood, f.energy, f.sleepHalfHours, f.highlights, now);
      var stats := Attributes(AddXP(CheckInGrants(s, f.energy), 50, None), f.mood, f.energy, f.sleepHalfHours);
      Submitted(f, stats, Some(entry), true)
  }

  /** After a submit the sheet's attributes are read off the stored entry:
      health is ten times the mood, stamina ten times the energy, and
      magicka ten times the hours of sleep, capped at 100. */
  lemma SubmitAttributesMatchEntry(f: Form, s: UserStats, now: int)
    ensures var r := Submit(f, s, true, now);
            r.entry.Some? ==>
              && r.stats.health == r.entry.value.mood * 10
              && r.stats.stamina == r.entry.value.energy * 10
              && r.stats.magicka == Min(r.entry.value.sleepHalfHours * 5, 100)
  {
  }

  /** A submit from slider values in range keeps a valid sheet valid; the
      perks, inventory and quest count are untouched. */
  lemma SubmitPreservesValid(f: Form, s: UserStats, now: int)
    requires Valid(s) && 1 <= f.mood <= 10 && 1 <= f.energy <= 10 && f.sleepHalfHours >= 0
    ensures var r := Submit(f, s, true, now).stats;
            Valid(r) && r.perks == s.perks && r.inventory == s.inventory
            && r.completedQuestCount == s.completedQuestCount
  {
    if !f.loading {
      UpdateAttributesPreservesValid(s, f.mood, f.energy, f.sleepHalfHours);
      assert FinalAmount(50, IsWellRested(s)) >= 0;
    }
  }

  /** A submit is the check-in followed by `addXP(50)` for the character,
      whenever the check-in leaves the Well Rested bonus as it was. */
  lemma SubmitIsCheckInThenXP(f: Form, s: UserStats, now: int)
    requires !f.loading
    ensures var u := UpdateAttributes(s, f.mood, f.energy, f.sleepHalfHours);
            IsWellRested(u) == IsWellRested(s) ==> Submit(f, s, true, now).stats == AddXP(u, 50, None)
  {
  }
}

=== FILE: common.dfy ===
/** Small shared vocabulary: optional values, swipe directions and a few
    arithmetic helpers that the JavaScript source gets from `Math`. */
module Common {

  /** A value that may be absent (`undefined` / `null` in the source). */
  datatype Option<+T> = None | Some(value: T) {
    function GetOr(default: T): (r: T)
      ensures Some? ==> r == value
      ensures None? ==> r == default
    {
      match this
      case Some(v) => v
      case None => default
    }
  }

  /** The four directions a gesture can report. */
  datatype Direction = Up | Down | Left | Right

  /** The direction pointing the other way. */
  function Opposite(d: Direction): (r: Direction)
    ensures r != d
  {
    match d
    case Up => Down
    case Down => Up
    case Left => Right
    case Right => Left
  }

  function Min(a: int, b: int): (r: int)
    ensures r <= a && r <= b
    ensures r == a || r == b
  {
    if a < b then a else b
  }

  function Abs(x: real): (r: real)
    ensures r >= 0.0
    ensures r == x || r == -x
  {
    if x < 0.0 then -x else x
  }

  /** JavaScript truthiness of a number read from a document: absent and
      zero are both falsy, so `v || d` picks the default for either. */
  function OrDefault(v: Option<int>, d: int): (r: int)
    ensures v.Some? && v.value != 0 ==> r == v.value
    ensures (v.None? || v.value == 0) ==> r == d
  {
    if v.Some? && v.value != 0 then v.value else d
  }

  /** `Array.prototype.filter`: the elements satisfying `p`, in order. */
  function Filter<T>(s: seq<T>, p: T -> bool): (r: seq<T>)
    ensures |r| <= |s|
    ensures forall i :: 0 <= i < |r| ==> p(r[i])
    ensures forall i :: 0 <= i < |r| ==> r[i] in s
    ensures forall i :: 0 <= i < |s| && p(s[i]) ==> s[i] in r
  {
    if |s| == 0 then []
    else if p(s[0]) then [s[0]] + Filter(s[1..], p)
    else Filter(s[1..], p)
  }

  /** A single element passes the filter alone or not at all. */
  lemma FilterSingleton<T>(x: T, p: T -> bool)
    ensures Filter([x], p) == if p(x) then [x] else []
  {
    assert [x][1..] == [];
  }

  /** Filtering distributes over concatenation: relative order is kept. */
  lemma {:induction false} FilterAppend<T>(a: seq<T>, b: seq<T>, p: T -> bool)
    ensures Filter(a + b, p) == Filter(a, p) + Filter(b, p)
  {
    if |a| == 0 {
      assert a + b == b;
    } else {
      var ab := a + b;
      assert ab[0] == a[0];
      assert ab[1..] == a[1..] + b;
      FilterAppend(a[1..], b, p);
      if p(a[0]) {
        calc {
          Filter(ab, p);
          [a[0]] + Filter(a[1..] + b, p);
          [a[0]] + (Filter(a[1..], p) + Filter(b, p));
          ([a[0]] + Filter(a[1..], p)) + Filter(b, p);
        }
      } else {
        calc {
          Filter(ab, p);
          Filter(a[1..] + b, p);
        }
      }
    }
  }

  /** Filtering with a predicate every element satisfies changes nothing. */
  lemma {:induction false} FilterAll<T>(s: seq<T>, p: T -> bool)
    requires forall i :: 0 <= i < |s| ==> p(s[i])
    ensures Filter(s, p) == s
  {
    if |s| > 0 {
      FilterAll(s[1..], p);
    }
  }

  /** Filtering keeps exactly the one element that passes. */
  lemma {:induction false} FilterUnique<T>(s: seq<T>, p: T -> bool, k: nat)
    requires k < |s| && p(s[k])
    requires forall i :: 0 <= i < |s| && i != k ==> !p(s[i])
    ensures Filter(s, p) == [s[k]]
  {
    if k == 0 {
      FilterNone(s[1..], p);
    } else {
      FilterUnique(s[1..], p, k - 1);
    }
  }

  /** `Array.prototype.includes` followed by a push: Firestore's `arrayUnion`
      for one element adds it only when it is not already present. */
  function ArrayUnion<T(==)>(s: seq<T>, x: T): (r: seq<T>)
    ensures x in r
    ensures forall i :: 0 <= i < |s| ==> s[i] in r
    ensures x !in s ==> r == s + [x]
    ensures x in s ==> r == s
  {
    if x in s then s else s + [x]
  }

  /** Filtering with a predicate no element satisfies leaves nothing. */
  lemma {:induction false} FilterNone<T>(s: seq<T>, p: T -> bool)
    requires forall i :: 0 <= i < |s| ==> !p(s[i])
    ensures Filter(s, p) == []
  {
    if |s| > 0 {
      FilterNone(s[1..], p);
    }
  }
}

=== FILE: constellations.dfy ===
/** The perk trees (src/data/constellations.ts): one constellation per skill,
    each a list of perks and a list of index pairs drawn as lines. Star
    positions, descriptions and the decorative paths are not modelled. */
module Constellations {
  import Stats

  datatype Perk = Perk(id: string, name: string)

  /** A line from perk `start` to perk `end`, by index into `perks`. */
  datatype Line = Line(start: int, end: int)

  datatype Constellation = Constellation(
    name: string,
    skillKey: string,
    perks: seq<Perk>,
    lines: seq<Line>)

  const RESTORATION_TREE := Constellation("RESTORATION", "RESTORATION",
    [Perk("rest_1", "Consistent Bedtime"), Perk("rest_2", "Digital Detox"),
     Perk("rest_3", "Deep REM"), Perk("rest_4", "Self-Compassion"),
     Perk("rest_5", "Boundary Setter"), Perk("rest_6", "Restorative Silence"),
     Perk("rest_7", "Waking Grace")],
    [Line(0, 1), Line(1, 2), Line(2, 3), Line(3, 4), Line(4, 5), Line(5, 6), Line(6, 3)])

  const ENCHANTING_TREE := Constellation("ENCHANTING", "ENCHANTING",
    [Perk("ench_1", "Flow State"), Perk("ench_2", "Corpus Shield"),
     Perk("ench_3", "Soul Gem Focus"), Perk("ench_4", "Arcane Network"),
     Perk("ench_5", "Master Scribe")],
    [Line(0, 1), Line(0, 2), Line(0, 3), Line(3, 4)])

  const SMITHING_TREE := Constellation("SMITHING", "SMITHING",
    [Perk("smith_1", "Basic Maintenance"), Perk("smith_2", "Polished Plate"),
     Perk("smith_3", "Clean Weave"), Perk("smith_4", "Gilded Soul"),
     Perk("smith_5", "External Sanctuary")],
    [Line(0, 1), Line(1, 2), Line(2, 3), Line(1, 4)])

  const SPEECH_TREE := Constellation("SPEECH", "SPEECH",
    [Perk("speech_1", "Inner Dialogue"), Perk("speech_2", "Active Listening"),
     Perk("speech_3", "Vulnerability"), Perk("speech_4", "Truth-Teller"),
     Perk("speech_5", "The Scribe"), Perk("speech_6", "Conflict Resolver")],
    [Line(0, 2), Line(2, 4), Line(1, 3), Line(3, 5), Line(2, 3)])

  const ALCHEMY_TREE := Constellation("ALCHEMY", "ALCHEMY",
    [Perk("alch_1", "Hydration Potion"), Perk("alch_2", "Nutrient Gatherer"),
     Perk("alch_3", "Sobriety Scroll"), Perk("alch_4", "Focus Flux"),
     Perk("alch_5", "Master Alchemist")],
    [Line(0, 1), Line(1, 2), Line(2, 3), Line(3, 4)])

  const TWO_HANDED_TREE := Constellation("TWO-HANDED", "TWO-HANDED",
    [Perk("twoh_1", "Barbarian Pulse"), Perk("twoh_2", "Crushing Grip"),
     Perk("twoh_3", "Iron Hide"), Perk("twoh_4", "Greatsword Stride"),
     Perk("twoh_5", "Champion Force"), Perk("twoh_6", "Stamina Surge"),
     Perk("twoh_7", "Devastating Blow")],
    [Line(0, 1), Line(1, 2), Line(2, 3), Line(3, 4), Line(4, 5), Line(5, 6)])

  const ONE_HANDED_TREE := Constellation("ONE-HANDED", "ONE-HANDED",
    [Perk("one_1", "Swift Strike"), Perk("one_2", "Dual Flurry"),
     Perk("one_3", "Reflexes"), Perk("one_4", "Bonebreaker"),
     Perk("one_5", "Savage Strike"), Perk("one_6", "Paralyzing Strike")],
    [Line(1, 3), Line(3, 2), Line(2, 4), Line(4, 5), Line(2, 0)])

  const ALTERATION_TREE := Constellation("ALTERATION", "ALTERATION",
    [Perk("alt_1", "Mind Shield"), Perk("alt_2", "Stability"),
     Perk("alt_3", "Equilibrium"), Perk("alt_4", "Magic Resistance")],
    [Line(0, 1), Line(0, 2), Line(0, 3)])

  const CONSTELLATIONS: seq<Constellation> := [
    RESTORATION_TREE, ENCHANTING_TREE, SMITHING_TREE, SPEECH_TREE,
    ALCHEMY_TREE, TWO_HANDED_TREE, ONE_HANDED_TREE, ALTERATION_TREE]

  /** Both ends of every line name a perk of the same constellation. */
  predicate LinesInRange(c: Constellation) {
    forall k :: 0 <= k < |c.lines| ==>
      0 <= c.lines[k].start < |c.perks| && 0 <= c.lines[k].end < |c.perks|
  }

  /** No two perks of one constellation share an id. */
  predicate DistinctIds(c: Constellation) {
    forall i, j :: 0 <= i < j < |c.perks| ==> c.perks[i].id != c.perks[j].id
  }

  /** No perk id of one constellation appears in another. */
  predicate Disjoint(c: Constellation, d: Constellation) {
    forall i, j :: 0 <= i < |c.perks| && 0 <= j < |d.perks| ==> c.perks[i].id != d.perks[j].id
  }

  predicate WellFormed(c: Constellation) {
    |c.perks| > 0 && LinesInRange(c) && DistinctIds(c) && c.name == c.skillKey
  }

  /** Every perk id of the constellation begins with the given tag. */
  predicate TaggedBy(c: Constellation, tag: string) {
    forall i :: 0 <= i < |c.perks| ==> |c.perks[i].id| >= |tag| && c.perks[i].id[..|tag|] == tag
  }

  /** The id prefix shared by the perks of each constellation, in order. */
  const TAGS: seq<string> := ["res", "enc", "smi", "spe", "alc", "two", "one", "alt"]

  lemma DifferentTagsDisjoint(c: Constellation, d: Constellation, t: string, u: string)
    requires TaggedBy(c, t) && TaggedBy(d, u) && |t| == |u| && t != u
    ensures Disjoint(c, d)
  {
  }

  /** The last character of every perk id is the perk's 1-based position,
      which keeps the ids of one constellation apart. */
  predicate NumberedIds(c: Constellation) {
    forall k :: 0 <= k < |c.perks| ==>
      |c.perks[k].id| > 0 && c.perks[k].id[|c.perks[k].id| - 1] as int == '1' as int + k
  }

  lemma NumberedIdsDistinct(c: Constellation)
    requires NumberedIds(c)
    ensures DistinctIds(c)
  {
    forall i, j | 0 <= i < j < |c.perks|
      ensures c.perks[i].id != c.perks[j].id
    {
      var a, b := c.perks[i].id, c.perks[j].id;
      assert a[|a| - 1] != b[|b| - 1];
    }
  }

  lemma RestorationFacts()
    ensures WellFormed(RESTORATION_TREE) && TaggedBy(RESTORATION_TREE, "res")
  {
    RestorationNumbered();
    NumberedIdsDistinct(RESTORATION_TREE);
    RestorationTagged();
  }

  lemma RestorationNumbered()
    ensures NumberedIds(RESTORATION_TREE) && LinesInRange(RESTORATION_TREE)
  {
  }

  lemma RestorationTagged()
    ensures TaggedBy(RESTORATION_TREE, "res")
  {
  }

  lemma EnchantingFacts()
    ensures WellFormed(ENCHANTING_TREE) && TaggedBy(ENCHANTING_TREE, "enc")
  {
    EnchantingNumbered();
    NumberedIdsDistinct(ENCHANTING_TREE);
    EnchantingTagged();
  }

  lemma EnchantingNumbered()
    ensures NumberedIds(ENCHANTING_TREE) && LinesInRange(ENCHANTING_TREE)
  {
  }

  lemma EnchantingTagged()
    ensures TaggedBy(ENCHANTING_TREE, "enc")
  {
  }

  lemma SmithingFacts()
    ensures WellFormed(SMITHING_TREE) && TaggedBy(SMITHING_TREE, "smi")
  {
    SmithingNumbered();
    NumberedIdsDistinct(SMITHING_TREE);
    SmithingTagged();
  }

  lemma SmithingNumbered()
    ensures NumberedIds(SMITHING_TREE) && LinesInRange(SMITHING_TREE)
  {
  }

  lemma SmithingTagged()
    ensures TaggedBy(SMITHING_TREE, "smi")
  {
  }

  lemma SpeechFacts()
    ensures WellFormed(SPEECH_TREE) && TaggedBy(SPEECH_TREE, "spe")
  {
    SpeechNumbered();
    NumberedIdsDistinct(SPEECH_TREE);
    SpeechTagged();
  }

  lemma SpeechNumbered()
    ensures NumberedIds(SPEECH_TREE) && LinesInRange(SPEECH_TREE)
  {
  }

  lemma SpeechTagged()
    ensures TaggedBy(SPEECH_TREE, "spe")
  {
  }

  lemma AlchemyFacts()
    ensures WellFormed(ALCHEMY_TREE) && TaggedBy(ALCHEMY_TREE, "alc")
  {
    AlchemyNumbered();
    NumberedIdsDistinct(ALCHEMY_TREE);
    AlchemyTagged();
  }

  lemma AlchemyNumbered()
    ensures NumberedIds(ALCHEMY_TREE) && LinesInRange(ALCHEMY_TREE)
  {
  }

  lemma AlchemyTagged()
    ensures TaggedBy(ALCHEMY_TREE, "alc")
  {
  }

  lemma TwoHandedFacts()
    ensures WellFormed(TWO_HANDED_TREE) && TaggedBy(TWO_HANDED_TREE, "two")
  {
    TwoHandedNumbered();
    NumberedIdsDistinct(TWO_HANDED_TREE);
    TwoHandedTagged();
  }

  lemma TwoHandedNumbered()
    ensures NumberedIds(TWO_HANDED_TREE) && LinesInRange(TWO_HANDED_TREE)
  {
  }

  lemma TwoHandedTagged()
    ensures TaggedBy(TWO_HANDED_TREE, "two")
  {
  }

  lemma OneHandedFacts()
    ensures WellFormed(ONE_HANDED_TREE) && TaggedBy(ONE_HANDED_TREE, "one")
  {
    OneHandedNumbered();
    NumberedIdsDistinct(ONE_HANDED_TREE);
    OneHandedTagged();
  }

  lemma OneHandedNumbered()
    ensures NumberedIds(ONE_HANDED_TREE) && LinesInRange(ONE_HANDED_TREE)
  {
  }

  lemma OneHandedTagged()
    ensures TaggedBy(ONE_HANDED_TREE, "one")
  {
  }

  lemma AlterationFacts()
    ensures WellFormed(ALTERATION_TREE) && TaggedBy(ALTERATION_TREE, "alt")
  {
    AlterationNumbered();
    NumberedIdsDistinct(ALTERATION_TREE);
    AlterationTagged();
  }

  lemma AlterationNumbered()
    ensures NumberedIds(ALTERATION_TREE) && LinesInRange(ALTERATION_TREE)
  {
  }

  lemma AlterationTagged()
    ensures TaggedBy(ALTERATION_TREE, "alt")
  {
  }

  lemma TreeFacts(i: nat)
    requires i < |CONSTELLATIONS|
    ensures WellFormed(CONSTELLATIONS[i]) && TaggedBy(CONSTELLATIONS[i], TAGS[i])
  {
    if i == 0 { RestorationFacts(); }
    else if i == 1 { EnchantingFacts(); }
    else if i == 2 { SmithingFacts(); }
    else if i == 3 { SpeechFacts(); }
    else if i == 4 { AlchemyFacts(); }
    else if i == 5 { TwoHandedFacts(); }
    else if i == 6 { OneHandedFacts(); }
    else { AlterationFacts(); }
  }

  /** The shape of the data the pages rely on: every constellation is well
      formed, the perk ids are unique across the whole list (owned perks are
      one flat list of ids), and the constellations are exactly the default
      skills, one each. */
  lemma DataWellFormed()
    ensures forall i :: 0 <= i < |CONSTELLATIONS| ==> WellFormed(CONSTELLATIONS[i])
    ensures forall i, j :: 0 <= i < j < |CONSTELLATIONS| ==>
              Disjoint(CONSTELLATIONS[i], CONSTELLATIONS[j])
    ensures forall i, j :: 0 <= i < j < |CONSTELLATIONS| ==>
              CONSTELLATIONS[i].skillKey != CONSTELLATIONS[j].skillKey
    ensures (set i | 0 <= i < |CONSTELLATIONS| :: CONSTELLATIONS[i].skillKey) == Stats.DEFAULT_SKILLS.Keys
  {
    TreesWellFormed();
    TreesDisjoint();
    TreeKeys();
  }

  lemma TreesWellFormed()
    ensures forall i :: 0 <= i < |CONSTELLATIONS| ==> WellFormed(CONSTELLATIONS[i])
  {
    forall i | 0 <= i < |CONSTELLATIONS|
      ensures WellFormed(CONSTELLATIONS[i])
    {
      TreeFacts(i);
    }
  }

  lemma TreesDisjoint()
    ensures forall i, j :: 0 <= i < j < |CONSTELLATIONS| ==>
              Disjoint(CONSTELLATIONS[i], CONSTELLATIONS[j])
  {
    forall i, j | 0 <= i < j < |CONSTELLATIONS|
      ensures Disjoint(CONSTELLATIONS[i], CONSTELLATIONS[j])
    {
      TreeFacts(i);
      TreeFacts(j);
      DifferentTagsDisjoint(CONSTELLATIONS[i], CONSTELLATIONS[j], TAGS[i], TAGS[j]);
    }
  }

  lemma TreeKeys()
    ensures forall i, j :: 0 <= i < j < |CONSTELLATIONS| ==>
              CONSTELLATIONS[i].skillKey != CONSTELLATIONS[j].skillKey
    ensures (set i | 0 <= i < |CONSTELLATIONS| :: CONSTELLATIONS[i].skillKey) == Stats.DEFAULT_SKILLS.Keys
  {
    var keys := set i | 0 <= i < |CONSTELLATIONS| :: CONSTELLATIONS[i].skillKey;
    forall k | k in Stats.DEFAULT_SKILLS.Keys
      ensures k in keys
    {
      if k == Stats.RESTORATION { assert CONSTELLATIONS[0].skillKey == k; }
      else if k == Stats.ENCHANTING { assert CONSTELLATIONS[1].skillKey == k; }
      else if k == Stats.SMITHING { assert CONSTELLATIONS[2].skillKey == k; }
      else if k == Stats.SPEECH { assert CONSTELLATIONS[3].skillKey == k; }
      else if k == Stats.ALCHEMY { assert CONSTELLATIONS[4].skillKey == k; }
      else if k == Stats.TWO_HANDED { assert CONSTELLATIONS[5].skillKey == k; }
      else if k == Stats.ONE_HANDED { assert CONSTELLATIONS[6].skillKey == k; }
      else { assert CONSTELLATIONS[7].skillKey == k; }
    }
  }
}

=== FILE: dashboard.dfy ===
/** The dashboard's journal views (src/pages/Dashboard.tsx): the entries
    sorted oldest first, the chart series, and the five most recent entries
    newest first. */
module Dashboard {
  import opened Common
  import opened Sorting
  import opened CheckIn

  /** `timestamp.seconds`: whole seconds of the millisecond stamp. */
  function Seconds(e: Entry): int {
    e.timestamp / 1000
  }

  /** The fetched entries sorted by whole seconds, oldest first; entries
      stamped within the same second keep the order they came in. */
  function SortEntries(entries: seq<Entry>): (r: seq<Entry>)
    ensures |r| == |entries|
    ensures multiset(r) == multiset(entries)
    ensures SortedBy(r, Seconds)
    ensures forall k :: Select(r, Seconds, k) == Select(entries, Seconds, k)
  {
    InsertionSort(entries, Seconds)
  }

  /** Entries already in order are left alone. */
  lemma {:induction false} SortSortedIsIdentity(entries: seq<Entry>)
    requires SortedBy(entries, Seconds)
    ensures SortEntries(entries) == entries
  {
    if |entries| > 0 {
      var t := entries[1..];
      assert SortedBy(t, Seconds);
      SortSortedIsIdentity(t);
      assert entries == [entries[0]] + t;
    }
  }

  /** A chart point: the calendar day as the axis label and the three
      readings. */
  datatype ChartPoint = ChartPoint(day: int, mood: int, energy: int, sleepHalfHours: int)

  const MS_PER_DAY := 86400000

  function ChartData(entries: seq<Entry>): (r: seq<ChartPoint>)
    ensures |r| == |entries|
    ensures forall i :: 0 <= i < |r| ==>
              r[i] == ChartPoint(entries[i].timestamp / MS_PER_DAY, entries[i].mood,
                                 entries[i].energy, entries[i].sleepHalfHours)
  {
    seq(|entries|, i requires 0 <= i < |entries| =>
      ChartPoint(entries[i].timestamp / MS_PER_DAY, entries[i].mood, entries[i].energy,
                 entries[i].sleepHalfHours))
  }

  /** Over sorted entries the chart's days never go backwards. */
  lemma ChartDaysInOrder(entries: seq<Entry>, i: int, j: int)
    requires SortedBy(entries, Seconds)
    requires 0 <= i < j < |entries|
    ensures ChartData(entries)[i].day <= ChartData(entries)[j].day
  {
    var a, b := entries[i].timestamp, entries[j].timestamp;
    assert a / 1000 <= b / 1000;
    DayOfSeconds(a);
    DayOfSeconds(b);
  }

  /** A millisecond stamp's day is determined by its whole seconds. */
  lemma DayOfSeconds(t: int)
    ensures t / MS_PER_DAY == (t / 1000) / 86400
  {
  }

  /** `[...entries].reverse().slice(0, 5)`. */
  function RecentEntries(entries: seq<Entry>): (r: seq<Entry>)
    ensures |r| == Min(5, |entries|)
    ensures forall i :: 0 <= i < |r| ==> r[i] == entries[|entries| - 1 - i]
  {
    var n := Min(5, |entries|);
    seq(n, i requires 0 <= i < n => entries[|entries| - 1 - i])
  }

  /** Over sorted entries the recent list is newest first, and its head is
      the newest entry of all. */
  lemma RecentNewestFirst(entries: seq<Entry>)
    requires SortedBy(entries, Seconds)
    ensures var r := RecentEntries(entries);
            && (forall i, j :: 0 <= i < j < |r| ==> Seconds(r[j]) <= Seconds(r[i]))
            && (|r| > 0 ==> forall k :: 0 <= k < |entries| ==> Seconds(entries[k]) <= Seconds(r[0]))
  {
  }

  /** The recent list is the tail of the chart, read backwards. */
  lemma RecentIsChartTail(entries: seq<Entry>, i: int)
    requires 0 <= i < |RecentEntries(entries)|
    ensures ChartData(entries)[|entries| - 1 - i].mood == RecentEntries(entries)[i].mood
  {
  }
}

=== FILE: inventory.dfy ===
/** The inventory page (src/pages/Inventory.tsx): the category filter, the
    use button's enable condition and label, and using the chosen item. */
module Inventory {
  import opened Common
  import opened Stats

  const ALL_CATEGORIES := "ALL"

  /** The category names the page shows, in display order. */
  const CATEGORIES: seq<string> := [ALL_CATEGORIES, "APPAREL", "POTIONS", "BOOKS", "MISC"]

  /** The stored name of an item category. */
  function CategoryName(c: Category): (r: string)
    ensures r in CATEGORIES && r != ALL_CATEGORIES
  {
    match c
    case Apparel => "APPAREL"
    case Potions => "POTIONS"
    case Books => "BOOKS"
    case Misc => "MISC"
  }

  /** Different categories have different names. */
  lemma CategoryNameInjective(c: Category, d: Category)
    ensures CategoryName(c) == CategoryName(d) <==> c == d
  {
  }

  function InCategory(name: string): Item -> bool {
    (item: Item) => CategoryName(item.template.category) == name
  }

  /** The items under a category tab: all of them under ALL, otherwise
      those of that category, in inventory order. */
  function FilteredItems(inventory: seq<Item>, tab: string): (r: seq<Item>)
    ensures tab == ALL_CATEGORIES ==> r == inventory
    ensures tab != ALL_CATEGORIES ==>
              forall i :: 0 <= i < |r| ==> CategoryName(r[i].template.category) == tab && r[i] in inventory
    ensures tab != ALL_CATEGORIES ==>
              forall i :: 0 <= i < |inventory| && CategoryName(inventory[i].template.category) == tab ==>
                inventory[i] in r
  {
    if tab == ALL_CATEGORIES then inventory else Filter(inventory, InCategory(tab))
  }

  /** The tab keeps the inventory's order and copies: it is built piece by
      piece, one item at a time. */
  lemma FilteredItemsKeepOrder(a: seq<Item>, b: seq<Item>, x: Item, tab: string)
    ensures FilteredItems(a + b, tab) == FilteredItems(a, tab) + FilteredItems(b, tab)
    ensures FilteredItems([x], tab) ==
              if tab == ALL_CATEGORIES || CategoryName(x.template.category) == tab then [x] else []
  {
    FilterAppend(a, b, InCategory(tab));
    FilterSingleton(x, InCategory(tab));
  }

  /** The four category tabs split the inventory: every item is under
      exactly one of them, so their sizes add up to the whole. */
  lemma CategoriesPartition(inventory: seq<Item>)
    ensures |FilteredItems(inventory, "APPAREL")| + |FilteredItems(inventory, "POTIONS")|
            + |FilteredItems(inventory, "BOOKS")| + |FilteredItems(inventory, "MISC")| == |inventory|
  {
    CountsPartition(inventory);
  }

  /** The number of items of a category. */
  function Count(inventory: seq<Item>, name: string): nat {
    |Filter(inventory, InCategory(name))|
  }

  lemma {:induction false} CountsPartition(inventory: seq<Item>)
    ensures Count(inventory, "APPAREL") + Count(inventory, "POTIONS")
            + Count(inventory, "BOOKS") + Count(inventory, "MISC") == |inventory|
  {
    if |inventory| > 0 {
      var rest := inventory[1..];
      CountsPartition(rest);
      CountCons(inventory, "APPAREL");
      CountCons(inventory, "POTIONS");
      CountCons(inventory, "BOOKS");
      CountCons(inventory, "MISC");
    }
  }

  /** Counting steps over the first item, which counts for its own
      category only. */
  lemma CountCons(inventory: seq<Item>, name: string)
    requires |inventory| > 0
    ensures Count(inventory, name)
            == (if CategoryName(inventory[0].template.category) == name then 1 else 0) + Count(inventory[1..], name)
  {
    assert InCategory(name)(inventory[0]) == (CategoryName(inventory[0].template.category) == name);
  }

  /** The use button is disabled for apparel. */
  predicate UseEnabled(item: Item) {
    item.template.category != Apparel
  }

  /** Potions and miscellany are "used", everything else "equipped". */
  function UseLabel(item: Item): (r: string)
    ensures r == "USE ITEM" <==> item.template.category in {Potions, Misc}
    ensures r == "USE ITEM" || r == "EQUIP ITEM"
  {
    if item.template.category == Potions || item.template.category == Misc then "USE ITEM" else "EQUIP ITEM"
  }

  /** A book is labelled for equipping yet is consumed like a potion. */
  lemma BooksEquipButAreUsed(item: Item)
    requires item.template.category == Books
    ensures UseLabel(item) == "EQUIP ITEM" && UseEnabled(item)
  {
  }

  datatype InventoryPage = InventoryPage(tab: string, selected: Option<Item>)

  datatype InventoryEvent = PickCategory(tab: string) | PickItem(index: nat) | PressUse

  /** One user action. Choosing a tab clears the chosen item; an item is
      chosen from the list under the current tab; the use button hands the
      chosen item to the context and clears the choice. */
  function InventoryStep(p: InventoryPage, s: UserStats, e: InventoryEvent): (r: (InventoryPage, UserStats))
    ensures e.PickCategory? && e.tab in CATEGORIES ==> r.0 == InventoryPage(e.tab, None)
    ensures r.1 != s ==> e.PressUse? && p.selected.Some? && UseEnabled(p.selected.value)
    ensures e.PressUse? && p.selected.Some? && UseEnabled(p.selected.value) ==>
              r == (p.(selected := None), UseItem(s, p.selected.value))
    ensures p.selected.Some? && !UseEnabled(p.selected.value) && e.PressUse? ==> r == (p, s)
  {
    match e
    case PickCategory(tab) =>
      if tab in CATEGORIES then (InventoryPage(tab, None), s) else (p, s)
    case PickItem(i) =>
      var items := FilteredItems(s.inventory, p.tab);
      if i < |items| then (p.(selected := Some(items[i])), s) else (p, s)
    case PressUse =>
      if p.selected.Some? && UseEnabled(p.selected.value) then
        (p.(selected := None), UseItem(s, p.selected.value))
      else (p, s)
  }

  /** Choosing an item from any tab and pressing use removes every copy of
      it from the inventory, whatever the item does. */
  lemma PickThenUseRemoves(p: InventoryPage, s: UserStats, i: nat)
    requires i < |FilteredItems(s.inventory, p.tab)|
    requires UseEnabled(FilteredItems(s.inventory, p.tab)[i])
    ensures var item := FilteredItems(s.inventory, p.tab)[i];
            var (p1, s1) := InventoryStep(p, s, PickItem(i));
            var (p2, s2) := InventoryStep(p1, s1, PressUse);
            && p2.selected.None?
            && UidFresh(s2.inventory, item.uid)
            && |s2.inventory| < |s.inventory|
  {
    var item := FilteredItems(s.inventory, p.tab)[i];
    assert item in s.inventory;
    var k :| 0 <= k < |s.inventory| && s.inventory[k] == item;
    RemoveShrinks(s.inventory, k);
  }

  /** Removing the uid of an item present drops at least that entry. */
  lemma {:induction false} RemoveShrinks(inventory: seq<Item>, k: nat)
    requires k < |inventory|
    ensures |RemoveUid(inventory, inventory[k].uid)| < |inventory|
  {
    var uid := inventory[k].uid;
    var keep := (x: Item) => x.uid != uid;
    FilterDrops(inventory, keep, k);
  }

  lemma {:induction false} FilterDrops(s: seq<Item>, p: Item -> bool, k: nat)
    requires k < |s| && !p(s[k])
    ensures |Filter(s, p)| < |s|
  {
    if k > 0 {
      FilterDrops(s[1..], p, k - 1);
    }
  }
}

=== FILE: magic.dfy ===
/** The magic page (src/pages/Magic.tsx): the fixed spells and shouts, the
    school filter, the cast button's enable condition and what a cast does to
    the character sheet. */
module Magic {
  import opened Common
  import opened Stats

  /** A spell or a shout. Descriptions and effect texts are not modelled. */
  datatype Spell = Spell(id: string, name: string, school: string, cost: int, words: seq<string>)

  const SHOUT_SCHOOL := "SHOUTS"
  const ALL_SCHOOLS := "ALL"
  const ACTIVE_EFFECTS := "ACTIVE EFFECTS"

  const SPELLS: seq<Spell> := [
    Spell("heal", "Heal Self", "RESTORATION", 30, []),
    Spell("calm", "Calm", "ILLUSION", 40, []),
    Spell("transmute", "Transmute Thought", "ALTERATION", 50, []),
    Spell("familiar", "Summon Familiar", "CONJURATION", 30, [])]

  const SHOUTS: seq<Spell> := [
    Spell("fus", "Unrelenting Focus", SHOUT_SCHOOL, 0, ["FUS", "RO", "DAH"]),
    Spell("feim", "Ethereal Peace", SHOUT_SCHOOL, 0, ["FEIM", "ZII", "GRON"]),
    Spell("tiid", "Slow Time", SHOUT_SCHOOL, 0, ["TIID", "KLO", "UL"])]

  /** The tabs down the side, in display order. */
  const SCHOOLS: seq<string> := [ALL_SCHOOLS, SHOUT_SCHOOL, "ALTERATION", "CONJURATION",
                                 "ILLUSION", "RESTORATION", ACTIVE_EFFECTS]

  const ALL_ITEMS: seq<Spell> := SPELLS + SHOUTS

  /** The spell list under a school tab: everything under ALL, otherwise
      the spells of that school in their fixed order. */
  function FilteredItems(school: string): (r: seq<Spell>)
    ensures school == ALL_SCHOOLS ==> r == ALL_ITEMS
    ensures school != ALL_SCHOOLS ==> forall i :: 0 <= i < |r| ==> r[i].school == school && r[i] in ALL_ITEMS
    ensures school != ALL_SCHOOLS ==>
              forall i :: 0 <= i < |ALL_ITEMS| && ALL_ITEMS[i].school == school ==> ALL_ITEMS[i] in r
  {
    if school == ALL_SCHOOLS then ALL_ITEMS else Filter(ALL_ITEMS, InSchool(school))
  }

  function InSchool(school: string): Spell -> bool {
    (s: Spell) => s.school == school
  }

  /** A tab's list is its spells followed by its shouts. */
  lemma TabSplits(school: string)
    requires school != ALL_SCHOOLS
    ensures FilteredItems(school) == Filter(SPELLS, InSchool(school)) + Filter(SHOUTS, InSchool(school))
  {
    FilterAppend(SPELLS, SHOUTS, InSchool(school));
  }

  /** The shout tab lists exactly the shouts. */
  lemma ShoutTab()
    ensures FilteredItems(SHOUT_SCHOOL) == SHOUTS
  {
    TabSplits(SHOUT_SCHOOL);
    FilterAll(SHOUTS, InSchool(SHOUT_SCHOOL));
    assert SPELLS[1..][1..][1..][1..] == [];
  }

  /** Each spell school's tab lists exactly its one spell. */
  lemma SpellTab(i: nat)
    requires i < |SPELLS|
    ensures FilteredItems(SPELLS[i].school) == [SPELLS[i]]
  {
    var school := SPELLS[i].school;
    TabSplits(school);
    FilterNone(SHOUTS, InSchool(school));
    forall j | 0 <= j < |SPELLS| && j != i
      ensures !InSchool(school)(SPELLS[j])
    {
      SchoolsDistinct(i, j);
    }
    FilterUnique(SPELLS, InSchool(school), i);
  }

  /** No two spells share a school. */
  lemma SchoolsDistinct(i: nat, j: nat)
    requires i < |SPELLS| && j < |SPELLS| && i != j
    ensures SPELLS[i].school != SPELLS[j].school
  {
  }

  /** The effects tab lists no spell. */
  lemma EffectsTabEmpty()
    ensures FilteredItems(ACTIVE_EFFECTS) == []
  {
    TabSplits(ACTIVE_EFFECTS);
    FilterNone(SHOUTS, InSchool(ACTIVE_EFFECTS));
    FilterNone(SPELLS, InSchool(ACTIVE_EFFECTS));
  }

  /** Every spell and shout can be found under some tab other than ALL,
      and every shout costs nothing. */
  lemma EverySpellHasATab()
    ensures forall i :: 0 <= i < |ALL_ITEMS| ==>
              ALL_ITEMS[i].school in SCHOOLS && ALL_ITEMS[i].school != ALL_SCHOOLS
              && ALL_ITEMS[i].school != ACTIVE_EFFECTS
    ensures forall i :: 0 <= i < |SHOUTS| ==> SHOUTS[i].cost == 0 && SHOUTS[i].school == SHOUT_SCHOOL
  {
  }

  /** The cast button is enabled for a shout, or for a spell the character
      has the magicka for. */
  predicate CastEnabled(s: UserStats, spell: Spell) {
    spell.school == SHOUT_SCHOOL || s.magicka >= spell.cost
  }

  /** The cast button's text. */
  function CastLabel(s: UserStats, spell: Spell): (r: string)
    ensures spell.school == SHOUT_SCHOOL ==> r == "UNLEASH SHOUT"
    ensures spell.school != SHOUT_SCHOOL ==> (r == "CAST SPELL" <==> CastEnabled(s, spell))
    ensures spell.school != SHOUT_SCHOOL && !CastEnabled(s, spell) ==> r == "INSUFFICIENT MAGICKA"
  {
    if spell.school == SHOUT_SCHOOL then "UNLEASH SHOUT"
    else if s.magicka >= spell.cost then "CAST SPELL" else "INSUFFICIENT MAGICKA"
  }

  /** `handleCast`: a shout only announces its words; a spell asks the
      context to spend its cost. */
  function HandleCast(s: UserStats, signedIn: bool, spell: Spell): (r: UserStats)
    ensures spell.school == SHOUT_SCHOOL ==> r == s
    ensures spell.school != SHOUT_SCHOOL ==> r == CastSpell(s, signedIn, spell.cost).1
  {
    if spell.school == SHOUT_SCHOOL then s else CastSpell(s, signedIn, spell.cost).1
  }

  /** For a signed-in user the button is enabled exactly when the context
      would accept the cast: the page and the context use the same test. */
  lemma EnabledIffContextCasts(s: UserStats, spell: Spell)
    requires spell.school != SHOUT_SCHOOL
    ensures CastEnabled(s, spell) <==> CastSpell(s, true, spell.cost).0
  {
  }

  datatype MagicPage = MagicPage(school: string, selected: Option<Spell>)

  const MAGIC_START := MagicPage(ALL_SCHOOLS, None)

  datatype MagicEvent = PickSchool(school: string) | PickSpell(index: nat) | PressCast

  /** The chosen spell, if any, is one of the page's spells. */
  predicate PageValid(p: MagicPage) {
    p.selected.Some? ==> p.selected.value in ALL_ITEMS
  }

  /** One user action. Choosing a tab clears the chosen spell; a spell is
      chosen from the list under the current tab; the cast button is there
      only with a spell chosen outside the effects tab, and does nothing
      while disabled. Only a cast of a spell that is not a shout changes
      the sheet, and then only its magicka, by the spell's cost. */
  function MagicStep(p: MagicPage, s: UserStats, signedIn: bool, e: MagicEvent): (r: (MagicPage, UserStats))
    ensures PageValid(p) ==> PageValid(r.0)
    ensures e.PickSchool? && e.school in SCHOOLS ==> r.0 == MagicPage(e.school, None)
    ensures r.1 != s ==>
              && e.PressCast? && p.selected.Some? && p.selected.value.school != SHOUT_SCHOOL
              && signedIn && s.magicka >= p.selected.value.cost
              && r.1 == s.(magicka := s.magicka - p.selected.value.cost)
    // An enabled cast goes through `handleCast`; a signed-in spell spends its cost.
    ensures e.PressCast? && p.selected.Some? && p.school != ACTIVE_EFFECTS && CastEnabled(s, p.selected.value) ==>
              r == (p, HandleCast(s, signedIn, p.selected.value))
    ensures e.PressCast? && p.selected.Some? && p.school != ACTIVE_EFFECTS && CastEnabled(s, p.selected.value)
            && signedIn && p.selected.value.school != SHOUT_SCHOOL ==>
              r.1 == s.(magicka := s.magicka - p.selected.value.cost)
    ensures e.PressCast? && !(p.selected.Some? && p.school != ACTIVE_EFFECTS && CastEnabled(s, p.selected.value)) ==>
              r == (p, s)
    // A pick selects the spell at that place in the current tab's list.
    ensures e.PickSpell? && p.school != ACTIVE_EFFECTS && e.index < |FilteredItems(p.school)| ==>
              r == (p.(selected := Some(FilteredItems(p.school)[e.index])), s)
    ensures e.PickSpell? && (p.school == ACTIVE_EFFECTS || e.index >= |FilteredItems(p.school)|) ==> r == (p, s)
  {
    match e
    case PickSchool(school) =>
      if school in SCHOOLS then (MagicPage(school, None), s) else (p, s)
    case PickSpell(i) =>
      var items := FilteredItems(p.school);
      if p.school != ACTIVE_EFFECTS && i < |items| then (p.(selected := Some(items[i])), s) else (p, s)
    case PressCast =>
      if p.selected.Some? && p.school != ACTIVE_EFFECTS && CastEnabled(s, p.selected.value) then
        (p, HandleCast(s, signedIn, p.selected.value))
      else (p, s)
  }

  function MagicRun(p: MagicPage, s: UserStats, signedIn: bool, events: seq<MagicEvent>): (r: (MagicPage, UserStats))
    decreases |events|
  {
    if |events| == 0 then (p, s)
    else
      var (p1, s1) := MagicStep(p, s, signedIn, events[0]);
      MagicRun(p1, s1, signedIn, events[1..])
  }

  /** Whatever the user does on the page, magicka never rises and never
      goes below zero, and nothing else on the sheet changes. */
  lemma {:induction false} MagicRunKeepsMagicka(p: MagicPage, s: UserStats, signedIn: bool, events: seq<MagicEvent>)
    requires PageValid(p) && s.magicka >= 0
    ensures var r := MagicRun(p, s, signedIn, events).1;
            0 <= r.magicka <= s.magicka && r == s.(magicka := r.magicka)
    decreases |events|
  {
    if |events| > 0 {
      var (p1, s1) := MagicStep(p, s, signedIn, events[0]);
      if s1 != s {
        var spell := p.selected.value;
        assert spell.cost >= 0 by {
          var k :| 0 <= k < |ALL_ITEMS| && ALL_ITEMS[k] == spell;
        }
      }
      MagicRunKeepsMagicka(p1, s1, signedIn, events[1..]);
    }
  }
}

=== FILE: navigation.dfy ===
/** The application shell (src/App.tsx) and the character menu
    (src/components/Skyrim/Menu.tsx): the two overlays, the current route,
    the keyboard shortcuts, the buttons, and trackpad swipes that open the
    menu and move between the four pages around it. */
module Navigation {
  import opened Common
  import TrackpadSwipe

  const SIGNIN := "/signin"
  const SIGNUP := "/signup"
  const FORGOT_PASSWORD := "/forgot-password"
  const DASHBOARD := "/dashboard"
  const SKILLS := "/skills"
  const MAGIC := "/magic"
  const INVENTORY := "/inventory"

  const AUTH_PAGES: seq<string> := [SIGNIN, SIGNUP, FORGOT_PASSWORD]

  /** The shared overlay flags. */
  datatype UI = UI(menuOpen: bool, pauseOpen: bool, disabledGestures: bool)

  /** Everything the shell's behaviour depends on: the overlay flags, the
      route, whether a user is signed in, whether the opening loading
      screen is still up, and for each of the two character menus its drag
      offset and its trackpad hook's refs. The shell mounts one menu beside
      the HUD (`drag`, `pad`); the skills, magic and inventory pages each
      mount a second one of their own (`pageDrag`, `pagePad`), which reads
      and writes the same overlay flags. */
  datatype Shell = Shell(ui: UI, route: string, signedIn: bool, firstLoad: bool,
                         drag: TrackpadSwipe.Offset, pad: TrackpadSwipe.Pad,
                         pageDrag: TrackpadSwipe.Offset, pagePad: TrackpadSwipe.Pad)

  predicate IsAuthPage(route: string) {
    route in AUTH_PAGES
  }

  /** The HUD layer (HUD, menu and pause menu) is mounted for a signed-in
      user off the auth pages once the loading screen is gone. */
  predicate ShowHUD(s: Shell) {
    s.signedIn && !IsAuthPage(s.route) && !s.firstLoad
  }

  /** The pages that render a character menu of their own. */
  const MENU_PAGES: seq<string> := [SKILLS, MAGIC, INVENTORY]

  /** A page's own menu is mounted whenever the protected page is rendered,
      loading screen or not. */
  predicate PageMenuMounted(s: Shell) {
    s.signedIn && s.route in MENU_PAGES
  }

  /** The loading screen covers everything while it is up, so the page's
      menu can only be clicked once it is gone. */
  predicate PageMenuOnScreen(s: Shell) {
    PageMenuMounted(s) && !s.firstLoad
  }

  predicate HideHUDForMenus(ui: UI) {
    ui.pauseOpen || ui.menuOpen
  }

  predicate ShowMenuButton(route: string) {
    route != MAGIC && route != INVENTORY
  }

  /** The shell menu's `hideButton` prop. */
  predicate HideButton(s: Shell) {
    !ShowMenuButton(s.route) || HideHUDForMenus(s.ui)
  }

  /** The shell's character button. */
  predicate ShellButtonShown(s: Shell) {
    ShowHUD(s) && !s.ui.menuOpen && !HideButton(s)
  }

  /** A page's character button: its menu leaves `hideButton` at false. */
  predicate PageButtonShown(s: Shell) {
    PageMenuOnScreen(s) && !s.ui.menuOpen
  }

  /** The shell's button shows exactly when the HUD layer is up, no overlay
      is open and the page is neither magic nor inventory. Counting the
      pages' own buttons, a character button is on screen exactly when the
      HUD layer is up, the menu is closed, and either the pause menu is
      closed or the page is one of the three with a menu of its own; on
      magic and inventory it shows even over the pause menu. */
  lemma CharacterButtonShown(s: Shell)
    ensures ShellButtonShown(s) <==>
              && s.signedIn && !IsAuthPage(s.route) && !s.firstLoad
              && !s.ui.menuOpen && !s.ui.pauseOpen && s.route !in [MAGIC, INVENTORY]
    ensures ShellButtonShown(s) || PageButtonShown(s) <==>
              ShowHUD(s) && !s.ui.menuOpen && (!s.ui.pauseOpen || s.route in MENU_PAGES)
    ensures ShowHUD(s) && !s.ui.menuOpen && s.route in [MAGIC, INVENTORY] ==>
              !ShellButtonShown(s) && PageButtonShown(s)
  {
    if s.route in MENU_PAGES {
      assert !IsAuthPage(s.route);
    }
  }

  /** The page each direction of the menu's diamond leads to. */
  function PageFor(d: Direction): (r: string)
    ensures r in [SKILLS, DASHBOARD, MAGIC, INVENTORY]
    ensures !IsAuthPage(r)
  {
    match d
    case Up => SKILLS
    case Down => DASHBOARD
    case Left => MAGIC
    case Right => INVENTORY
  }

  /** Each page is reached from exactly one direction. */
  lemma PageForInjective(d: Direction, e: Direction)
    ensures PageFor(d) == PageFor(e) <==> d == e
  {
  }

  /** A change of route. Leaving a page unmounts its menu, and the next
      page mounts a fresh one with zeroed refs and no drag; staying on the
      same route remounts nothing. */
  function Navigate(s: Shell, route: string): (r: Shell)
    ensures r.route == route && r.ui == s.ui && r.signedIn == s.signedIn && r.firstLoad == s.firstLoad
    ensures r.drag == s.drag && r.pad == s.pad
    ensures route == s.route ==> r == s
    ensures route != s.route ==>
              r.pagePad == TrackpadSwipe.MOUNTED && r.pageDrag == TrackpadSwipe.Offset(0.0, 0.0)
  {
    if route == s.route then s
    else s.(route := route, pagePad := TrackpadSwipe.MOUNTED, pageDrag := TrackpadSwipe.Offset(0.0, 0.0))
  }

  /** What one `handleGesture` call writes to the shared state: with the
      menu open a swipe goes to that direction's page and closes the menu;
      with it closed, a swipe opens it only on one of the four pages and
      only in the direction pointing back to the menu, the opposite of the
      one that led there. The pause flag is never touched. (The handler
      also zeroes its own menu's drag; the hook reports zero right after,
      which `Trail` covers.) */
  function HandleGesture(s: Shell, d: Direction): (r: Shell)
    ensures r.ui.pauseOpen == s.ui.pauseOpen && r.ui.disabledGestures == s.ui.disabledGestures
    ensures r.signedIn == s.signedIn && r.firstLoad == s.firstLoad
    ensures r.pad == s.pad && r.drag == s.drag
    ensures s.ui.menuOpen ==> !r.ui.menuOpen && r == Navigate(s.(ui := r.ui), PageFor(d))
    ensures !s.ui.menuOpen ==> r.route == s.route && r == s.(ui := r.ui)
                               && (r.ui.menuOpen <==> s.route == PageFor(Opposite(d)))
  {
    if s.ui.menuOpen then
      Navigate(s.(ui := s.ui.(menuOpen := false)), PageFor(d))
    else if (s.route == SKILLS && d == Down) || (s.route == DASHBOARD && d == Up)
         || (s.route == MAGIC && d == Right) || (s.route == INVENTORY && d == Left) then
      s.(ui := s.ui.(menuOpen := true))
    else s
  }

  /** A swipe out of the open menu and the opposite swipe bring the menu
      back, now over the page the first swipe went to. */
  lemma GestureRoundTrip(s: Shell, d: Direction)
    requires s.ui.menuOpen
    ensures HandleGesture(HandleGesture(s, d), Opposite(d)) == Navigate(s, PageFor(d))
  {
  }

  /** On a page away from the menu's four, no swipe opens it. */
  lemma NoReturnElsewhere(s: Shell, d: Direction)
    requires !s.ui.menuOpen && s.route !in [SKILLS, DASHBOARD, MAGIC, INVENTORY]
    ensures HandleGesture(s, d) == s
  {
  }

  /** A swipe in direction `d` points back to the menu from `route`. */
  predicate Reopens(route: string, d: Direction) {
    route == PageFor(Opposite(d))
  }

  /** The swipes both menus' handlers fire on one wheel event, in listener
      order. Both handlers were built from the same render, so they read
      the overlay flags and the route as they were before the event, and
      React applies their writes together: any of them can open the menu,
      and the last navigation wins. */
  function Gestures(s: Shell, t: Shell, ds: seq<Direction>): (r: Shell)
    ensures |ds| == 0 ==> r == t
    ensures |ds| > 0 && s.ui.menuOpen ==>
              r == Navigate(t.(ui := t.ui.(menuOpen := false)), PageFor(ds[|ds| - 1]))
    ensures |ds| > 0 && !s.ui.menuOpen ==>
              r == t.(ui := t.ui.(menuOpen := t.ui.menuOpen || exists i :: 0 <= i < |ds| && Reopens(s.route, ds[i])))
  {
    if |ds| == 0 then t
    else if s.ui.menuOpen then Navigate(t.(ui := t.ui.(menuOpen := false)), PageFor(ds[|ds| - 1]))
    else if exists i :: 0 <= i < |ds| && Reopens(s.route, ds[i]) then t.(ui := t.ui.(menuOpen := true))
    else t
  }

  /** Handlers built from the same state as `t`'s flags and route: one
      fired swipe writes what `HandleGesture` does; with two, the second
      one's page wins when the menu was open, and the menu opens when
      either one points back to it when it was closed. */
  lemma GestureBatch(s: Shell, t: Shell, ds: seq<Direction>)
    requires t.ui == s.ui && t.route == s.route && 1 <= |ds| <= 2
    ensures |ds| == 1 ==> Gestures(s, t, ds).ui == HandleGesture(s, ds[0]).ui
                          && Gestures(s, t, ds).route == HandleGesture(s, ds[0]).route
    ensures |ds| == 2 && s.ui.menuOpen ==>
              !Gestures(s, t, ds).ui.menuOpen && Gestures(s, t, ds).route == PageFor(ds[1])
    ensures |ds| == 2 && !s.ui.menuOpen ==>
              && Gestures(s, t, ds).route == s.route
              && (Gestures(s, t, ds).ui.menuOpen <==>
                    HandleGesture(s, ds[0]).ui.menuOpen || HandleGesture(s, ds[1]).ui.menuOpen)
  {
    var r := Gestures(s, t, ds);
    if s.ui.menuOpen {
      assert r.route == PageFor(ds[|ds| - 1]) && !r.ui.menuOpen;
    } else {
      var opens := exists i :: 0 <= i < |ds| && Reopens(s.route, ds[i]);
      assert r.route == s.route && r.ui.menuOpen == opens;
      if Reopens(s.route, ds[0]) {
        assert opens;
      }
      if |ds| == 2 && Reopens(s.route, ds[1]) {
        assert opens;
      }
      assert opens <==> Reopens(s.route, ds[0]) || (|ds| == 2 && Reopens(s.route, ds[1]));
    }
  }

  /** One handler alone writes what `HandleGesture` does, and two handlers
      firing the same swipe write what one does. */
  lemma GesturesAgree(s: Shell, d: Direction)
    ensures Gestures(s, s, [d]) == HandleGesture(s, d)
    ensures Gestures(s, s, [d, d]) == HandleGesture(s, d)
  {
    GestureBatch(s, s, [d]);
    GestureBatch(s, s, [d, d]);
  }

  /** `handleProgress`: the menu trails the fingers at half the distance,
      the other way. */
  function HandleProgress(o: TrackpadSwipe.Offset): (r: TrackpadSwipe.Offset)
    ensures r.x == -o.x / 2.0 && r.y == -o.y / 2.0
    ensures o.x < 0.0 <==> r.x > 0.0
  {
    TrackpadSwipe.Offset(-o.x * 0.5, -o.y * 0.5)
  }

  /** A menu's drag offset after its hook's reports, one after another. */
  function Trail(drag: TrackpadSwipe.Offset, reports: seq<TrackpadSwipe.Offset>): TrackpadSwipe.Offset
    decreases |reports|
  {
    if |reports| == 0 then drag else Trail(HandleProgress(reports[0]), reports[1..])
  }

  /** A menu's trackpad options: threshold 120, horizontal blocking, the
      default cooldown and no vertical blocking; swipes are off when its
      `disabledGestures` prop is set and the menu is closed, as an open
      menu can always be swiped. */
  function MenuPadConfig(disabledGestures: bool, ui: UI): (r: TrackpadSwipe.Config)
    ensures r.disabled <==> disabledGestures && !ui.menuOpen
    ensures r == TrackpadSwipe.DEFAULTS.(disabled := r.disabled)
  {
    TrackpadSwipe.Config(120.0, 500, disabledGestures && !ui.menuOpen, true, false)
  }

  /** The shell's menu passes the shared flag on. */
  function PadConfig(ui: UI): (r: TrackpadSwipe.Config)
    ensures r.disabled <==> ui.disabledGestures && !ui.menuOpen
    ensures r == TrackpadSwipe.DEFAULTS.(disabled := r.disabled)
  {
    MenuPadConfig(ui.disabledGestures, ui)
  }

  /** A page's menu leaves the prop at its default, so its hook is never
      disabled, whatever the shared flag says. */
  lemma PageMenuNeverDisabled(ui: UI)
    ensures MenuPadConfig(false, ui) == TrackpadSwipe.DEFAULTS
    ensures ui.disabledGestures && !ui.menuOpen ==> PadConfig(ui) != MenuPadConfig(false, ui)
  {
  }

  /** A hook whose menu is not mounted has no listener, like a disabled one. */
  function Mounted(mounted: bool, c: TrackpadSwipe.Config): TrackpadSwipe.Config {
    c.(disabled := c.disabled || !mounted)
  }

  /** What the shell menu's hook does with a wheel event. */
  function ShellHook(s: Shell, dx: real, dy: real, now: int): TrackpadSwipe.WheelResult {
    TrackpadSwipe.Wheel(Mounted(ShowHUD(s), PadConfig(s.ui)), s.pad, dx, dy, now)
  }

  /** What the page menu's hook does with a wheel event. */
  function PageHook(s: Shell, dx: real, dy: real, now: int): TrackpadSwipe.WheelResult {
    TrackpadSwipe.Wheel(Mounted(PageMenuMounted(s), MenuPadConfig(false, s.ui)), s.pagePad, dx, dy, now)
  }

  function Fired(w: TrackpadSwipe.WheelResult): seq<Direction> {
    if w.swipe.Some? then [w.swipe.value] else []
  }

  /** A wheel event. Each mounted menu's hook updates its own refs and
      drag; the swipes they fire are then handled together, the shell's
      listener first. With neither menu mounted nothing happens. */
  function MenuWheel(s: Shell, dx: real, dy: real, now: int): (r: Shell)
    ensures !ShowHUD(s) && !PageMenuMounted(s) ==> r == s
    ensures r.signedIn == s.signedIn && r.firstLoad == s.firstLoad
    ensures r.ui.pauseOpen == s.ui.pauseOpen && r.ui.disabledGestures == s.ui.disabledGestures
    ensures r.pad == ShellHook(s, dx, dy, now).pad
    ensures var a, p := ShellHook(s, dx, dy, now), PageHook(s, dx, dy, now);
            && (a.swipe.None? && p.swipe.None? ==> r.ui == s.ui && r.route == s.route && r.pagePad == p.pad)
            && (a.swipe.Some? && p.swipe.None? ==>
                  r.ui == HandleGesture(s, a.swipe.value).ui && r.route == HandleGesture(s, a.swipe.value).route)
            && (a.swipe.None? && p.swipe.Some? ==>
                  r.ui == HandleGesture(s, p.swipe.value).ui && r.route == HandleGesture(s, p.swipe.value).route)
            && (a.swipe.Some? && p.swipe.Some? && s.ui.menuOpen ==>
                  !r.ui.menuOpen && r.route == PageFor(p.swipe.value))
            && (a.swipe.Some? && p.swipe.Some? && !s.ui.menuOpen ==>
                  r.route == s.route
                  && (r.ui.menuOpen <==> HandleGesture(s, a.swipe.value).ui.menuOpen
                                         || HandleGesture(s, p.swipe.value).ui.menuOpen))
  {
    var a := ShellHook(s, dx, dy, now);
    var p := PageHook(s, dx, dy, now);
    var t := s.(pad := a.pad, drag := Trail(s.drag, a.progress),
                pagePad := p.pad, pageDrag := Trail(s.pageDrag, p.progress));
    var ds := Fired(a) + Fired(p);
    if |ds| == 0 then Gestures(s, t, ds)
    else
      GestureBatch(s, t, ds);
      Gestures(s, t, ds)
  }

  /** The two hooks; each has its own idle timer. */
  datatype Hook = ShellMenu | PageMenu

  /** The idle reset of one menu's hook. */
  function MenuIdle(s: Shell, h: Hook): (r: Shell)
    ensures r.ui == s.ui && r.route == s.route
    ensures h == ShellMenu && !ShowHUD(s) ==> r == s
    ensures h == PageMenu && !PageMenuMounted(s) ==> r == s
    ensures h == ShellMenu ==> r.pagePad == s.pagePad && r.pageDrag == s.pageDrag
    ensures h == PageMenu ==> r.pad == s.pad && r.drag == s.drag
  {
    match h
    case ShellMenu =>
      var (pad, progress) := TrackpadSwipe.Idle(Mounted(ShowHUD(s), PadConfig(s.ui)), s.pad);
      s.(pad := pad, drag := Trail(s.drag, progress))
    case PageMenu =>
      var (pad, progress) := TrackpadSwipe.Idle(Mounted(PageMenuMounted(s), MenuPadConfig(false, s.ui)), s.pagePad);
      s.(pagePad := pad, pageDrag := Trail(s.pageDrag, progress))
  }

  /** Half the running sum, the other way. */
  function Back(p: TrackpadSwipe.Pad): TrackpadSwipe.Offset {
    TrackpadSwipe.Offset(-p.x / 2.0, -p.y / 2.0)
  }

  /** Each menu is drawn half its hook's running sum away from centre, the
      other way. */
  predicate DragTracksPad(s: Shell) {
    s.drag == Back(s.pad) && s.pageDrag == Back(s.pagePad)
  }

  /** The reports a wheel event makes: none when it does nothing, the new
      sum when it only accumulates, the sum and then zero when it fires. */
  lemma WheelReports(c: TrackpadSwipe.Config, p: TrackpadSwipe.Pad, dx: real, dy: real, now: int)
    ensures var w := TrackpadSwipe.Wheel(c, p, dx, dy, now);
            var o := TrackpadSwipe.Offset(p.x + dx, p.y + dy);
            || (w.progress == [] && w.pad == p)
            || (w.progress == [o] && w.pad.x == o.x && w.pad.y == o.y)
            || (w.progress == [o, TrackpadSwipe.Offset(0.0, 0.0)] && w.pad.x == 0.0 && w.pad.y == 0.0)
  {
  }

  /** One report of the new sum leaves the drag at minus half of it. */
  lemma TrailOne(p: TrackpadSwipe.Pad, q: TrackpadSwipe.Pad, o: TrackpadSwipe.Offset, reports: seq<TrackpadSwipe.Offset>)
    requires reports == [o] && q.x == o.x && q.y == o.y
    ensures Trail(Back(p), reports) == Back(q)
  {
    assert reports[1..] == [];
  }

  /** A fired swipe reports the sum and then zero: the drag ends centred. */
  lemma TrailTwo(p: TrackpadSwipe.Pad, q: TrackpadSwipe.Pad, o: TrackpadSwipe.Offset, reports: seq<TrackpadSwipe.Offset>)
    requires reports == [o, TrackpadSwipe.Offset(0.0, 0.0)] && q.x == 0.0 && q.y == 0.0
    ensures Trail(Back(p), reports) == Back(q)
  {
    var z := TrackpadSwipe.Offset(0.0, 0.0);
    assert reports[1..] == [z];
    assert Trail(Back(p), reports) == Trail(HandleProgress(o), [z]);
    assert [z][1..] == [];
    assert Trail(HandleProgress(o), [z]) == Trail(HandleProgress(z), []);
  }

  /** After any wheel event a drag that matched the refs still does. */
  lemma WheelTrail(c: TrackpadSwipe.Config, p: TrackpadSwipe.Pad, dx: real, dy: real, now: int)
    ensures var w := TrackpadSwipe.Wheel(c, p, dx, dy, now);
            Trail(Back(p), w.progress) == Back(w.pad)
  {
    var w := TrackpadSwipe.Wheel(c, p, dx, dy, now);
    var o := TrackpadSwipe.Offset(p.x + dx, p.y + dy);
    WheelReports(c, p, dx, dy, now);
    if w.progress == [o] && w.pad.x == o.x && w.pad.y == o.y {
      TrailOne(p, w.pad, o, w.progress);
    } else if w.progress == [o, TrackpadSwipe.Offset(0.0, 0.0)] && w.pad.x == 0.0 && w.pad.y == 0.0 {
      TrailTwo(p, w.pad, o, w.progress);
    }
  }

  /** Handling the fired swipes keeps each drag matched to its refs: a
      remounted page menu starts centred with zeroed refs. */
  lemma GesturesKeepDrag(s: Shell, t: Shell, ds: seq<Direction>)
    requires DragTracksPad(t)
    ensures DragTracksPad(Gestures(s, t, ds))
  {
  }

  lemma MenuWheelKeepsDrag(s: Shell, dx: real, dy: real, now: int)
    requires DragTracksPad(s)
    ensures DragTracksPad(MenuWheel(s, dx, dy, now))
  {
    var a := ShellHook(s, dx, dy, now);
    var p := PageHook(s, dx, dy, now);
    WheelTrail(Mounted(ShowHUD(s), PadConfig(s.ui)), s.pad, dx, dy, now);
    WheelTrail(Mounted(PageMenuMounted(s), MenuPadConfig(false, s.ui)), s.pagePad, dx, dy, now);
    var t := s.(pad := a.pad, drag := Trail(s.drag, a.progress),
                pagePad := p.pad, pageDrag := Trail(s.pageDrag, p.progress));
    assert DragTracksPad(t);
    GesturesKeepDrag(s, t, Fired(a) + Fired(p));
    assert MenuWheel(s, dx, dy, now) == Gestures(s, t, Fired(a) + Fired(p));
  }

  lemma MenuIdleKeepsDrag(s: Shell, h: Hook)
    requires DragTracksPad(s)
    ensures DragTracksPad(MenuIdle(s, h))
  {
  }

  datatype Key = Escape | Tab | OtherKey

  /** `handleKeyDown`. Keys are ignored on the auth pages and behind the
      loading screen. Escape flips the pause menu and closes the character
      menu; Tab flips the character menu and closes the pause menu. */
  function KeyDown(s: Shell, k: Key): (r: Shell)
    ensures IsAuthPage(s.route) || s.firstLoad || k == OtherKey ==> r == s
    ensures r == s.(ui := r.ui) && r.ui.disabledGestures == s.ui.disabledGestures
    ensures !IsAuthPage(s.route) && !s.firstLoad && k == Escape ==>
              r.ui.pauseOpen == !s.ui.pauseOpen && !r.ui.menuOpen
    ensures !IsAuthPage(s.route) && !s.firstLoad && k == Tab ==>
              r.ui.menuOpen == !s.ui.menuOpen && !r.ui.pauseOpen
  {
    if IsAuthPage(s.route) || s.firstLoad then s
    else
      match k
      case Escape => s.(ui := s.ui.(pauseOpen := !s.ui.pauseOpen, menuOpen := false))
      case Tab => s.(ui := s.ui.(menuOpen := !s.ui.menuOpen, pauseOpen := false))
      case OtherKey => s
  }

  /** At most one of the two overlays is open. */
  predicate OneOverlay(ui: UI) {
    !(ui.menuOpen && ui.pauseOpen)
  }

  /** A handled shortcut always leaves at most one overlay open, whatever
      was open before. */
  lemma KeyLeavesOneOverlay(s: Shell, k: Key)
    requires !IsAuthPage(s.route) && !s.firstLoad && k != OtherKey
    ensures OneOverlay(KeyDown(s, k).ui)
  {
  }

  /** Pressing the same shortcut twice restores its own overlay and leaves
      the other one closed. */
  lemma KeyTwice(s: Shell)
    requires !IsAuthPage(s.route) && !s.firstLoad
    ensures KeyDown(KeyDown(s, Escape), Escape) == s.(ui := s.ui.(menuOpen := false))
    ensures KeyDown(KeyDown(s, Tab), Tab) == s.(ui := s.ui.(pauseOpen := false))
  {
  }

  /** The clickable controls of the shell, the two menus and the pause
      menu's backdrop. A page's menu draws the same controls as the
      shell's, with the same handlers on the same flags, so each control
      is listed once. */
  datatype Click =
    | CharacterButton
    | PauseButton
    | MenuBackdrop
    | DiamondLink(d: Direction)
    | SystemButton
    | PauseBackdrop

  /** When each control is on screen, from either menu. */
  predicate Visible(s: Shell, c: Click) {
    match c
    case CharacterButton => ShellButtonShown(s) || PageButtonShown(s)
    case PauseButton => s.ui.menuOpen && (ShowHUD(s) || PageMenuOnScreen(s))
    case MenuBackdrop => s.ui.menuOpen && (ShowHUD(s) || PageMenuOnScreen(s))
    case DiamondLink(_) => s.ui.menuOpen && (ShowHUD(s) || PageMenuOnScreen(s))
    case SystemButton => ShowHUD(s) && !HideHUDForMenus(s.ui)
    case PauseBackdrop => ShowHUD(s) && s.ui.pauseOpen
  }

  /** A click. The character button opens the menu and closes the pause
      menu; the PAUSE button does the reverse; the menu's backdrop closes
      the menu; a diamond link closes it and goes to its page; the SYSTEM
      button flips the pause menu and closes the character menu; the pause
      menu's backdrop closes it. A control not on screen cannot be
      clicked. */
  function ClickOn(s: Shell, c: Click): (r: Shell)
    ensures !Visible(s, c) ==> r == s
    ensures r.signedIn == s.signedIn && r.firstLoad == s.firstLoad && r.drag == s.drag && r.pad == s.pad
    ensures r.ui.disabledGestures == s.ui.disabledGestures
    ensures r.route != s.route ==> c.DiamondLink? && r.route == PageFor(c.d)
    ensures r.route == s.route ==> r.pagePad == s.pagePad && r.pageDrag == s.pageDrag
    ensures Visible(s, c) && c == CharacterButton ==> r.ui.menuOpen && !r.ui.pauseOpen
    ensures Visible(s, c) && c == PauseButton ==> !r.ui.menuOpen && r.ui.pauseOpen
    ensures Visible(s, c) && (c == MenuBackdrop || c.DiamondLink?) ==>
              !r.ui.menuOpen && r.ui.pauseOpen == s.ui.pauseOpen
    ensures Visible(s, c) && c.DiamondLink? ==> r.route == PageFor(c.d)
    ensures Visible(s, c) && c == SystemButton ==> !r.ui.menuOpen && r.ui.pauseOpen == !s.ui.pauseOpen
    ensures Visible(s, c) && c == PauseBackdrop ==> r.ui.menuOpen == s.ui.menuOpen && !r.ui.pauseOpen
  {
    if !Visible(s, c) then s
    else
      match c
      case CharacterButton => s.(ui := s.ui.(menuOpen := true, pauseOpen := false))
      case PauseButton => s.(ui := s.ui.(menuOpen := false, pauseOpen := true))
      case MenuBackdrop => s.(ui := s.ui.(menuOpen := false))
      case DiamondLink(d) => Navigate(s.(ui := s.ui.(menuOpen := false)), PageFor(d))
      case SystemButton => s.(ui := s.ui.(pauseOpen := !s.ui.pauseOpen, menuOpen := false))
      case PauseBackdrop => s.(ui := s.ui.(pauseOpen := false))
  }

  /** The SYSTEM button is only on screen with both overlays closed, so it
      always opens the pause menu. */
  lemma SystemButtonOpensPause(s: Shell)
    requires Visible(s, SystemButton)
    ensures ClickOn(s, SystemButton).ui.pauseOpen && !ClickOn(s, SystemButton).ui.menuOpen
  {
  }

  /** A page's menu is only clickable where the shell's HUD layer is up
      too, so it adds the character button on magic and inventory (and
      over the pause menu on skills) but no control behind the loading
      screen. */
  lemma PageControlsNeedHUD(s: Shell, c: Click)
    requires Visible(s, c)
    ensures ShowHUD(s)
  {
    if PageMenuOnScreen(s) {
      assert !IsAuthPage(s.route);
    }
  }

  /** Anything the user can do in the shell. */
  datatype ShellEvent =
    | KeyPress(key: Key)
    | Press(click: Click)
    | Scroll(dx: real, dy: real, now: int)
    | ScrollPause(hook: Hook)

  function Step(s: Shell, e: ShellEvent): (r: Shell)
    ensures e.KeyPress? ==> r == KeyDown(s, e.key)
    ensures e.Press? ==> r == ClickOn(s, e.click)
    ensures e.Scroll? ==> r == MenuWheel(s, e.dx, e.dy, e.now)
    ensures e.ScrollPause? ==> r == MenuIdle(s, e.hook)
    ensures r.signedIn == s.signedIn && r.firstLoad == s.firstLoad
  {
    match e
    case KeyPress(k) => KeyDown(s, k)
    case Press(c) => ClickOn(s, c)
    case Scroll(dx, dy, now) => MenuWheel(s, dx, dy, now)
    case ScrollPause(h) => MenuIdle(s, h)
  }

  function Run(s: Shell, events: seq<ShellEvent>): (r: Shell)
    decreases |events|
  {
    if |events| == 0 then s else Run(Step(s, events[0]), events[1..])
  }

  /** Keys and clicks alone never leave both overlays open. */
  lemma {:induction false} KeysAndClicksKeepOneOverlay(s: Shell, events: seq<ShellEvent>)
    requires OneOverlay(s.ui)
    requires forall i :: 0 <= i < |events| ==> events[i].KeyPress? || events[i].Press?
    ensures OneOverlay(Run(s, events).ui)
    decreases |events|
  {
    if |events| > 0 {
      var s1 := Step(s, events[0]);
      assert OneOverlay(s1.ui);
      KeysAndClicksKeepOneOverlay(s1, events[1..]);
    }
  }

  /** Whatever happens, each menu stays drawn at half its hook's running
      sum. */
  lemma {:induction false} RunKeepsDrag(s: Shell, events: seq<ShellEvent>)
    requires DragTracksPad(s)
    ensures DragTracksPad(Run(s, events))
    decreases |events|
  {
    if |events| > 0 {
      var s1 := Step(s, events[0]);
      match events[0] {
        case KeyPress(k) =>
        case Press(c) =>
        case Scroll(dx, dy, now) => MenuWheelKeepsDrag(s, dx, dy, now);
        case ScrollPause(h) => MenuIdleKeepsDrag(s, h);
      }
      RunKeepsDrag(s1, events[1..]);
    }
  }

  /** A shell just past the loading screen, both hooks fresh. */
  function Fresh(ui: UI, route: string, firstLoad: bool): Shell {
    Shell(ui, route, true, firstLoad, TrackpadSwipe.Offset(0.0, 0.0), TrackpadSwipe.MOUNTED,
          TrackpadSwipe.Offset(0.0, 0.0), TrackpadSwipe.MOUNTED)
  }

  /** A swipe is the one way to stack the overlays: with the pause menu
      open on the skills page, a downward scroll of 130 opens the
      character menu over it. */
  lemma SwipeStacksOverlays()
    ensures var r := MenuWheel(Fresh(UI(false, true, false), SKILLS, false), 0.0, 130.0, 1000);
            r.ui.menuOpen && r.ui.pauseOpen
  {
    var s := Fresh(UI(false, true, false), SKILLS, false);
    assert ShellHook(s, 0.0, 130.0, 1000).swipe == Some(Down);
    assert PageHook(s, 0.0, 130.0, 1000).swipe == Some(Down);
  }

  /** A page's own hook runs behind the loading screen and ignores the
      shared flag that turns gestures off: on the magic page a scroll of
      130 to the right opens the menu both while the loading screen is up
      and with gestures disabled, though the shell's hook does nothing. */
  lemma PageMenuSwipes()
    ensures var s := Fresh(UI(false, false, false), MAGIC, true);
            !ShowHUD(s) && MenuWheel(s, 130.0, 0.0, 1000).ui.menuOpen
    ensures var s := Fresh(UI(false, false, true), MAGIC, false);
            ShellHook(s, 130.0, 0.0, 1000).swipe.None? && MenuWheel(s, 130.0, 0.0, 1000).ui.menuOpen
  {
    var s := Fresh(UI(false, false, false), MAGIC, true);
    assert !IsAuthPage(MAGIC);
    assert PageHook(s, 130.0, 0.0, 1000).swipe == Some(Right);
    var u := Fresh(UI(false, false, true), MAGIC, false);
    assert PageHook(u, 130.0, 0.0, 1000).swipe == Some(Right);
  }

  /** What a route shows. */
  datatype View = LoadingRealm | Redirect(to: string) | Page(path: string) | NotFound

  /** `ProtectedRoute`: a loading message while the sign-in state is being
      restored, a redirect to sign-in without a user, the page otherwise. */
  function Protected(path: string, authLoading: bool, signedIn: bool): (r: View)
    ensures r == Page(path) <==> !authLoading && signedIn
    ensures r == LoadingRealm <==> authLoading
  {
    if authLoading then LoadingRealm
    else if !signedIn then Redirect(SIGNIN)
    else Page(path)
  }

  const PROTECTED: seq<string> := [DASHBOARD, "/quests", "/checkin", "/journal", SKILLS, MAGIC, INVENTORY]

  /** The route table. */
  function Route(path: string, authLoading: bool, signedIn: bool): (r: View)
    ensures IsAuthPage(path) ==> r == Page(path)
    ensures path in PROTECTED ==> r == Protected(path, authLoading, signedIn)
    ensures path == "/" ==> r == Redirect(DASHBOARD)
    ensures !IsAuthPage(path) && path !in PROTECTED && path != "/" ==> r == NotFound
  {
    if IsAuthPage(path) then Page(path)
    else if path in PROTECTED then Protected(path, authLoading, signedIn)
    else if path == "/" then Redirect(DASHBOARD)
    else NotFound
  }

  /** A page outside the auth pages is shown only to a signed-in user once
      the sign-in state is known; a visitor is sent to sign in and sees the
      sign-in page. */
  lemma OnlyUsersSeePages(path: string, authLoading: bool, signedIn: bool)
    ensures Route(path, authLoading, signedIn) == Page(path) && !IsAuthPage(path) ==> signedIn && !authLoading
    ensures !authLoading && !signedIn && path in PROTECTED ==>
              Route(path, authLoading, signedIn) == Redirect(SIGNIN)
              && Route(SIGNIN, authLoading, signedIn) == Page(SIGNIN)
  {
  }
}

=== FILE: quests.dfy ===
/** Quest lists: the quest tab of the pause menu
    (src/components/Skyrim/PauseMenu.tsx) and the older stand-alone quest
    board (src/components/Quests.tsx). Both read the same documents, reset
    daily quests by calendar day, and toggle, add and delete quests; the
    pause menu also keeps the list sorted with completed quests last and
    keeps one quest selected. */
module Quests {
  import opened Common
  import opened Sorting
  import opened Stats

  datatype QuestType = Daily | OneOff

  /** A quest as the pages hold it. `description` and `skill` are absent on
      quests the board created; `lastCompleted` is a local-time instant in
      milliseconds. */
  datatype Quest = Quest(
    id: string,
    title: string,
    description: Option<string>,
    kind: QuestType,
    skill: Option<string>,
    completed: bool,
    lastCompleted: Option<int>)

  /** A stored quest document; every optional field may be missing. A
      document may even carry its own `id` field. */
  datatype QuestDoc = QuestDoc(
    id: Option<string>,
    title: string,
    description: Option<string>,
    kind: QuestType,
    skill: Option<string>,
    completed: bool,
    lastCompleted: Option<int>)

  /** The write a toggle sends to the quest's document. */
  datatype QuestWrite = QuestWrite(id: string, completed: bool, lastCompleted: Option<int>)

  // ---------------------------------------------------------------------
  // Reading and the daily reset
  // ---------------------------------------------------------------------

  /** `{ id: doc.id, ...doc.data() }`: the document's own fields win. */
  function Read(docId: string, d: QuestDoc): (r: Quest)
    ensures d.id.None? ==> r.id == docId
    // A stored `id` field wins over the document's key.
    ensures d.id.Some? ==> r.id == d.id.value
    ensures r.title == d.title && r.kind == d.kind
    ensures r.description == d.description && r.skill == d.skill
    ensures r.completed == d.completed && r.lastCompleted == d.lastCompleted
  {
    Quest(d.id.GetOr(docId), d.title, d.description, d.kind, d.skill, d.completed, d.lastCompleted)
  }

  /** The pause menu puts defaults before the spread: a document without a
      description reads as "" and one without a skill as RESTORATION. */
  function ReadWithDefaults(docId: string, d: QuestDoc): (r: Quest)
    ensures r.description.Some? && r.skill.Some?
    ensures d.description.None? ==> r.description == Some("")
    ensures d.skill.None? ==> r.skill == Some(RESTORATION)
    ensures d.description.Some? && d.skill.Some? ==> r == Read(docId, d)
  {
    var q := Read(docId, d);
    q.(description := Some(d.description.GetOr("")), skill := Some(d.skill.GetOr(RESTORATION)))
  }

  const MS_PER_DAY := 86400000

  /** The local calendar day of an instant. */
  function Day(t: int): (r: int)
    ensures r * MS_PER_DAY <= t < (r + 1) * MS_PER_DAY
  {
    t / MS_PER_DAY
  }

  /** A daily quest completed on an earlier calendar day than `now`. */
  predicate Stale(q: Quest, now: int) {
    q.kind == Daily && q.completed && q.lastCompleted.Some? && Day(q.lastCompleted.value) < Day(now)
  }

  /** The reset of one quest on load. */
  function ResetDaily(q: Quest, now: int): (r: Quest)
    ensures !Stale(r, now)
    ensures r.completed <==> q.completed && !Stale(q, now)
    ensures r == q.(completed := r.completed)
  {
    if Stale(q, now) then q.(completed := false) else q
  }

  function ResetAll(qs: seq<Quest>, now: int): (r: seq<Quest>)
    ensures |r| == |qs|
    ensures forall i :: 0 <= i < |r| ==> r[i] == ResetDaily(qs[i], now)
  {
    seq(|qs|, i requires 0 <= i < |qs| => ResetDaily(qs[i], now))
  }

  /** One-off quests, incomplete quests and quests never completed are
      never reset; resetting twice is resetting once. */
  lemma ResetKeeps(q: Quest, now: int)
    ensures q.kind == OneOff || !q.completed || q.lastCompleted.None? ==> ResetDaily(q, now) == q
    ensures ResetDaily(ResetDaily(q, now), now) == ResetDaily(q, now)
  {
  }

  /** A daily quest completed today stays completed. */
  lemma CompletedTodayStays(q: Quest, now: int)
    requires q.completed && q.lastCompleted.Some? && Day(q.lastCompleted.value) == Day(now)
    ensures ResetDaily(q, now).completed
  {
  }

  /** A daily quest completed yesterday, at any hour, is open again. */
  lemma CompletedYesterdayReopens(q: Quest, now: int)
    requires q.kind == Daily && q.completed && q.lastCompleted.Some?
    requires q.lastCompleted.value < Day(now) * MS_PER_DAY
    ensures !ResetDaily(q, now).completed
  {
  }

  // ---------------------------------------------------------------------
  // The completed-last order
  // ---------------------------------------------------------------------

  /** The comparator's key: incomplete quests sort before completed ones. */
  function CompletedKey(q: Quest): (r: int)
    ensures r == 0 || r == 1
    ensures r == 1 <==> q.completed
  {
    if q.completed then 1 else 0
  }

  /** `sortQuests`: a stable sort by the completed flag. */
  function SortQuests(qs: seq<Quest>): (r: seq<Quest>)
    ensures multiset(r) == multiset(qs)
    ensures SortedBy(r, CompletedKey)
    ensures forall k :: Select(r, CompletedKey, k) == Select(qs, CompletedKey, k)
  {
    InsertionSort(qs, CompletedKey)
  }

  /** The sorted list is the incomplete quests in their original order
      followed by the completed ones in their original order. */
  lemma SortQuestsPartition(qs: seq<Quest>)
    ensures SortQuests(qs) == Select(qs, CompletedKey, 0) + Select(qs, CompletedKey, 1)
  {
    var r := SortQuests(qs);
    SortedBinaryIsPartition(r, CompletedKey);
  }

  /** Every incomplete quest comes before every completed one. */
  lemma SortQuestsIncompleteFirst(qs: seq<Quest>, i: int, j: int)
    requires 0 <= i < |SortQuests(qs)| && 0 <= j < |SortQuests(qs)|
    requires !SortQuests(qs)[i].completed && SortQuests(qs)[j].completed
    ensures i < j
  {
    var r := SortQuests(qs);
    assert CompletedKey(r[i]) == 0 && CompletedKey(r[j]) == 1;
  }

  /** Sorting a sorted list changes nothing. */
  lemma SortQuestsIdempotent(qs: seq<Quest>)
    ensures SortQuests(SortQuests(qs)) == SortQuests(qs)
  {
    SortQuestsPartition(qs);
    SortQuestsPartition(SortQuests(qs));
  }

  // ---------------------------------------------------------------------
  // Edits shared by both pages
  // ---------------------------------------------------------------------

  /** `quests.map(q => q.id === id ? { ...q, completed } : q)`. */
  function MarkCompleted(qs: seq<Quest>, id: string, completed: bool): (r: seq<Quest>)
    ensures |r| == |qs|
    ensures forall i :: 0 <= i < |r| ==> r[i].id == qs[i].id
    ensures forall i :: 0 <= i < |r| && qs[i].id == id ==> r[i] == qs[i].(completed := completed)
    ensures forall i :: 0 <= i < |r| && qs[i].id != id ==> r[i] == qs[i]
  {
    seq(|qs|, i requires 0 <= i < |qs| => if qs[i].id == id then qs[i].(completed := completed) else qs[i])
  }

  /** Marking back restores the list, when every quest with that id had the
      old flag. */
  lemma MarkCompletedUndo(qs: seq<Quest>, id: string, b: bool)
    requires forall i :: 0 <= i < |qs| && qs[i].id == id ==> qs[i].completed == b
    ensures MarkCompleted(MarkCompleted(qs, id, !b), id, b) == qs
  {
  }

  /** `quests.filter(q => q.id !== id)`. */
  function RemoveId(qs: seq<Quest>, id: string): (r: seq<Quest>)
    ensures forall i :: 0 <= i < |r| ==> r[i].id != id
    ensures forall i :: 0 <= i < |qs| && qs[i].id != id ==> qs[i] in r
    ensures forall i :: 0 <= i < |r| ==> r[i] in qs
    ensures (forall i :: 0 <= i < |qs| ==> qs[i].id != id) ==> r == qs
  {
    var p := (q: Quest) => q.id != id;
    if forall i :: 0 <= i < |qs| ==> qs[i].id != id then
      FilterAll(qs, p);
      Filter(qs, p)
    else
      Filter(qs, p)
  }

  /** Removal works quest by quest: it distributes over concatenation, and
      a single quest stays exactly when its id differs, so the kept quests
      keep their order and copies. */
  lemma RemoveIdKeepsOrder(a: seq<Quest>, b: seq<Quest>, q: Quest, id: string)
    ensures RemoveId(a + b, id) == RemoveId(a, id) + RemoveId(b, id)
    ensures RemoveId([q], id) == if q.id != id then [q] else []
  {
    var p := (x: Quest) => x.id != id;
    FilterAppend(a, b, p);
    FilterSingleton(q, p);
  }

  /** Deleting a quest just appended under a fresh id gives back the list. */
  lemma RemoveAppended(qs: seq<Quest>, q: Quest)
    requires forall i :: 0 <= i < |qs| ==> qs[i].id != q.id
    ensures RemoveId(qs + [q], q.id) == qs
  {
    var p := (x: Quest) => x.id != q.id;
    FilterAppend(qs, [q], p);
    FilterAll(qs, p);
    assert Filter([q], p) == [];
  }

  /** `!title.trim()`: the characters `String.prototype.trim` removes. */
  predicate IsSpace(c: char) {
    || ('\U{0009}' <= c <= '\U{000D}') || c == ' ' || c == '\U{00A0}' || c == '\U{1680}'
    || ('\U{2000}' <= c <= '\U{200A}') || c == '\U{2028}' || c == '\U{2029}'
    || c == '\U{202F}' || c == '\U{205F}' || c == '\U{3000}' || c == '\U{FEFF}'
  }

  predicate Blank(title: string) {
    forall i :: 0 <= i < |title| ==> IsSpace(title[i])
  }

  /** The write of a toggle: completing stamps `now`, un-completing sends
      the quest's previous stamp back. */
  function ToggleWrite(quest: Quest, now: int): (r: QuestWrite)
    ensures r.id == quest.id && r.completed == !quest.completed
    ensures r.completed ==> r.lastCompleted == Some(now)
    ensures !r.completed ==> r.lastCompleted == quest.lastCompleted
  {
    QuestWrite(quest.id, !quest.completed, if !quest.completed then Some(now) else quest.lastCompleted)
  }

  // ---------------------------------------------------------------------
  // The pause menu's quest tab
  // ---------------------------------------------------------------------

  datatype Panel = Panel(quests: seq<Quest>, selected: Option<Quest>, title: string, adding: bool)

  /** The documents as the pause menu reads them, in document order: each
      with its defaults and, when a stale daily, reset. */
  function LoadedQuests(docs: seq<(string, QuestDoc)>, now: int): (r: seq<Quest>)
    ensures |r| == |docs|
    ensures forall i :: 0 <= i < |docs| ==> r[i] == ResetDaily(ReadWithDefaults(docs[i].0, docs[i].1), now)
  {
    ResetAll(seq(|docs|, i requires 0 <= i < |docs| => ReadWithDefaults(docs[i].0, docs[i].1)), now)
  }

  /** After a fetch: defaults applied, stale dailies reset, completed last;
      a panel with nothing selected selects the first quest. */
  function Fetch(p: Panel, docs: seq<(string, QuestDoc)>, now: int): (r: Panel)
    // Exactly the loaded quests: the open ones in document order, then the
    // completed ones in document order.
    ensures var loaded := LoadedQuests(docs, now);
            r.quests == Select(loaded, CompletedKey, 0) + Select(loaded, CompletedKey, 1)
    ensures multiset(r.quests) == multiset(LoadedQuests(docs, now))
    ensures |r.quests| == |docs|
    ensures forall i :: 0 <= i < |r.quests| ==> !Stale(r.quests[i], now)
    ensures SortedBy(r.quests, CompletedKey)
    ensures r.title == p.title && r.adding == p.adding
    ensures p.selected.Some? ==> r.selected == p.selected
    ensures p.selected.None? ==> r.selected == if |r.quests| > 0 then Some(r.quests[0]) else None
  {
    var reset := LoadedQuests(docs, now);
    var sorted := SortQuests(reset);
    SortedFromSettled(reset, now);
    SortQuestsPartition(reset);
    p.(quests := sorted,
       selected := if |sorted| > 0 && p.selected.None? then Some(sorted[0]) else p.selected)
  }

  /** Sorting a list with no stale quest gives a list with no stale quest. */
  lemma SortedFromSettled(qs: seq<Quest>, now: int)
    requires forall i :: 0 <= i < |qs| ==> !Stale(qs[i], now)
    ensures forall i :: 0 <= i < |SortQuests(qs)| ==> !Stale(SortQuests(qs)[i], now)
  {
    var r := SortQuests(qs);
    forall i | 0 <= i < |r|
      ensures !Stale(r[i], now)
    {
      assert r[i] in multiset(r);
      assert r[i] in multiset(qs);
    }
  }

  /** `addQuest`: ignored for a blank title, without a user or while an add
      is in flight; otherwise the new quest, incomplete and described by the
      generated `lore`, joins the list and becomes the selection. */
  function AddQuest(p: Panel, signedIn: bool, id: string, lore: string, kind: QuestType, skill: string): (r: Panel)
    ensures Blank(p.title) || !signedIn || p.adding ==> r == p
    ensures !(Blank(p.title) || !signedIn || p.adding) ==>
              var q := Quest(id, p.title, Some(lore), kind, Some(skill), false, None);
              && r.quests == Select(p.quests, CompletedKey, 0) + [q] + Select(p.quests, CompletedKey, 1)
              && r.selected == Some(q) && r.title == "" && !r.adding
  {
    if Blank(p.title) || !signedIn || p.adding then p
    else
      var q := Quest(id, p.title, Some(lore), kind, Some(skill), false, None);
      SortQuestsPartition(p.quests + [q]);
      SelectSnoc(p.quests, q, CompletedKey, 0);
      SelectSnoc(p.quests, q, CompletedKey, 1);
      Panel(SortQuests(p.quests + [q]), Some(q), "", false)
  }

  /** `toggleQuest` on the selected quest: the write, the list re-sorted
      with only that quest's flag flipped, the selection following, and 40
      XP to the quest's skill for a completion. */
  function ToggleQuest(p: Panel, s: UserStats, quest: Quest, now: int): (r: (Panel, UserStats, QuestWrite))
    ensures r.2 == ToggleWrite(quest, now)
    ensures r.0.quests == SortQuests(MarkCompleted(p.quests, quest.id, !quest.completed))
    ensures r.0.title == p.title && r.0.adding == p.adding
    ensures p.selected.Some? && p.selected.value.id == quest.id ==>
              r.0.selected == Some(p.selected.value.(completed := !quest.completed))
    ensures !(p.selected.Some? && p.selected.value.id == quest.id) ==> r.0.selected == p.selected
    ensures !quest.completed ==> r.1 == AddXP(s, 40, quest.skill)
    ensures quest.completed ==> r.1 == s
  {
    var status := !quest.completed;
    var list := SortQuests(MarkCompleted(p.quests, quest.id, status));
    var selected := if p.selected.Some? && p.selected.value.id == quest.id
                    then Some(p.selected.value.(completed := status)) else p.selected;
    (p.(quests := list, selected := selected),
     if status then AddXP(s, 40, quest.skill) else s,
     ToggleWrite(quest, now))
  }

  /** Completing a quest moves it behind every quest still open and keeps
      every other quest; un-completing it moves it in front of every
      completed quest. */
  lemma ToggleMovesQuest(p: Panel, s: UserStats, quest: Quest, now: int)
    ensures var l := ToggleQuest(p, s, quest, now).0.quests;
            forall i, j :: 0 <= i < |l| && 0 <= j < |l| && l[i].id == quest.id && l[j].id != quest.id ==>
              && (!quest.completed && !l[j].completed ==> j < i)
              && (quest.completed && l[j].completed ==> i < j)
  {
    var m := MarkCompleted(p.quests, quest.id, !quest.completed);
    var l := SortQuests(m);
    forall i, j | 0 <= i < |l| && 0 <= j < |l| && l[i].id == quest.id && l[j].id != quest.id
      ensures !quest.completed && !l[j].completed ==> j < i
      ensures quest.completed && l[j].completed ==> i < j
    {
      assert l[i] in multiset(m);
      var k :| 0 <= k < |m| && m[k] == l[i];
      assert l[i].completed == !quest.completed;
      if !quest.completed && !l[j].completed {
        SortQuestsIncompleteFirst(m, j, i);
      }
      if quest.completed && l[j].completed {
        SortQuestsIncompleteFirst(m, i, j);
      }
    }
  }

  /** Completing and un-completing a quest in a list that holds it once
      gives the same quests back, with 40 XP granted once. */
  lemma ToggleTwice(p: Panel, s: UserStats, quest: Quest, now: int, later: int)
    requires !quest.completed
    requires forall i :: 0 <= i < |p.quests| && p.quests[i].id == quest.id ==> !p.quests[i].completed
    ensures var (p1, s1, _) := ToggleQuest(p, s, quest, now);
            var (p2, s2, w2) := ToggleQuest(p1, s1, quest.(completed := true), later);
            && multiset(p2.quests) == multiset(p.quests)
            && s2 == AddXP(s, 40, quest.skill)
            && w2.lastCompleted == quest.lastCompleted
  {
    var m := MarkCompleted(p.quests, quest.id, true);
    var l := SortQuests(m);
    MarkPermutes(l, m, quest.id, false);
    MarkCompletedUndo(p.quests, quest.id, false);
  }

  /** The list never records the stamp a completion writes: the quest's
      entry keeps the `lastCompleted` it was loaded with, so reopening it
      from the list sends that old stamp back, or none when it had none. */
  lemma CompletionStampNotKept(p: Panel, s: UserStats, quest: Quest, now: int, later: int, k: int)
    requires 0 <= k < |p.quests| && p.quests[k].id == quest.id && !quest.completed
    ensures var q := p.quests[k].(completed := true);
            && q in ToggleQuest(p, s, quest, now).0.quests
            && ToggleWrite(q, later).lastCompleted == p.quests[k].lastCompleted
  {
    var m := MarkCompleted(p.quests, quest.id, true);
    assert m[k] == p.quests[k].(completed := true);
    assert m[k] in multiset(SortQuests(m));
  }

  lemma MarkAppend(a: seq<Quest>, b: seq<Quest>, id: string, c: bool)
    ensures MarkCompleted(a + b, id, c) == MarkCompleted(a, id, c) + MarkCompleted(b, id, c)
  {
    var l, r := MarkCompleted(a + b, id, c), MarkCompleted(a, id, c) + MarkCompleted(b, id, c);
    forall i | 0 <= i < |l|
      ensures l[i] == r[i]
    {
      if i >= |a| {
        assert (a + b)[i] == b[i - |a|];
      }
    }
  }

  /** Marking commutes with permuting the list. */
  lemma {:induction false} MarkPermutes(a: seq<Quest>, b: seq<Quest>, id: string, c: bool)
    requires multiset(a) == multiset(b)
    ensures multiset(MarkCompleted(a, id, c)) == multiset(MarkCompleted(b, id, c))
    decreases |a|
  {
    if |a| == 0 {
      assert |multiset(b)| == 0;
    } else {
      var x := a[0];
      assert x in multiset(b);
      var k :| 0 <= k < |b| && b[k] == x;
      var lo, hi := b[..k], b[k + 1..];
      assert b == lo + [x] + hi;
      assert a == [x] + a[1..];
      TakeOut(a, lo, hi, x);
      MarkPermutes(a[1..], lo + hi, id, c);
      MarkSplit(x, a[1..], lo, hi, id, c);
    }
  }

  /** Taking the first element out of a list and out of a permutation of
      it leaves permutations. */
  lemma TakeOut(a: seq<Quest>, lo: seq<Quest>, hi: seq<Quest>, x: Quest)
    requires |a| > 0 && a[0] == x && multiset(a) == multiset(lo + [x] + hi)
    ensures multiset(a[1..]) == multiset(lo + hi)
  {
    assert a == [x] + a[1..];
    calc {
      multiset(a[1..]);
      multiset(a) - multiset{x};
      multiset(lo + [x] + hi) - multiset{x};
      multiset(lo) + multiset{x} + multiset(hi) - multiset{x};
      multiset(lo + hi);
    }
  }

  /** Marking the two sides of a taken-out element. */
  lemma MarkSplit(x: Quest, rest: seq<Quest>, lo: seq<Quest>, hi: seq<Quest>, id: string, c: bool)
    requires multiset(MarkCompleted(rest, id, c)) == multiset(MarkCompleted(lo + hi, id, c))
    ensures multiset(MarkCompleted([x] + rest, id, c)) == multiset(MarkCompleted(lo + [x] + hi, id, c))
  {
    var m := MarkCompleted([x], id, c);
    MarkAppend([x], rest, id, c);
    MarkAppend(lo + [x], hi, id, c);
    MarkAppend(lo, [x], id, c);
    MarkAppend(lo, hi, id, c);
    var ml, mh := MarkCompleted(lo, id, c), MarkCompleted(hi, id, c);
    calc {
      multiset(MarkCompleted([x] + rest, id, c));
      multiset(m + MarkCompleted(rest, id, c));
      multiset(m) + multiset(MarkCompleted(lo + hi, id, c));
      multiset(m) + multiset(ml + mh);
      multiset(ml + m + mh);
      multiset(MarkCompleted(lo + [x] + hi, id, c));
    }
  }

  /** `deleteQuest`: the quest leaves the list; a deleted selection moves
      to the first remaining quest, or to nothing. */
  function DeleteQuest(p: Panel, id: string): (r: Panel)
    ensures r.quests == RemoveId(p.quests, id)
    ensures p.selected.Some? && p.selected.value.id == id ==>
              r.selected == if |r.quests| > 0 then Some(r.quests[0]) else None
    ensures !(p.selected.Some? && p.selected.value.id == id) ==> r.selected == p.selected
    ensures r.selected.Some? ==> r.selected.value.id != id
  {
    var list := RemoveId(p.quests, id);
    var selected := if p.selected.Some? && p.selected.value.id == id
                    then (if |list| > 0 then Some(list[0]) else None) else p.selected;
    p.(quests := list, selected := selected)
  }

  /** Deleting keeps the completed-last order. */
  lemma DeleteKeepsOrder(p: Panel, id: string)
    requires SortedBy(p.quests, CompletedKey)
    ensures SortedBy(DeleteQuest(p, id).quests, CompletedKey)
  {
    FilterKeepsSorted(p.quests, (q: Quest) => q.id != id);
  }

  lemma {:induction false} FilterKeepsSorted(s: seq<Quest>, f: Quest -> bool)
    requires SortedBy(s, CompletedKey)
    ensures SortedBy(Filter(s, f), CompletedKey)
  {
    if |s| > 0 {
      FilterKeepsSorted(s[1..], f);
      var t := Filter(s[1..], f);
      if f(s[0]) {
        forall j | 0 <= j < |t|
          ensures CompletedKey(s[0]) <= CompletedKey(t[j])
        {
          HeadKeyBelow(s, t[j]);
        }
        assert Filter(s, f) == [s[0]] + t;
        ConsSorted(s[0], t, CompletedKey);
      }
    }
  }

  /** Every later element of a sorted list has at least the head's key. */
  lemma HeadKeyBelow(s: seq<Quest>, x: Quest)
    requires SortedBy(s, CompletedKey) && |s| > 0 && x in s[1..]
    ensures CompletedKey(s[0]) <= CompletedKey(x)
  {
    var k :| 0 <= k < |s[1..]| && s[1..][k] == x;
    assert s[k + 1] == x;
  }

  // ---------------------------------------------------------------------
  // The stand-alone quest board
  // ---------------------------------------------------------------------

  /** `fetchQuests`: documents read as stored, stale dailies reset, in
      the order they came. */
  function FetchBoard(docs: seq<(string, QuestDoc)>, now: int): (r: seq<Quest>)
    ensures |r| == |docs|
    ensures forall i :: 0 <= i < |r| ==> r[i] == ResetDaily(Read(docs[i].0, docs[i].1), now)
    ensures forall i :: 0 <= i < |r| ==> !Stale(r[i], now)
  {
    ResetAll(seq(|docs|, i requires 0 <= i < |docs| => Read(docs[i].0, docs[i].1)), now)
  }

  /** `addQuest` on the board: a new incomplete quest at the end, with no
      description or skill. */
  function AddBoardQuest(qs: seq<Quest>, title: string, signedIn: bool, id: string, kind: QuestType): (r: seq<Quest>)
    ensures Blank(title) || !signedIn ==> r == qs
    ensures !(Blank(title) || !signedIn) ==> r == qs + [Quest(id, title, None, kind, None, false, None)]
  {
    if Blank(title) || !signedIn then qs else qs + [Quest(id, title, None, kind, None, false, None)]
  }

  /** `toggleQuest` on the board: no re-sort, and 25 XP with no skill. */
  function ToggleBoardQuest(qs: seq<Quest>, s: UserStats, quest: Quest, now: int): (r: (seq<Quest>, UserStats, QuestWrite))
    ensures r.0 == MarkCompleted(qs, quest.id, !quest.completed)
    ensures r.2 == ToggleWrite(quest, now)
    ensures quest.completed ==> r.1 == s
    ensures !quest.completed ==> r.1 == s.(xp := s.xp + FinalAmount(25, IsWellRested(s)))
  {
    var status := !quest.completed;
    (MarkCompleted(qs, quest.id, status), if status then AddXP(s, 25, None) else s, ToggleWrite(quest, now))
  }

  /** On the board a completion and an un-completion give back the list
      exactly, with the character XP of one completion. */
  lemma BoardToggleTwice(qs: seq<Quest>, s: UserStats, quest: Quest, now: int, later: int)
    requires !quest.completed
    requires forall i :: 0 <= i < |qs| && qs[i].id == quest.id ==> !qs[i].completed
    ensures var (q1, s1, _) := ToggleBoardQuest(qs, s, quest, now);
            var (q2, s2, _) := ToggleBoardQuest(q1, s1, quest.(completed := true), later);
            q2 == qs && s2 == s.(xp := s.xp + FinalAmount(25, IsWellRested(s)))
  {
    MarkCompletedUndo(qs, quest.id, false);
  }

  /** Adding then deleting on the board, under a fresh id, is no change. */
  lemma BoardAddThenDelete(qs: seq<Quest>, title: string, id: string, kind: QuestType)
    requires !Blank(title)
    requires forall i :: 0 <= i < |qs| ==> qs[i].id != id
    ensures RemoveId(AddBoardQuest(qs, title, true, id, kind), id) == qs
  {
    RemoveAppended(qs, Quest(id, title, None, kind, None, false, None));
  }
}

=== FILE: skills_page.dfy ===
/** The skills page (src/pages/Skills.tsx): choosing a constellation,
    focusing and clicking stars, the prerequisite rule of a star click, the
    focus-panel unlock button, and which lines are drawn lit. */
module SkillsPage {
  import opened Common
  import opened Stats
  import opened Constellations

  /** `perks.findIndex(p => p.id === id)`: the first index with that id, or -1. */
  function FindIndex(perks: seq<Perk>, id: string): (r: int)
    ensures -1 <= r < |perks|
    ensures r >= 0 ==> perks[r].id == id && forall j :: 0 <= j < r ==> perks[j].id != id
    ensures r == -1 ==> forall j :: 0 <= j < |perks| ==> perks[j].id != id
  {
    if |perks| == 0 then -1
    else if perks[0].id == id then 0
    else
      var r := FindIndex(perks[1..], id);
      if r == -1 then -1 else r + 1
  }

  /** Line `k` ends at perk `i` and starts at an owned perk. */
  predicate LineUnlocks(c: Constellation, owned: seq<string>, k: int, i: int)
    requires 0 <= k < |c.lines|
  {
    c.lines[k].end == i && 0 <= c.lines[k].start < |c.perks|
    && c.perks[c.lines[k].start].id in owned
  }

  /** `lines.some(...)` over a suffix of the lines, as the source scans them. */
  predicate SomeLine(c: Constellation, owned: seq<string>, i: int, from: nat)
    decreases |c.lines| - from
  {
    from < |c.lines| && (LineUnlocks(c, owned, from, i) || SomeLine(c, owned, i, from + 1))
  }

  lemma {:induction false} SomeLineIff(c: Constellation, owned: seq<string>, i: int, from: nat)
    ensures SomeLine(c, owned, i, from) <==>
              exists k :: from <= k < |c.lines| && LineUnlocks(c, owned, k, i)
    decreases |c.lines| - from
  {
    if from < |c.lines| {
      SomeLineIff(c, owned, i, from + 1);
    }
  }

  /** The prerequisite of a star click: the root (index 0) is always
      available; any other perk needs a line into it from an owned perk. */
  predicate HasPrereq(c: Constellation, owned: seq<string>, i: int) {
    i == 0 || SomeLine(c, owned, i, 0)
  }

  lemma HasPrereqIff(c: Constellation, owned: seq<string>, i: int)
    ensures HasPrereq(c, owned, i) <==>
              i == 0 || exists k :: 0 <= k < |c.lines| && LineUnlocks(c, owned, k, i)
  {
    SomeLineIff(c, owned, i, 0);
  }

  /** Owning more perks never takes a prerequisite away. */
  lemma HasPrereqMonotone(c: Constellation, a: seq<string>, b: seq<string>, i: int)
    requires HasPrereq(c, a, i)
    requires forall x :: x in a ==> x in b
    ensures HasPrereq(c, b, i)
  {
    HasPrereqIff(c, a, i);
    HasPrereqIff(c, b, i);
    if i != 0 {
      var k :| 0 <= k < |c.lines| && LineUnlocks(c, a, k, i);
      assert LineUnlocks(c, b, k, i);
    }
  }

  /** The page's own state next to the character sheet. */
  datatype Page = Page(stats: UserStats, selected: Option<Constellation>, focused: Option<Perk>)

  predicate IsFocused(p: Page, perk: Perk) {
    p.focused.Some? && p.focused.value.id == perk.id
  }

  /** A star click. The first click on a star focuses it; a click on the
      focused star, unowned and with a point to spend, buys it when the
      prerequisite holds. Otherwise the source calls a `notify` that the page
      never took from the context, which throws; the second component
      reports that branch, where nothing changes. */
  function StarClick(p: Page, perk: Perk): (r: (Page, bool))
    requires p.selected.Some?
    ensures !IsFocused(p, perk) ==> r == (p.(focused := Some(perk)), false)
    ensures IsFocused(p, perk) ==> r.0.focused == p.focused && r.0.selected == p.selected
    ensures IsFocused(p, perk) && (perk.id in p.stats.perks || p.stats.skillPoints <= 0) ==> r == (p, false)
    ensures r.0.stats != p.stats <==>
              && IsFocused(p, perk) && perk.id !in p.stats.perks && p.stats.skillPoints > 0
              && HasPrereq(p.selected.value, p.stats.perks, FindIndex(p.selected.value.perks, perk.id))
    ensures r.0.stats != p.stats ==> r.0.stats == SpendSkillPoint(p.stats, perk.id)
    ensures r.1 ==> r.0 == p
  {
    if IsFocused(p, perk) then
      if perk.id !in p.stats.perks && p.stats.skillPoints > 0 then
        var c := p.selected.value;
        var index := FindIndex(c.perks, perk.id);
        if HasPrereq(c, p.stats.perks, index) then
          (p.(stats := SpendSkillPoint(p.stats, perk.id)), false)
        else
          (p, true)
      else
        (p, false)
    else
      (p.(focused := Some(perk)), false)
  }

  /** The focus panel's unlock button: it spends a point on the focused
      perk without looking at the prerequisite. */
  function UnlockFocused(p: Page): (r: Page)
    requires p.focused.Some?
    ensures r.selected == p.selected && r.focused == p.focused
    ensures r.stats == SpendSkillPoint(p.stats, p.focused.value.id)
  {
    p.(stats := SpendSkillPoint(p.stats, p.focused.value.id))
  }

  /** Line `k` is drawn lit when both its ends are owned. */
  predicate LineLit(c: Constellation, owned: seq<string>, k: int)
    requires 0 <= k < |c.lines| && LinesInRange(c)
  {
    c.perks[c.lines[k].start].id in owned && c.perks[c.lines[k].end].id in owned
  }

  /** A non-root star bought by a click lights a line into it. */
  lemma StarClickLightsLine(p: Page, j: nat)
    requires p.selected.Some? && WellFormed(p.selected.value)
    requires j < |p.selected.value.perks| && j != 0
    requires p.selected.value.perks[j].id !in p.stats.perks
    requires p.selected.value.perks[j].id in StarClick(p, p.selected.value.perks[j]).0.stats.perks
    ensures var c := p.selected.value;
            exists k :: 0 <= k < |c.lines| && c.lines[k].end == j
                        && LineLit(c, StarClick(p, c.perks[j]).0.stats.perks, k)
  {
    var c := p.selected.value;
    var owned' := StarClick(p, c.perks[j]).0.stats.perks;
    assert FindIndex(c.perks, c.perks[j].id) == j;
    HasPrereqIff(c, p.stats.perks, j);
    var k :| 0 <= k < |c.lines| && LineUnlocks(c, p.stats.perks, k, j);
    assert LineLit(c, owned', k);
  }

  /** The level bar of a constellation: its skill, or level 0, no XP and a
      threshold of 100 when the sheet has no such skill. */
  function DisplayedSkill(s: UserStats, c: Constellation): (r: SkillData)
    ensures c.skillKey in s.skills ==> r == s.skills[c.skillKey]
    ensures c.skillKey !in s.skills ==> r == SkillData(0, 0, 100)
  {
    if c.skillKey in s.skills then s.skills[c.skillKey] else SkillData(0, 0, 100)
  }

  /** After a document is loaded every constellation finds its skill, so the
      fallback bar is never shown. */
  lemma LoadedSheetHasEverySkill(doc: Option<Snapshot>, i: nat)
    requires i < |CONSTELLATIONS|
    ensures DisplayedSkill(Load(doc), CONSTELLATIONS[i]) == Load(doc).skills[CONSTELLATIONS[i].skillKey]
  {
    DataWellFormed();
    assert CONSTELLATIONS[i].skillKey in (set j | 0 <= j < |CONSTELLATIONS| :: CONSTELLATIONS[j].skillKey);
    if doc.None? {
      assert Load(doc).skills == DEFAULT_SKILLS;
    }
  }

  // ---------------------------------------------------------------------
  // The page as an event machine
  // ---------------------------------------------------------------------

  /** What a user can do on the page. Events on elements that are not on
      screen (a star with no constellation open, the list while one is open,
      the unlock button of an owned perk or without points) are ignored. */
  datatype Event = SelectSkill(index: nat) | Back | Star(index: nat) | Unlock

  function Step(p: Page, e: Event): (r: Page)
    ensures r.stats.perks != p.stats.perks ==> e.Star? || e.Unlock?
    ensures forall x :: x in p.stats.perks ==> x in r.stats.perks
    ensures r.stats.skillPoints >= p.stats.skillPoints - 1
  {
    match e
    case SelectSkill(i) =>
      if p.selected.None? && i < |CONSTELLATIONS| then p.(selected := Some(CONSTELLATIONS[i])) else p
    case Back => p.(selected := None, focused := None)
    case Star(j) =>
      if p.selected.Some? && j < |p.selected.value.perks| then StarClick(p, p.selected.value.perks[j]).0
      else p
    case Unlock =>
      if p.selected.Some? && p.focused.Some? && p.focused.value.id !in p.stats.perks
         && p.stats.skillPoints > 0
      then UnlockFocused(p) else p
  }

  function Run(p: Page, events: seq<Event>): (r: Page)
    ensures forall x :: x in p.stats.perks ==> x in r.stats.perks
    decreases |events|
  {
    if |events| == 0 then p else Run(Step(p, events[0]), events[1..])
  }

  /** `S` contains the root and everything a line leads to from inside `S`. */
  predicate ClosedUnder(c: Constellation, S: set<int>) {
    && 0 in S
    && forall k :: 0 <= k < |c.lines| && c.lines[k].start in S ==> c.lines[k].end in S
  }

  /** Every owned perk of `c` has its index in `S`. */
  predicate OwnedWithin(c: Constellation, owned: seq<string>, S: set<int>) {
    forall j :: 0 <= j < |c.perks| && c.perks[j].id in owned ==> j in S
  }

  predicate OpenIsKnown(p: Page) {
    p.selected.Some? ==> p.selected.value in CONSTELLATIONS
  }

  lemma IndexOf(c: Constellation) returns (i: nat)
    requires c in CONSTELLATIONS
    ensures i < |CONSTELLATIONS| && CONSTELLATIONS[i] == c
  {
    i :| 0 <= i < |CONSTELLATIONS| && CONSTELLATIONS[i] == c;
  }

  /** A perk id names one constellation only. */
  lemma SharedIdSameTree(a: nat, b: nat, m: nat, j: nat)
    requires a < |CONSTELLATIONS| && b < |CONSTELLATIONS|
    requires m < |CONSTELLATIONS[a].perks| && j < |CONSTELLATIONS[b].perks|
    requires CONSTELLATIONS[a].perks[m].id == CONSTELLATIONS[b].perks[j].id
    ensures a == b && m == j
  {
    DataWellFormed();
  }

  /** One star click, in any constellation, keeps the owned perks of `c`
      inside a closed set. */
  lemma StepKeepsWithin(p: Page, e: Event, c: Constellation, S: set<int>)
    requires c in CONSTELLATIONS && ClosedUnder(c, S) && OpenIsKnown(p)
    requires OwnedWithin(c, p.stats.perks, S)
    requires !e.Unlock?
    ensures OpenIsKnown(Step(p, e))
    ensures OwnedWithin(c, Step(p, e).stats.perks, S)
  {
    var r := Step(p, e);
    if e.Star? && p.selected.Some? && e.index < |p.selected.value.perks| && r.stats != p.stats {
      var d := p.selected.value;
      var j := e.index;
      var perk := d.perks[j];
      var a := IndexOf(c);
      var b := IndexOf(d);
      assert r.stats.perks == p.stats.perks + [perk.id];
      forall m | 0 <= m < |c.perks| && c.perks[m].id in r.stats.perks
        ensures m in S
      {
        if c.perks[m].id !in p.stats.perks {
          SharedIdSameTree(a, b, m, j);
          TreeFacts(a);
          assert FindIndex(c.perks, perk.id) == j;
          HasPrereqIff(c, p.stats.perks, j);
          if j != 0 {
            var k :| 0 <= k < |c.lines| && LineUnlocks(c, p.stats.perks, k, j);
            assert c.lines[k].start in S;
          }
        }
      }
    }
  }

  lemma {:induction false} RunKeepsWithin(p: Page, events: seq<Event>, c: Constellation, S: set<int>)
    requires c in CONSTELLATIONS && ClosedUnder(c, S) && OpenIsKnown(p)
    requires OwnedWithin(c, p.stats.perks, S)
    requires forall t :: 0 <= t < |events| ==> !events[t].Unlock?
    ensures OwnedWithin(c, Run(p, events).stats.perks, S)
    decreases |events|
  {
    if |events| > 0 {
      StepKeepsWithin(p, events[0], c, S);
      RunKeepsWithin(Step(p, events[0]), events[1..], c, S);
    }
  }

  /** Star clicks alone never buy Speech's second perk: no line ends at it. */
  lemma SpeechSecondPerkUnreachable(p: Page, events: seq<Event>)
    requires OpenIsKnown(p) && "speech_2" !in p.stats.perks
    requires forall t :: 0 <= t < |events| ==> !events[t].Unlock?
    ensures "speech_2" !in Run(p, events).stats.perks
  {
    var S := {0, 2, 3, 4, 5};
    assert ClosedUnder(SPEECH_TREE, S);
    assert OwnedWithin(SPEECH_TREE, p.stats.perks, S);
    RunKeepsWithin(p, events, SPEECH_TREE, S);
    assert SPEECH_TREE.perks[1].id == "speech_2";
  }

  /** Star clicks alone buy at most the root of One-Handed: no line ends at
      its second perk, and the others all hang below it. */
  lemma OneHandedOnlyRootReachable(p: Page, events: seq<Event>, j: nat)
    requires OpenIsKnown(p) && 0 < j < |ONE_HANDED_TREE.perks|
    requires OwnedWithin(ONE_HANDED_TREE, p.stats.perks, {0})
    requires forall t :: 0 <= t < |events| ==> !events[t].Unlock?
    ensures ONE_HANDED_TREE.perks[j].id !in Run(p, events).stats.perks
  {
    assert ClosedUnder(ONE_HANDED_TREE, {0});
    RunKeepsWithin(p, events, ONE_HANDED_TREE, {0});
  }

  /** The unlock button does buy Speech's second perk for a new character. */
  lemma UnlockButtonSkipsPrerequisite()
    ensures var p := Page(INITIAL_STATS, None, None);
            "speech_2" in Run(p, [SelectSkill(3), Star(1), Unlock]).stats.perks
  {
    var p0 := Page(INITIAL_STATS, None, None);
    var p1 := Step(p0, SelectSkill(3));
    assert p1.selected == Some(SPEECH_TREE);
    var p2 := Step(p1, Star(1));
    assert p2.focused == Some(SPEECH_TREE.perks[1]);
    var p3 := Step(p2, Unlock);
    assert "speech_2" in p3.stats.perks;
    assert [SelectSkill(3), Star(1), Unlock][1..] == [Star(1), Unlock];
    assert [Star(1), Unlock][1..] == [Unlock];
  }

  // ---------------------------------------------------------------------
  // Buying a whole tree by clicks
  // ---------------------------------------------------------------------

  /** Every index names a perk of `c`. */
  predicate InRange(c: Constellation, order: seq<nat>) {
    forall t :: 0 <= t < |order| ==> order[t] < |c.perks|
  }

  /** The ids of the perks at the given indices. */
  function IdsAt(c: Constellation, order: seq<nat>): (r: seq<string>)
    requires InRange(c, order)
    ensures |r| == |order|
    ensures forall t :: 0 <= t < |order| ==> r[t] == c.perks[order[t]].id
  {
    seq(|order|, t requires 0 <= t < |order| => c.perks[order[t]].id)
  }

  /** Each perk in `order` has its prerequisite among the ones before it. */
  predicate UnlockOrder(c: Constellation, order: seq<nat>) {
    && InRange(c, order)
    && forall t :: 0 <= t < |order| ==> HasPrereq(c, IdsAt(c, order[..t]), order[t])
  }

  /** Focus a star, then click it again. */
  function ClickTwice(order: seq<nat>): (r: seq<Event>)
    ensures |r| == 2 * |order|
    ensures forall t :: 0 <= t < |r| ==> r[t].Star?
  {
    if |order| == 0 then [] else [Star(order[0]), Star(order[0])] + ClickTwice(order[1..])
  }

  lemma RunAppend(p: Page, a: seq<Event>, b: seq<Event>)
    ensures Run(p, a + b) == Run(Run(p, a), b)
    decreases |a|
  {
    if |a| > 0 {
      assert (a + b)[0] == a[0];
      assert (a + b)[1..] == a[1..] + b;
      RunAppend(Step(p, a[0]), a[1..], b);
    } else {
      assert a + b == b;
    }
  }

  /** Two clicks on a star whose prerequisite is owned buy it. */
  lemma ClickTwiceBuys(p: Page, j: nat)
    requires p.selected.Some? && WellFormed(p.selected.value) && j < |p.selected.value.perks|
    requires HasPrereq(p.selected.value, p.stats.perks, j)
    requires p.stats.skillPoints >= 1
    ensures var r := Run(p, [Star(j), Star(j)]);
            && r.selected == p.selected
            && p.selected.value.perks[j].id in r.stats.perks
            && r.stats.skillPoints >= p.stats.skillPoints - 1
            && forall x :: x in p.stats.perks ==> x in r.stats.perks
  {
    var c := p.selected.value;
    assert FindIndex(c.perks, c.perks[j].id) == j;
    var p1 := Step(p, Star(j));
    var p2 := Step(p1, Star(j));
    if p1.stats == p.stats {
      assert IsFocused(p1, c.perks[j]);
      HasPrereqMonotone(c, p.stats.perks, p1.stats.perks, j);
    }
    calc {
      Run(p, [Star(j), Star(j)]);
      { assert [Star(j), Star(j)][1..] == [Star(j)]; }
      Run(p1, [Star(j)]);
      Run(p2, []);
    }
  }

  lemma IdsAtSnoc(c: Constellation, done: seq<nat>, j: nat)
    requires InRange(c, done) && j < |c.perks|
    ensures InRange(c, done + [j])
    ensures IdsAt(c, done + [j]) == IdsAt(c, done) + [c.perks[j].id]
  {
  }

  /** The head of the remaining order has its prerequisite in what is done. */
  lemma OrderHead(c: Constellation, done: seq<nat>, order: seq<nat>)
    requires |order| > 0 && UnlockOrder(c, done + order)
    ensures InRange(c, done) && order[0] < |c.perks|
    ensures HasPrereq(c, IdsAt(c, done), order[0])
    ensures UnlockOrder(c, (done + [order[0]]) + order[1..])
  {
    var all := done + order;
    assert all[..|done|] == done;
    assert all[|done|] == order[0];
    assert (done + [order[0]]) + order[1..] == all;
  }

  /** Clicking twice through an unlock order buys every perk in it. */
  lemma {:induction false} ClickThroughOrder(p: Page, done: seq<nat>, order: seq<nat>)
    requires p.selected.Some? && WellFormed(p.selected.value)
    requires InRange(p.selected.value, done) && InRange(p.selected.value, order)
    requires UnlockOrder(p.selected.value, done + order)
    requires forall x :: x in IdsAt(p.selected.value, done) ==> x in p.stats.perks
    requires p.stats.skillPoints >= |order|
    ensures var r := Run(p, ClickTwice(order));
            forall t :: 0 <= t < |order| ==> p.selected.value.perks[order[t]].id in r.stats.perks
    decreases |order|
  {
    if |order| > 0 {
      var c := p.selected.value;
      var j := order[0];
      OrderHead(c, done, order);
      HasPrereqMonotone(c, IdsAt(c, done), p.stats.perks, j);
      ClickTwiceBuys(p, j);
      var q := Run(p, [Star(j), Star(j)]);
      RunAppend(p, [Star(j), Star(j)], ClickTwice(order[1..]));
      assert ClickTwice(order) == [Star(j), Star(j)] + ClickTwice(order[1..]);
      IdsAtSnoc(c, done, j);
      ClickThroughOrder(q, done + [j], order[1..]);
      forall t | 0 < t < |order|
        ensures order[t] == order[1..][t - 1]
      {
      }
    }
  }

  /** From the list of constellations, choosing one and clicking twice
      through an unlock order buys every perk in the order. */
  lemma BuyInOrder(s: UserStats, i: nat, order: seq<nat>)
    requires i < |CONSTELLATIONS| && UnlockOrder(CONSTELLATIONS[i], order)
    requires s.skillPoints >= |order|
    ensures var r := Run(Page(s, None, None), [SelectSkill(i)] + ClickTwice(order));
            forall t :: 0 <= t < |order| ==> CONSTELLATIONS[i].perks[order[t]].id in r.stats.perks
  {
    var p := Page(s, None, None);
    var q := Page(s, Some(CONSTELLATIONS[i]), None);
    assert Step(p, SelectSkill(i)) == q;
    assert Run(p, [SelectSkill(i)]) == Run(q, []);
    RunAppend(p, [SelectSkill(i)], ClickTwice(order));
    TreeFacts(i);
    var empty: seq<nat> := [];
    assert empty + order == order;
    assert IdsAt(CONSTELLATIONS[i], empty) == [];
    ClickThroughOrder(q, empty, order);
  }

  /** The indices 0 .. n-1. */
  function Upto(n: nat): (r: seq<nat>)
    ensures |r| == n && forall t :: 0 <= t < n ==> r[t] == t
  {
    if n == 0 then [] else Upto(n - 1) + [n - 1]
  }

  /** The perk at position `t` of an order is reached by line `k` from the
      perk at the earlier position `u`. */
  lemma PrereqByLine(c: Constellation, o: seq<nat>, t: nat, k: nat, u: nat)
    requires InRange(c, o) && u < t < |o| && k < |c.lines|
    requires c.lines[k] == Line(o[u], o[t])
    ensures HasPrereq(c, IdsAt(c, o[..t]), o[t])
  {
    assert IdsAt(c, o[..t])[u] == c.perks[o[u]].id;
    assert LineUnlocks(c, IdsAt(c, o[..t]), k, o[t]);
    HasPrereqIff(c, IdsAt(c, o[..t]), o[t]);
  }

  /** A tree whose first lines chain each perk to the next can be bought
      in index order. */
  lemma ChainOrder(c: Constellation)
    requires |c.lines| >= |c.perks| - 1
    requires forall k :: 0 <= k < |c.perks| - 1 ==> c.lines[k] == Line(k, k + 1)
    ensures UnlockOrder(c, Upto(|c.perks|))
  {
    var o := Upto(|c.perks|);
    forall t | 0 <= t < |o|
      ensures HasPrereq(c, IdsAt(c, o[..t]), o[t])
    {
      if t > 0 {
        PrereqByLine(c, o, t, t - 1, t - 1);
      }
    }
  }

  lemma RestorationOrder()
    ensures UnlockOrder(RESTORATION_TREE, Upto(7))
  {
    ChainOrder(RESTORATION_TREE);
  }

  lemma EnchantingOrder()
    ensures UnlockOrder(ENCHANTING_TREE, Upto(5))
  {
    var c, o := ENCHANTING_TREE, Upto(5);
    assert o == [0, 1, 2, 3, 4];
    PrereqByLine(c, o, 1, 0, 0);
    PrereqByLine(c, o, 2, 1, 0);
    PrereqByLine(c, o, 3, 2, 0);
    PrereqByLine(c, o, 4, 3, 3);
  }

  lemma SmithingOrder()
    ensures UnlockOrder(SMITHING_TREE, Upto(5))
  {
    var c, o := SMITHING_TREE, Upto(5);
    assert o == [0, 1, 2, 3, 4];
    PrereqByLine(c, o, 1, 0, 0);
    PrereqByLine(c, o, 2, 1, 1);
    PrereqByLine(c, o, 3, 2, 2);
    PrereqByLine(c, o, 4, 3, 1);
  }

  /** Speech: every perk but the second, whose only line leads away from it. */
  const SPEECH_ORDER: seq<nat> := [0, 2, 3, 4, 5]

  lemma SpeechOrder()
    ensures UnlockOrder(SPEECH_TREE, SPEECH_ORDER)
  {
    var c, o := SPEECH_TREE, SPEECH_ORDER;
    PrereqByLine(c, o, 1, 0, 0);
    PrereqByLine(c, o, 2, 4, 1);
    PrereqByLine(c, o, 3, 1, 1);
    PrereqByLine(c, o, 4, 3, 2);
  }

  lemma AlchemyOrder()
    ensures UnlockOrder(ALCHEMY_TREE, Upto(5))
  {
    ChainOrder(ALCHEMY_TREE);
  }

  lemma TwoHandedOrder()
    ensures UnlockOrder(TWO_HANDED_TREE, Upto(7))
  {
    ChainOrder(TWO_HANDED_TREE);
  }

  lemma AlterationOrder()
    ensures UnlockOrder(ALTERATION_TREE, Upto(4))
  {
    var c, o := ALTERATION_TREE, Upto(4);
    assert o == [0, 1, 2, 3];
    PrereqByLine(c, o, 1, 0, 0);
    PrereqByLine(c, o, 2, 1, 0);
    PrereqByLine(c, o, 3, 2, 0);
  }

  lemma BuyWholeTree(s: UserStats, i: nat)
    requires i < |CONSTELLATIONS| && UnlockOrder(CONSTELLATIONS[i], Upto(|CONSTELLATIONS[i].perks|))
    requires s.skillPoints >= |CONSTELLATIONS[i].perks|
    ensures var c := CONSTELLATIONS[i];
            var r := Run(Page(s, None, None), [SelectSkill(i)] + ClickTwice(Upto(|c.perks|)));
            forall m :: 0 <= m < |c.perks| ==> c.perks[m].id in r.stats.perks
  {
    var c := CONSTELLATIONS[i];
    var o := Upto(|c.perks|);
    BuyInOrder(s, i, o);
    var r := Run(Page(s, None, None), [SelectSkill(i)] + ClickTwice(o));
    forall m | 0 <= m < |c.perks|
      ensures c.perks[m].id in r.stats.perks
    {
      assert o[m] == m;
    }
  }

  /** Six of the eight trees can be bought completely by star clicks, given
      one skill point per perk: choose the tree, then click each star twice
      in index order. */
  lemma WholeTreeByStars(s: UserStats, i: nat)
    requires i in {0, 1, 2, 4, 5, 7}
    requires s.skillPoints >= |CONSTELLATIONS[i].perks|
    ensures var c := CONSTELLATIONS[i];
            var r := Run(Page(s, None, None), [SelectSkill(i)] + ClickTwice(Upto(|c.perks|)));
            forall m :: 0 <= m < |c.perks| ==> c.perks[m].id in r.stats.perks
  {
    if i == 0 { RestorationOrder(); }
    else if i == 1 { EnchantingOrder(); }
    else if i == 2 { SmithingOrder(); }
    else if i == 4 { AlchemyOrder(); }
    else if i == 5 { TwoHandedOrder(); }
    else { AlterationOrder(); }
    BuyWholeTree(s, i);
  }

  /** Speech can be bought by star clicks except for its second perk. */
  lemma SpeechAllButSecondByStars(s: UserStats)
    requires s.skillPoints >= 5
    ensures var c := CONSTELLATIONS[3];
            var r := Run(Page(s, None, None), [SelectSkill(3)] + ClickTwice(SPEECH_ORDER));
            c == SPEECH_TREE && forall m :: 0 <= m < |c.perks| && m != 1 ==> c.perks[m].id in r.stats.perks
  {
    SpeechOrder();
    assert forall m :: 0 <= m < 6 && m != 1 ==> m in SPEECH_ORDER;
    BuyListed(s, 3, SPEECH_ORDER);
  }

  /** Every perk an unlock order lists is bought by clicking through it. */
  lemma BuyListed(s: UserStats, i: nat, order: seq<nat>)
    requires i < |CONSTELLATIONS| && UnlockOrder(CONSTELLATIONS[i], order)
    requires s.skillPoints >= |order|
    ensures var c := CONSTELLATIONS[i];
            var r := Run(Page(s, None, None), [SelectSkill(i)] + ClickTwice(order));
            forall m :: 0 <= m < |c.perks| && m in order ==> c.perks[m].id in r.stats.perks
  {
    var c := CONSTELLATIONS[i];
    var r := Run(Page(s, None, None), [SelectSkill(i)] + ClickTwice(order));
    forall m | 0 <= m < |c.perks| && m in order
      ensures c.perks[m].id in r.stats.perks
    {
      var t :| 0 <= t < |order| && order[t] == m;
      BoughtAt(s, i, order, t);
    }
  }

  /** The perk at a given place of an unlock order is bought. */
  lemma BoughtAt(s: UserStats, i: nat, order: seq<nat>, t: nat)
    requires i < |CONSTELLATIONS| && UnlockOrder(CONSTELLATIONS[i], order)
    requires s.skillPoints >= |order| && t < |order|
    ensures CONSTELLATIONS[i].perks[order[t]].id
            in Run(Page(s, None, None), [SelectSkill(i)] + ClickTwice(order)).stats.perks
  {
    BuyInOrder(s, i, order);
  }

  /** One-Handed's root can be bought by star clicks. */
  lemma OneHandedRootByStars(s: UserStats)
    requires s.skillPoints >= 1
    ensures "one_1" in Run(Page(s, None, None), [SelectSkill(6)] + ClickTwice([0])).stats.perks
  {
    assert UnlockOrder(ONE_HANDED_TREE, [0]);
    BuyInOrder(s, 6, [0]);
  }
}

=== FILE: sorting.dfy ===
/** A stable sort by an integer key, the behaviour of JavaScript's
    `Array.prototype.sort` (stable since ES2019) with a comparator that
    compares one numeric key. Used for the quest list (completed last) and
    for the journal entries (by timestamp). */
module Sorting {

  /** Keys never decrease from left to right. */
  predicate SortedBy<T>(s: seq<T>, key: T -> int) {
    forall i, j :: 0 <= i < j < |s| ==> key(s[i]) <= key(s[j])
  }

  /** The elements of `s` whose key is `k`, in their original order. Stability
      of a sort is the statement that this subsequence is unchanged. */
  function Select<T>(s: seq<T>, key: T -> int, k: int): (r: seq<T>)
    ensures |r| <= |s|
  {
    if |s| == 0 then []
    else if key(s[0]) == k then [s[0]] + Select(s[1..], key, k)
    else Select(s[1..], key, k)
  }

  /** Puts `a` in front of the first element whose key is not smaller. */
  function InsertFront<T>(a: T, s: seq<T>, key: T -> int): (r: seq<T>)
    ensures |r| == |s| + 1
    ensures multiset(r) == multiset(s) + multiset{a}
    ensures SortedBy(s, key) ==> SortedBy(r, key)
    ensures forall k :: Select(r, key, k) ==
                          if key(a) == k then [a] + Select(s, key, k) else Select(s, key, k)
  {
    if |s| == 0 || key(a) <= key(s[0]) then
      InsertHere(a, s, key);
      [a] + s
    else
      var t := InsertFront(a, s[1..], key);
      InsertLater(a, s, t, key);
      [s[0]] + t
  }

  /** The facts of `InsertFront` when `a` goes first. */
  lemma InsertHere<T>(a: T, s: seq<T>, key: T -> int)
    requires |s| == 0 || key(a) <= key(s[0])
    ensures multiset([a] + s) == multiset(s) + multiset{a}
    ensures SortedBy(s, key) ==> SortedBy([a] + s, key)
    ensures forall k :: Select([a] + s, key, k) ==
                          if key(a) == k then [a] + Select(s, key, k) else Select(s, key, k)
  {
    var r := [a] + s;
    assert r[0] == a && r[1..] == s;
    if SortedBy(s, key) {
      ConsSorted(a, s, key);
    }
  }

  /** The facts of `InsertFront` when `a` goes into the tail `t`. */
  lemma InsertLater<T>(a: T, s: seq<T>, t: seq<T>, key: T -> int)
    requires |s| > 0 && key(s[0]) < key(a)
    requires multiset(t) == multiset(s[1..]) + multiset{a}
    requires SortedBy(s[1..], key) ==> SortedBy(t, key)
    requires forall k :: Select(t, key, k) ==
                           if key(a) == k then [a] + Select(s[1..], key, k) else Select(s[1..], key, k)
    ensures multiset([s[0]] + t) == multiset(s) + multiset{a}
    ensures SortedBy(s, key) ==> SortedBy([s[0]] + t, key)
    ensures forall k :: Select([s[0]] + t, key, k) ==
                          if key(a) == k then [a] + Select(s, key, k) else Select(s, key, k)
  {
    var r := [s[0]] + t;
    assert r[0] == s[0] && r[1..] == t;
    assert s == [s[0]] + s[1..];
    if SortedBy(s, key) {
      HeadBelowTail(a, s, t, key);
      ConsSorted(s[0], t, key);
    }
  }

  /** In a sorted `s`, the head's key is at most every key of a tail that
      holds the rest of `s` and an element of larger key. */
  lemma HeadBelowTail<T>(a: T, s: seq<T>, t: seq<T>, key: T -> int)
    requires |s| > 0 && key(s[0]) < key(a) && SortedBy(s, key)
    requires multiset(t) == multiset(s[1..]) + multiset{a}
    ensures forall j :: 0 <= j < |t| ==> key(s[0]) <= key(t[j])
  {
    forall j | 0 <= j < |t|
      ensures key(s[0]) <= key(t[j])
    {
      assert t[j] in multiset(t);
      if t[j] != a {
        assert t[j] in multiset(s[1..]);
        var m :| 0 <= m < |s[1..]| && s[1..][m] == t[j];
        assert s[m + 1] == t[j];
      }
    }
  }

  /** A head with no larger key than any element of a sorted tail keeps
      the whole sorted. */
  lemma ConsSorted<T>(x: T, t: seq<T>, key: T -> int)
    requires SortedBy(t, key)
    requires forall j :: 0 <= j < |t| ==> key(x) <= key(t[j])
    ensures SortedBy([x] + t, key)
  {
    var r := [x] + t;
    forall i, j | 0 <= i < j < |r|
      ensures key(r[i]) <= key(r[j])
    {
      assert r[j] == t[j - 1];
      if i > 0 { assert r[i] == t[i - 1]; }
    }
  }

  /** Insertion sort, taking elements from the front so that equal keys keep
      their relative order. */
  function InsertionSort<T>(s: seq<T>, key: T -> int): (r: seq<T>)
    ensures |r| == |s|
    ensures multiset(r) == multiset(s)
    ensures SortedBy(r, key)
    ensures forall k :: Select(r, key, k) == Select(s, key, k)
  {
    if |s| == 0 then []
    else
      assert s == [s[0]] + s[1..];
      InsertFront(s[0], InsertionSort(s[1..], key), key)
  }

  /** When every key is 1, selecting key 1 keeps everything and key 0 nothing. */
  lemma {:induction false} SelectAllOne<T>(s: seq<T>, key: T -> int)
    requires forall i :: 0 <= i < |s| ==> key(s[i]) == 1
    ensures Select(s, key, 1) == s
    ensures Select(s, key, 0) == []
  {
    if |s| > 0 {
      SelectAllOne(s[1..], key);
      assert s == [s[0]] + s[1..];
    }
  }

  /** A sequence sorted by a 0/1 key is its 0-part followed by its 1-part. */
  lemma {:induction false} SortedBinaryIsPartition<T>(s: seq<T>, key: T -> int)
    requires SortedBy(s, key)
    requires forall i :: 0 <= i < |s| ==> key(s[i]) == 0 || key(s[i]) == 1
    ensures s == Select(s, key, 0) + Select(s, key, 1)
  {
    if |s| > 0 {
      if key(s[0]) == 0 {
        var t := s[1..];
        SortedBinaryIsPartition(t, key);
        SelectHeadZero(s, key);
      } else {
        assert forall i :: 0 <= i < |s| ==> key(s[0]) <= key(s[i]);
        SelectAllOne(s, key);
      }
    }
  }

  lemma SelectHeadZero<T>(s: seq<T>, key: T -> int)
    requires |s| > 0 && key(s[0]) == 0
    ensures Select(s, key, 0) == [s[0]] + Select(s[1..], key, 0)
    ensures Select(s, key, 1) == Select(s[1..], key, 1)
    ensures s == [s[0]] + s[1..]
  {
  }

  /** Selecting from a sequence with one more element at the end. */
  lemma {:induction false} SelectSnoc<T>(s: seq<T>, x: T, key: T -> int, k: int)
    ensures Select(s + [x], key, k) == Select(s, key, k) + (if key(x) == k then [x] else [])
  {
    if |s| == 0 {
      assert s + [x] == [x];
      assert [x][1..] == [];
    } else {
      assert (s + [x])[0] == s[0];
      assert (s + [x])[1..] == s[1..] + [x];
      SelectSnoc(s[1..], x, key, k);
    }
  }
}

=== FILE: stats.dfy ===
/** The character sheet kept in the per-user stats document and the pure
    transitions the game context applies to it (src/context/GameContext.tsx).
    Each transition is "the document after the write"; notifications and the
    document I/O itself are not part of the model. */
module Stats {
  import opened Common

  datatype SkillData = SkillData(level: int, xp: int, xpToNextLevel: int)

  datatype Category = Apparel | Potions | Books | Misc

  datatype EffectType = RestoreHealth | RestoreMagicka | RestoreStamina | GrantXP

  /** A loot-table entry: an inventory item without its instance id. Display
      fields (description, icon, weight, gold value) are not modelled. */
  datatype Template = Template(
    id: string,
    name: string,
    category: Category,
    effectType: Option<EffectType>,
    effectValue: Option<int>,
    effectTarget: Option<string>)

  /** An inventory item: a template spread with a fresh instance id. */
  datatype Item = Item(uid: string, template: Template)

  datatype UserStats = UserStats(
    level: int,
    xp: int,
    xpToNextLevel: int,
    health: int,
    magicka: int,
    stamina: int,
    skillPoints: int,
    race: string,
    perks: seq<string>,
    skills: map<string, SkillData>,
    inventory: seq<Item>,
    completedQuestCount: int)

  const RESTORATION := "RESTORATION"
  const ENCHANTING := "ENCHANTING"
  const SMITHING := "SMITHING"
  const SPEECH := "SPEECH"
  const ALCHEMY := "ALCHEMY"
  const ONE_HANDED := "ONE-HANDED"
  const TWO_HANDED := "TWO-HANDED"
  const ALTERATION := "ALTERATION"

  const NEW_SKILL := SkillData(15, 0, 100)

  const DEFAULT_SKILLS: map<string, SkillData> := map[
    RESTORATION := NEW_SKILL, ENCHANTING := NEW_SKILL, SMITHING := NEW_SKILL,
    SPEECH := NEW_SKILL, ALCHEMY := NEW_SKILL, ONE_HANDED := NEW_SKILL,
    TWO_HANDED := NEW_SKILL, ALTERATION := NEW_SKILL]

  const LOOT_TABLE: seq<Template> := [
    Template("heal_pot", "Potion of Healing", Potions, Some(RestoreHealth), Some(20), None),
    Template("mag_pot", "Potion of Magicka", Potions, Some(RestoreMagicka), Some(20), None),
    Template("sta_pot", "Potion of Stamina", Potions, Some(RestoreStamina), Some(20), None),
    Template("scribe_elixir", "Elixir of the Scribe", Potions, Some(GrantXP), Some(100), Some(SPEECH)),
    Template("work_elixir", "Elixir of Focus", Potions, Some(GrantXP), Some(100), Some(ENCHANTING)),
    Template("sweetroll", "Sweetroll", Misc, Some(RestoreHealth), Some(5), None)]

  /** The document written for a user who has none yet. */
  const INITIAL_STATS := UserStats(1, 0, 100, 50, 70, 50, 1, "Nord", [], DEFAULT_SKILLS, [], 0)

  /** The numbers the rules below keep sensible. */
  predicate ValidSkill(d: SkillData) {
    d.level >= 0 && d.xp >= 0 && d.xpToNextLevel >= 1
  }

  predicate Valid(s: UserStats) {
    && s.level >= 1 && s.xp >= 0 && s.xpToNextLevel >= 1
    && s.health >= 0 && s.magicka >= 0 && s.stamina >= 0
    && s.skillPoints >= 0 && s.completedQuestCount >= 0
    && forall k :: k in s.skills ==> ValidSkill(s.skills[k])
  }

  // ---------------------------------------------------------------------
  // Reading the document
  // ---------------------------------------------------------------------

  /** The stats document as stored: any field may be missing. */
  datatype Snapshot = Snapshot(
    level: Option<int>,
    xp: Option<int>,
    xpToNextLevel: Option<int>,
    health: Option<int>,
    magicka: Option<int>,
    stamina: Option<int>,
    skillPoints: Option<int>,
    race: Option<string>,
    perks: Option<seq<string>>,
    skills: Option<map<string, SkillData>>,
    inventory: Option<seq<Item>>,
    completedQuestCount: Option<int>)

  datatype Effect = WellRested | Heroic | Vitality

  /** `x || d` for a string: the empty string is falsy. */
  function StringOr(v: Option<string>, d: string): (r: string)
    ensures v.Some? && v.value != "" ==> r == v.value
    ensures (v.None? || v.value == "") ==> r == d
  {
    if v.Some? && v.value != "" then v.value else d
  }

  /** A stored number JavaScript's `||` treats as missing. */
  predicate Falsy(v: Option<int>) {
    v.None? || v.value == 0
  }

  /** The stats the context exposes for a stored document: every falsy field
      takes its default, and the stored skills are laid over the defaults. */
  function Normalise(d: Snapshot): (r: UserStats)
    ensures if Falsy(d.level) then r.level == 1 else r.level == d.level.value
    ensures if Falsy(d.xp) then r.xp == 0 else r.xp == d.xp.value
    ensures if Falsy(d.xpToNextLevel) then r.xpToNextLevel == 100 else r.xpToNextLevel == d.xpToNextLevel.value
    ensures if Falsy(d.health) then r.health == 50 else r.health == d.health.value
    ensures if Falsy(d.magicka) then r.magicka == 50 else r.magicka == d.magicka.value
    ensures if Falsy(d.stamina) then r.stamina == 50 else r.stamina == d.stamina.value
    ensures if Falsy(d.skillPoints) then r.skillPoints == 0 else r.skillPoints == d.skillPoints.value
    ensures if Falsy(d.completedQuestCount) then r.completedQuestCount == 0
            else r.completedQuestCount == d.completedQuestCount.value
    ensures if d.race.None? || d.race.value == "" then r.race == "Nord" else r.race == d.race.value
    // An empty array is truthy, so stored lists are kept even when empty.
    ensures d.perks.Some? ==> r.perks == d.perks.value
    ensures d.perks.None? ==> r.perks == []
    ensures d.inventory.Some? ==> r.inventory == d.inventory.value
    ensures d.inventory.None? ==> r.inventory == []
    ensures r.skills.Keys == DEFAULT_SKILLS.Keys + d.skills.GetOr(map[]).Keys
    ensures forall k :: k in d.skills.GetOr(map[]) ==> r.skills[k] == d.skills.GetOr(map[])[k]
    ensures forall k :: k in DEFAULT_SKILLS && k !in d.skills.GetOr(map[]) ==> r.skills[k] == NEW_SKILL
    ensures r.level != 0 && r.xpToNextLevel != 0 && r.health != 0 && r.magicka != 0 && r.stamina != 0
    ensures r.race != ""
  {
    UserStats(
      OrDefault(d.level, 1), OrDefault(d.xp, 0), OrDefault(d.xpToNextLevel, 100),
      OrDefault(d.health, 50), OrDefault(d.magicka, 50), OrDefault(d.stamina, 50),
      OrDefault(d.skillPoints, 0), StringOr(d.race, "Nord"), d.perks.GetOr([]),
      DEFAULT_SKILLS + d.skills.GetOr(map[]), d.inventory.GetOr([]),
      OrDefault(d.completedQuestCount, 0))
  }

  /** The document that stores exactly the given stats. */
  function ToSnapshot(s: UserStats): Snapshot {
    Snapshot(Some(s.level), Some(s.xp), Some(s.xpToNextLevel), Some(s.health),
             Some(s.magicka), Some(s.stamina), Some(s.skillPoints), Some(s.race),
             Some(s.perks), Some(s.skills), Some(s.inventory), Some(s.completedQuestCount))
  }

  /** Writing stats and reading them back gives the same stats exactly when no
      field is a falsy value that the reader replaces with a default. */
  lemma NormaliseRoundTrip(s: UserStats)
    ensures Normalise(ToSnapshot(s)) == s <==>
              && s.level != 0 && s.xpToNextLevel != 0
              && s.health != 0 && s.magicka != 0 && s.stamina != 0
              && s.race != "" && DEFAULT_SKILLS.Keys <= s.skills.Keys
  {
    var r := Normalise(ToSnapshot(s));
    if DEFAULT_SKILLS.Keys <= s.skills.Keys {
      assert DEFAULT_SKILLS + s.skills == s.skills;
    }
    if r == s {
      assert r.skills.Keys == DEFAULT_SKILLS.Keys + s.skills.Keys;
    }
  }

  /** The stats after the listener fires: a missing document is first
      written as the initial stats, which the listener then reads back. */
  function Load(doc: Option<Snapshot>): (r: UserStats)
    ensures doc.None? ==> r == INITIAL_STATS
    ensures doc.Some? ==> r == Normalise(doc.value)
  {
    match doc
    case Some(d) => Normalise(d)
    case None =>
      NormaliseRoundTrip(INITIAL_STATS);
      Normalise(ToSnapshot(INITIAL_STATS))
  }

  /** Every stored document whose numbers are not negative loads as valid
      stats. */
  lemma LoadValid(doc: Option<Snapshot>)
    requires doc.Some? ==> NonNegative(doc.value)
    ensures Valid(Load(doc))
  {
    if doc.Some? {
      var d := doc.value;
      var r := Normalise(d);
      forall k | k in r.skills
        ensures ValidSkill(r.skills[k])
      {
        if k !in d.skills.GetOr(map[]) {
          assert r.skills[k] == NEW_SKILL;
        }
      }
    }
  }

  /** Every number present in the document is at least zero. */
  predicate NonNegative(d: Snapshot) {
    && d.level.GetOr(0) >= 0 && d.xp.GetOr(0) >= 0 && d.xpToNextLevel.GetOr(0) >= 0
    && d.health.GetOr(0) >= 0 && d.magicka.GetOr(0) >= 0 && d.stamina.GetOr(0) >= 0
    && d.skillPoints.GetOr(0) >= 0 && d.completedQuestCount.GetOr(0) >= 0
    && forall k :: k in d.skills.GetOr(map[]) ==> ValidSkill(d.skills.GetOr(map[])[k])
  }

  /** A stored magicka of 0 (a check-in with 0 hours of sleep) is read back
      as 50. */
  lemma ZeroMagickaReadsAsFifty(s: UserStats)
    requires s.magicka == 0
    ensures Normalise(ToSnapshot(s)).magicka == 50
  {
  }

  /** The active effects for a stored document: each attribute at 80 or more
      grants its effect. A missing attribute grants nothing. */
  function Effects(d: Snapshot): (r: seq<Effect>)
    ensures WellRested in r <==> d.magicka.Some? && d.magicka.value >= 80
    ensures Heroic in r <==> d.health.Some? && d.health.value >= 80
    ensures Vitality in r <==> d.stamina.Some? && d.stamina.value >= 80
    ensures |r| <= 3
  {
    (if d.magicka.Some? && d.magicka.value >= 80 then [WellRested] else [])
    + (if d.health.Some? && d.health.value >= 80 then [Heroic] else [])
    + (if d.stamina.Some? && d.stamina.value >= 80 then [Vitality] else [])
  }

  /** The XP bonus reads the effects of the same document, so it is decided
      by the normalised magicka alone. */
  lemma WellRestedIffMagicka(d: Snapshot)
    ensures WellRested in Effects(d) <==> IsWellRested(Normalise(d))
  {
  }

  // ---------------------------------------------------------------------
  // addXP
  // ---------------------------------------------------------------------

  predicate IsWellRested(s: UserStats) {
    s.magicka >= 80
  }

  /** `Math.floor(amount * multiplier)` with the 1.1 bonus taken as the exact
      rational 11/10. */
  function FinalAmount(amount: int, wellRested: bool): (r: int)
    ensures !wellRested ==> r == amount
    ensures wellRested ==> 10 * r <= 11 * amount < 10 * r + 10
  {
    if wellRested then (amount * 11) / 10 else amount
  }

  /** `Math.floor(t * 1.2)` and `Math.floor(t * 1.5)`, as exact rationals. */
  function NextSkillThreshold(t: int): (r: int)
    ensures 5 * r <= 6 * t < 5 * r + 5
  {
    (t * 6) / 5
  }

  function NextCharacterThreshold(t: int): (r: int)
    ensures 2 * r <= 3 * t < 2 * r + 2
  {
    (t * 3) / 2
  }

  /** `skillName && stats.skills[skillName]`: a name that is present,
      non-empty and has an entry. */
  predicate KnownSkill(s: UserStats, skillName: Option<string>) {
    skillName.Some? && skillName.value != "" && skillName.value in s.skills
  }

  /** Whether the call raises the named skill a level. */
  predicate SkillLevelsUp(s: UserStats, amount: int, skillName: Option<string>) {
    KnownSkill(s, skillName)
    && s.skills[skillName.value].xp + FinalAmount(amount, IsWellRested(s))
       >= s.skills[skillName.value].xpToNextLevel
  }

  /** Grants `amount` XP, scaled by the well-rested bonus, to a skill: at most
      one skill level per call, and on a skill level-up the character gains
      ten XP per new skill level and at most one level, which grants one skill
      point. Without a known skill the XP goes to the character, and nothing
      else changes, whatever the threshold. */
  function AddXP(s: UserStats, amount: int, skillName: Option<string>): (r: UserStats)
    // Attributes, perks, inventory and the quest count are never touched.
    ensures r.health == s.health && r.magicka == s.magicka && r.stamina == s.stamina
    ensures r.race == s.race && r.perks == s.perks
    ensures r.inventory == s.inventory && r.completedQuestCount == s.completedQuestCount
    ensures r.skills.Keys == s.skills.Keys
    ensures forall k :: k in s.skills && (skillName.None? || k != skillName.value) ==>
                          r.skills[k] == s.skills[k]
    // Unknown or missing skill: only the character XP moves.
    ensures !KnownSkill(s, skillName) ==>
              r == s.(xp := s.xp + FinalAmount(amount, IsWellRested(s)))
    // Known skill: the XP is banked in the skill, minus one threshold on a level-up.
    ensures KnownSkill(s, skillName) ==>
              var before := s.skills[skillName.value];
              var after := r.skills[skillName.value];
              var up := SkillLevelsUp(s, amount, skillName);
              && after.level == before.level + (if up then 1 else 0)
              && after.xp + (if up then before.xpToNextLevel else 0)
                 == before.xp + FinalAmount(amount, IsWellRested(s))
              && after.xpToNextLevel ==
                 (if up then NextSkillThreshold(before.xpToNextLevel) else before.xpToNextLevel)
    // The character sheet moves only on a skill level-up.
    ensures KnownSkill(s, skillName) && !SkillLevelsUp(s, amount, skillName) ==>
              r.xp == s.xp && r.level == s.level
              && r.xpToNextLevel == s.xpToNextLevel && r.skillPoints == s.skillPoints
    ensures SkillLevelsUp(s, amount, skillName) ==>
              var gain := r.skills[skillName.value].level * 10;
              var charUp := s.xp + gain >= s.xpToNextLevel;
              && r.level == s.level + (if charUp then 1 else 0)
              && r.skillPoints == s.skillPoints + (if charUp then 1 else 0)
              && r.xp + (if charUp then s.xpToNextLevel else 0) == s.xp + gain
              && r.xpToNextLevel ==
                 (if charUp then NextCharacterThreshold(s.xpToNextLevel) else s.xpToNextLevel)
  {
    var gained := FinalAmount(amount, IsWellRested(s));
    if KnownSkill(s, skillName) then
      var name := skillName.value;
      var sk := s.skills[name];
      var xp := sk.xp + gained;
      if xp >= sk.xpToNextLevel then
        var raised := SkillData(sk.level + 1, xp - sk.xpToNextLevel, NextSkillThreshold(sk.xpToNextLevel));
        var charXP := s.xp + raised.level * 10;
        if charXP >= s.xpToNextLevel then
          s.(skills := s.skills[name := raised], xp := charXP - s.xpToNextLevel,
             level := s.level + 1, skillPoints := s.skillPoints + 1,
             xpToNextLevel := NextCharacterThreshold(s.xpToNextLevel))
        else
          s.(skills := s.skills[name := raised], xp := charXP)
      else
        s.(skills := s.skills[name := SkillData(sk.level, xp, sk.xpToNextLevel)])
    else
      s.(xp := s.xp + gained)
  }

  lemma AddXPPreservesValid(s: UserStats, amount: int, skillName: Option<string>)
    requires Valid(s) && amount >= 0
    ensures Valid(AddXP(s, amount, skillName))
  {
    var r := AddXP(s, amount, skillName);
    if KnownSkill(s, skillName) {
      assert ValidSkill(r.skills[skillName.value]);
    }
  }

  /** There is no loop: one call raises a skill by one level even when the
      remaining XP still exceeds the new threshold. */
  lemma AddXPOneLevelPerCall()
    ensures var s := INITIAL_STATS.(magicka := 50);
            var r := AddXP(s, 500, Some(SPEECH));
            r.skills[SPEECH] == SkillData(16, 400, 120)
            && r.skills[SPEECH].xp >= r.skills[SPEECH].xpToNextLevel
  {
  }

  // ---------------------------------------------------------------------
  // completeQuest
  // ---------------------------------------------------------------------

  /** Makes an inventory item from a loot template. */
  function Instantiate(t: Template, uid: string): (r: Item)
    ensures r.uid == uid && r.template == t
  {
    Item(uid, t)
  }

  predicate UidFresh(inventory: seq<Item>, uid: string) {
    forall i :: 0 <= i < |inventory| ==> inventory[i].uid != uid
  }

  /** Counts one more completed quest, rolls the loot template `pick` (a
      random index in the source) with instance id `uid` on every fifth
      completion, then grants 40 XP to the quest's skill. */
  function CompleteQuest(s: UserStats, skillName: string, pick: nat, uid: string): (r: UserStats)
    requires pick < |LOOT_TABLE|
    ensures r.completedQuestCount == s.completedQuestCount + 1
    ensures (s.completedQuestCount + 1) % 5 != 0 ==> r.inventory == s.inventory
    ensures (s.completedQuestCount + 1) % 5 == 0 && UidFresh(s.inventory, uid) ==>
              r.inventory == s.inventory + [Item(uid, LOOT_TABLE[pick])]
    ensures r.perks == s.perks && r.health == s.health
    ensures r.magicka == s.magicka && r.stamina == s.stamina
    ensures r == AddXP(s.(completedQuestCount := r.completedQuestCount, inventory := r.inventory),
                       40, Some(skillName))
  {
    var n := s.completedQuestCount + 1;
    var written :=
      if n % 5 == 0 then
        s.(completedQuestCount := n, inventory := ArrayUnion(s.inventory, Instantiate(LOOT_TABLE[pick], uid)))
      else
        s.(completedQuestCount := n);
    AddXP(written, 40, Some(skillName))
  }

  /** One quest completion: the quest's skill and the two random choices. */
  datatype Completion = Completion(skill: string, pick: nat, uid: string)

  predicate ValidCompletions(cs: seq<Completion>) {
    forall i :: 0 <= i < |cs| ==> cs[i].pick < |LOOT_TABLE|
  }

  function CompleteQuests(s: UserStats, cs: seq<Completion>): (r: UserStats)
    requires ValidCompletions(cs)
    decreases |cs|
  {
    if |cs| == 0 then s
    else CompleteQuests(CompleteQuest(s, cs[0].skill, cs[0].pick, cs[0].uid), cs[1..])
  }

  /** The uids are new: not in the inventory and pairwise different. */
  predicate FreshUids(inventory: seq<Item>, cs: seq<Completion>) {
    && (forall i :: 0 <= i < |cs| ==> UidFresh(inventory, cs[i].uid))
    && (forall i, j :: 0 <= i < j < |cs| ==> cs[i].uid != cs[j].uid)
  }

  /** Completing `k` quests from a count `c >= 0` yields exactly one item per
      multiple of 5 in `c+1 .. c+k`, when the instance ids are fresh. */
  lemma {:induction false} LootEveryFifth(s: UserStats, cs: seq<Completion>)
    requires ValidCompletions(cs) && s.completedQuestCount >= 0
    requires FreshUids(s.inventory, cs)
    ensures var r := CompleteQuests(s, cs);
            && r.completedQuestCount == s.completedQuestCount + |cs|
            && |r.inventory| == |s.inventory| + (s.completedQuestCount + |cs|) / 5
                                            - s.completedQuestCount / 5
    decreases |cs|
  {
    if |cs| > 0 {
      var c := s.completedQuestCount;
      var t := CompleteQuest(s, cs[0].skill, cs[0].pick, cs[0].uid);
      var rest := cs[1..];
      assert (c + 1) % 5 == 0 ==> (c + 1) / 5 == c / 5 + 1;
      assert (c + 1) % 5 != 0 ==> (c + 1) / 5 == c / 5;
      assert |t.inventory| == |s.inventory| + (c + 1) / 5 - c / 5;
      forall i | 0 <= i < |rest|
        ensures UidFresh(t.inventory, rest[i].uid)
      {
        assert rest[i] == cs[i + 1];
      }
      LootEveryFifth(t, rest);
    }
  }

  lemma CompleteQuestPreservesValid(s: UserStats, skillName: string, pick: nat, uid: string)
    requires Valid(s) && pick < |LOOT_TABLE|
    ensures Valid(CompleteQuest(s, skillName, pick, uid))
  {
    var r := CompleteQuest(s, skillName, pick, uid);
    var w := s.(completedQuestCount := r.completedQuestCount, inventory := r.inventory);
    assert Valid(w);
    AddXPPreservesValid(w, 40, Some(skillName));
  }

  // ---------------------------------------------------------------------
  // useItem, castSpell, spendSkillPoint, updateAttributes
  // ---------------------------------------------------------------------

  /** The inventory without every entry sharing the given instance id. */
  function RemoveUid(inventory: seq<Item>, uid: string): (r: seq<Item>)
    ensures UidFresh(r, uid)
    ensures forall i :: 0 <= i < |inventory| && inventory[i].uid != uid ==> inventory[i] in r
    ensures forall i :: 0 <= i < |r| ==> r[i] in inventory
    ensures UidFresh(inventory, uid) ==> r == inventory
  {
    var keep := (x: Item) => x.uid != uid;
    if UidFresh(inventory, uid) then
      FilterAll(inventory, keep);
      Filter(inventory, keep)
    else
      Filter(inventory, keep)
  }

  /** `RemoveUid` is a filter: it works piece by piece and keeps the
      order and the copies of what it keeps. */
  lemma RemoveUidKeepsOrder(a: seq<Item>, b: seq<Item>, x: Item, uid: string)
    ensures RemoveUid(a + b, uid) == RemoveUid(a, uid) + RemoveUid(b, uid)
    ensures RemoveUid([x], uid) == if x.uid == uid then [] else [x]
  {
    FilterAppend(a, b, (y: Item) => y.uid != uid);
    FilterSingleton(x, (y: Item) => y.uid != uid);
  }

  /** A restore effect: `Math.min(current + value, 100)`. */
  function Restore(current: int, value: int): (r: int)
    ensures r <= 100
    ensures r <= current + value
    ensures r == 100 || r == current + value
  {
    Min(current + value, 100)
  }

  /** Consumes the item: drops its instance from the inventory, applies a
      restore effect to its attribute (capped at 100), or grants its XP to its
      target skill. */
  function UseItem(s: UserStats, item: Item): (r: UserStats)
    ensures var v := OrDefault(item.template.effectValue, 0);
            var e := item.template.effectType;
            && r.health == (if e == Some(RestoreHealth) then Restore(s.health, v) else s.health)
            && r.magicka == (if e == Some(RestoreMagicka) then Restore(s.magicka, v) else s.magicka)
            && r.stamina == (if e == Some(RestoreStamina) then Restore(s.stamina, v) else s.stamina)
    ensures r.inventory == RemoveUid(s.inventory, item.uid)
    ensures r.perks == s.perks && r.completedQuestCount == s.completedQuestCount
    ensures item.template.effectType != Some(GrantXP) ==>
              r.skills == s.skills && r.xp == s.xp && r.level == s.level
              && r.skillPoints == s.skillPoints
    ensures item.template.effectType == Some(GrantXP) ==>
              r == AddXP(s.(inventory := r.inventory),
                         OrDefault(item.template.effectValue, 0), item.template.effectTarget)
  {
    var v := OrDefault(item.template.effectValue, 0);
    var w := s.(inventory := RemoveUid(s.inventory, item.uid));
    match item.template.effectType
    case Some(RestoreHealth) => w.(health := Restore(s.health, v))
    case Some(RestoreMagicka) => w.(magicka := Restore(s.magicka, v))
    case Some(RestoreStamina) => w.(stamina := Restore(s.stamina, v))
    case Some(GrantXP) => AddXP(w, v, item.template.effectTarget)
    case None => w
  }

  /** Using any loot-table item keeps the stats valid. */
  lemma UseItemPreservesValid(s: UserStats, item: Item)
    requires Valid(s) && item.template in LOOT_TABLE
    ensures Valid(UseItem(s, item))
  {
    var w := s.(inventory := RemoveUid(s.inventory, item.uid));
    AddXPPreservesValid(w, OrDefault(item.template.effectValue, 0), item.template.effectTarget);
  }

  /** Spends `cost` magicka if there is enough: refuses, unchanged, when
      magicka is short or nobody is signed in. */
  function CastSpell(s: UserStats, signedIn: bool, cost: int): (r: (bool, UserStats))
    ensures r.0 <==> signedIn && s.magicka >= cost
    ensures r.0 ==> r.1 == s.(magicka := s.magicka - cost)
    ensures !r.0 ==> r.1 == s
    ensures r.0 ==> r.1.magicka >= 0
  {
    if s.magicka < cost then (false, s)
    else if !signedIn then (false, s)
    else (true, s.(magicka := s.magicka - cost))
  }

  /** Buys a perk for one skill point; a no-op without points or when the
      perk is already owned. */
  function SpendSkillPoint(s: UserStats, perk: string): (r: UserStats)
    ensures s.skillPoints <= 0 || perk in s.perks ==> r == s
    ensures s.skillPoints > 0 && perk !in s.perks ==>
              r == s.(skillPoints := s.skillPoints - 1, perks := s.perks + [perk])
    ensures perk in r.perks || s.skillPoints <= 0
    ensures s.skillPoints >= 0 ==> r.skillPoints >= 0
  {
    if s.skillPoints <= 0 || perk in s.perks then s
    else s.(skillPoints := s.skillPoints - 1, perks := ArrayUnion(s.perks, perk))
  }

  /** Spending on the same perk twice is the same as spending once. */
  lemma SpendSkillPointIdempotent(s: UserStats, perk: string)
    ensures SpendSkillPoint(SpendSkillPoint(s, perk), perk) == SpendSkillPoint(s, perk)
  {
  }

  /** The check-in's write to the document: health and stamina ten times
      mood and energy, magicka ten times the hours slept, capped at 100
      (sleep comes in steps of half an hour, so `sleep * 10` is
      `sleepHalfHours * 5`). */
  function Attributes(s: UserStats, mood: int, energy: int, sleepHalfHours: int): UserStats {
    s.(health := mood * 10, magicka := Min(sleepHalfHours * 5, 100), stamina := energy * 10)
  }

  /** A skill's outcome from `addXP` depends on that skill and the Well
      Rested bonus alone. */
  lemma AddXPSkillLocal(s: UserStats, t: UserStats, amount: int, name: string)
    ensures name != "" && name in s.skills && name in t.skills && s.skills[name] == t.skills[name]
            && IsWellRested(s) == IsWellRested(t) ==>
              AddXP(s, amount, Some(name)).skills[name] == AddXP(t, amount, Some(name)).skills[name]
  {
  }

  /** One `addXP` call levels the character at most once and grants a
      skill point exactly with each level. */
  lemma AddXPLevelPoints(s: UserStats, amount: int, skillName: Option<string>)
    ensures var r := AddXP(s, amount, skillName);
            r.skillPoints - s.skillPoints == r.level - s.level && s.level <= r.level <= s.level + 1
  {
  }

  /** The `addXP` calls of a check-in: 20 XP to Restoration, Speech and
      Alteration, then 30 to Two-Handed for energy 8 and up or else 20 to
      One-Handed for energy 5 and up. Each call reads the effects of the
      sheet from before the check-in, so the grants run on that sheet; they
      never touch the attributes. */
  function CheckInGrants(s: UserStats, energy: int): (r: UserStats)
    ensures r.health == s.health && r.magicka == s.magicka && r.stamina == s.stamina
    ensures r.perks == s.perks && r.inventory == s.inventory
    ensures r.completedQuestCount == s.completedQuestCount
    ensures r.skills.Keys == s.skills.Keys
    ensures forall k :: k in s.skills && k !in {RESTORATION, SPEECH, ALTERATION, TWO_HANDED, ONE_HANDED} ==>
                          r.skills[k] == s.skills[k]
    ensures energy < 8 && TWO_HANDED in s.skills ==> r.skills[TWO_HANDED] == s.skills[TWO_HANDED]
    ensures (energy < 5 || energy >= 8) && ONE_HANDED in s.skills ==>
              r.skills[ONE_HANDED] == s.skills[ONE_HANDED]
  {
    var a := AddXP(AddXP(AddXP(s, 20, Some(RESTORATION)), 20, Some(SPEECH)), 20, Some(ALTERATION));
    if energy >= 8 then AddXP(a, 30, Some(TWO_HANDED))
    else if energy >= 5 then AddXP(a, 20, Some(ONE_HANDED))
    else a
  }

  /** `updateAttributes`: the three attributes from the sliders and the
      XP grants. The attribute write and the grants touch different
      fields, so only the Well Rested bonus depends on their order, and
      that bonus is the one of the sheet before the check-in. */
  function UpdateAttributes(s: UserStats, mood: int, energy: int, sleepHalfHours: int): (r: UserStats)
    ensures r.health == mood * 10 && r.stamina == energy * 10
    ensures r.magicka == Min(sleepHalfHours * 5, 100)
    ensures r.perks == s.perks && r.inventory == s.inventory
    ensures r.completedQuestCount == s.completedQuestCount
    ensures r.skills.Keys == s.skills.Keys
    ensures forall k :: k in s.skills && k !in {RESTORATION, SPEECH, ALTERATION, TWO_HANDED, ONE_HANDED} ==>
                          r.skills[k] == s.skills[k]
    ensures energy < 8 && TWO_HANDED in s.skills ==> r.skills[TWO_HANDED] == s.skills[TWO_HANDED]
    ensures (energy < 5 || energy >= 8) && ONE_HANDED in s.skills ==>
              r.skills[ONE_HANDED] == s.skills[ONE_HANDED]
  {
    Attributes(CheckInGrants(s, energy), mood, energy, sleepHalfHours)
  }

  /** The check-in's grants, each as if it came first on the sheet before
      the check-in: a skill's outcome depends on that skill and the Well
      Rested bonus alone, and the grants never change magicka. */
  lemma {:induction false} UpdateAttributesGrants(s: UserStats, mood: int, energy: int, sleepHalfHours: int)
    ensures var r := UpdateAttributes(s, mood, energy, sleepHalfHours);
            && (RESTORATION in s.skills ==>
                  r.skills[RESTORATION] == AddXP(s, 20, Some(RESTORATION)).skills[RESTORATION])
            && (SPEECH in s.skills ==> r.skills[SPEECH] == AddXP(s, 20, Some(SPEECH)).skills[SPEECH])
            && (ALTERATION in s.skills ==>
                  r.skills[ALTERATION] == AddXP(s, 20, Some(ALTERATION)).skills[ALTERATION])
            && (energy >= 8 && TWO_HANDED in s.skills ==>
                  r.skills[TWO_HANDED] == AddXP(s, 30, Some(TWO_HANDED)).skills[TWO_HANDED])
            && (5 <= energy < 8 && ONE_HANDED in s.skills ==>
                  r.skills[ONE_HANDED] == AddXP(s, 20, Some(ONE_HANDED)).skills[ONE_HANDED])
  {
    var a1 := AddXP(s, 20, Some(RESTORATION));
    var a2 := AddXP(a1, 20, Some(SPEECH));
    var a := AddXP(a2, 20, Some(ALTERATION));
    AddXPSkillLocal(a1, s, 20, SPEECH);
    AddXPSkillLocal(a2, s, 20, ALTERATION);
    AddXPSkillLocal(a, s, 30, TWO_HANDED);
    AddXPSkillLocal(a, s, 20, ONE_HANDED);
  }

  /** The bonus is read before the check-in: a check-in that brings
      magicka to 80 or more after a night of eight hours still grants
      Restoration its plain 20 XP when the sheet before it was not well
      rested. */
  lemma CheckInBonusFromSheetBefore(s: UserStats, mood: int, energy: int, sleepHalfHours: int)
    requires RESTORATION in s.skills && !IsWellRested(s) && sleepHalfHours >= 16
    ensures var r := UpdateAttributes(s, mood, energy, sleepHalfHours);
            var before := s.skills[RESTORATION];
            var after := r.skills[RESTORATION];
            && IsWellRested(r)
            && after.xp + (if after.level > before.level then before.xpToNextLevel else 0) == before.xp + 20
  {
    UpdateAttributesGrants(s, mood, energy, sleepHalfHours);
  }

  /** The check-in levels the character at most once per grant, with one
      skill point each. */
  lemma {:induction false} UpdateAttributesLevels(s: UserStats, mood: int, energy: int, sleepHalfHours: int)
    ensures var r := UpdateAttributes(s, mood, energy, sleepHalfHours);
            r.skillPoints - s.skillPoints == r.level - s.level && s.level <= r.level <= s.level + 4
  {
    var a1 := AddXP(s, 20, Some(RESTORATION));
    var a2 := AddXP(a1, 20, Some(SPEECH));
    var a := AddXP(a2, 20, Some(ALTERATION));
    AddXPLevelPoints(s, 20, Some(RESTORATION));
    AddXPLevelPoints(a1, 20, Some(SPEECH));
    AddXPLevelPoints(a2, 20, Some(ALTERATION));
    AddXPLevelPoints(a, 30, Some(TWO_HANDED));
    AddXPLevelPoints(a, 20, Some(ONE_HANDED));
  }

  /** With slider values that are not negative the check-in keeps the stats
      valid. */
  lemma UpdateAttributesPreservesValid(s: UserStats, mood: int, energy: int, sleepHalfHours: int)
    requires Valid(s) && mood >= 0 && energy >= 0 && sleepHalfHours >= 0
    ensures Valid(UpdateAttributes(s, mood, energy, sleepHalfHours))
  {
    AddXPPreservesValid(s, 20, Some(RESTORATION));
    var a1 := AddXP(s, 20, Some(RESTORATION));
    AddXPPreservesValid(a1, 20, Some(SPEECH));
    var a2 := AddXP(a1, 20, Some(SPEECH));
    AddXPPreservesValid(a2, 20, Some(ALTERATION));
    var a := AddXP(a2, 20, Some(ALTERATION));
    AddXPPreservesValid(a, 30, Some(TWO_HANDED));
    AddXPPreservesValid(a, 20, Some(ONE_HANDED));
  }
}

=== FILE: touch_swipe.dfy ===
/** The two-finger touch swipe (src/hooks/useTwoFingerSwipe.ts): a touch
    start with exactly two fingers records their midpoint, and the next
    touch end classifies the midpoint's displacement into at most one
    direction. Coordinates are exact reals. */
module TouchSwipe {
  import opened Common

  datatype Point = Point(x: real, y: real)

  /** The default distance a swipe must exceed. */
  const DEFAULT_THRESHOLD: real := 50.0

  /** The direction of a displacement, if any: the axis whose magnitude is
      strictly larger wins (a tie goes to the vertical axis), and only a
      winning magnitude strictly above the threshold is reported, signed by
      its component. */
  function Classify(dx: real, dy: real, threshold: real): (r: Option<Direction>)
    ensures Abs(dx) > Abs(dy) ==> (r.Some? <==> Abs(dx) > threshold)
    ensures Abs(dx) <= Abs(dy) ==> (r.Some? <==> Abs(dy) > threshold)
    ensures r == Some(Right) ==> dx > 0.0 && Abs(dx) > Abs(dy)
    ensures r == Some(Left) ==> dx <= 0.0 && Abs(dx) > Abs(dy)
    ensures r == Some(Down) ==> dy > 0.0 && Abs(dx) <= Abs(dy)
    ensures r == Some(Up) ==> dy <= 0.0 && Abs(dx) <= Abs(dy)
  {
    if Abs(dx) > Abs(dy) then
      if Abs(dx) > threshold then Some(if dx > 0.0 then Right else Left) else None
    else
      if Abs(dy) > threshold then Some(if dy > 0.0 then Down else Up) else None
  }

  /** The signed distance a displacement travels along a direction. */
  function Along(d: Direction, dx: real, dy: real): real {
    match d
    case Right => dx
    case Left => -dx
    case Down => dy
    case Up => -dy
  }

  predicate Horizontal(d: Direction) {
    d == Left || d == Right
  }

  /** An independent reading of the classifier for a non-negative
      threshold: it reports `d` exactly when the displacement travels
      further than the threshold along `d` and `d`'s axis dominates (ties
      going vertical). */
  lemma ClassifyMeans(dx: real, dy: real, threshold: real, d: Direction)
    requires threshold >= 0.0
    ensures Classify(dx, dy, threshold) == Some(d) <==>
              && Along(d, dx, dy) > threshold
              && (Horizontal(d) ==> Abs(dx) > Abs(dy))
              && (!Horizontal(d) ==> Abs(dx) <= Abs(dy))
  {
  }

  /** Reversing a swipe reverses its direction, and a displacement reported
      as nothing stays nothing, as long as the threshold is not negative. */
  lemma ClassifyNegate(dx: real, dy: real, threshold: real)
    requires threshold >= 0.0
    ensures var r := Classify(dx, dy, threshold);
            var q := Classify(-dx, -dy, threshold);
            (r.None? <==> q.None?) && (r.Some? ==> q == Some(Opposite(r.value)))
  {
    var r := Classify(dx, dy, threshold);
    if r.Some? {
      ClassifyMeans(dx, dy, threshold, r.value);
      ClassifyMeans(-dx, -dy, threshold, Opposite(r.value));
    }
  }

  /** No displacement of magnitude within the threshold on both axes is a
      swipe. */
  lemma ShortMovesIgnored(dx: real, dy: real, threshold: real)
    requires Abs(dx) <= threshold && Abs(dy) <= threshold
    ensures Classify(dx, dy, threshold).None?
  {
  }

  /** `(a + b) / 2`. */
  function Mid(a: real, b: real): (r: real)
    ensures r - a == b - r
  {
    (a + b) / 2.0
  }

  /** One coordinate of the end midpoint: the second lifted finger's
      coordinate if there is one and it is not zero, otherwise the first
      finger's coordinate standing in for it. */
  function EndCoord(first: real, second: Option<real>): (r: real)
    ensures second.Some? && second.value != 0.0 ==> r == Mid(first, second.value)
    ensures second.None? || second.value == 0.0 ==> r == first
  {
    Mid(first, if second.Some? && second.value != 0.0 then second.value else first)
  }

  /** The midpoint of a touch end's lifted fingers, coordinate by
      coordinate. */
  function EndPoint(changed: seq<Point>): (r: Point)
    requires |changed| >= 1
    ensures |changed| == 1 ==> r == changed[0]
    ensures |changed| >= 2 && changed[1].x != 0.0 ==> r.x == Mid(changed[0].x, changed[1].x)
    ensures |changed| >= 2 && changed[1].y != 0.0 ==> r.y == Mid(changed[0].y, changed[1].y)
    ensures |changed| >= 2 && changed[1].x == 0.0 ==> r.x == changed[0].x
    ensures |changed| >= 2 && changed[1].y == 0.0 ==> r.y == changed[0].y
  {
    var second := if |changed| >= 2 then Some(changed[1]) else None;
    Point(EndCoord(changed[0].x, if second.Some? then Some(second.value.x) else None),
          EndCoord(changed[0].y, if second.Some? then Some(second.value.y) else None))
  }

  /** The hook's only state: the recorded start midpoint. */
  datatype Tracker = Tracker(start: Option<Point>)

  datatype TouchEvent = TouchStart(touches: seq<Point>) | TouchEnd(changed: seq<Point>)

  /** A touch end always reports the finger just lifted. */
  predicate WellFormed(e: TouchEvent) {
    e.TouchEnd? ==> |e.changed| >= 1
  }

  /** One touch event: the new tracker state and the swipe reported, if
      any. A start with exactly two fingers replaces the recorded start
      with their midpoint and any other start is ignored; an end without a
      recorded start does nothing, and any other end classifies the
      midpoint's travel and forgets the start. */
  function Handle(t: Tracker, e: TouchEvent, threshold: real): (r: (Tracker, Option<Direction>))
    requires WellFormed(e)
    ensures e.TouchStart? ==> r.1.None?
    ensures e.TouchStart? && |e.touches| == 2 ==>
              r.0.start == Some(Point(Mid(e.touches[0].x, e.touches[1].x), Mid(e.touches[0].y, e.touches[1].y)))
    ensures e.TouchStart? && |e.touches| != 2 ==> r.0 == t
    ensures e.TouchEnd? && t.start.None? ==> r == (t, None)
    ensures e.TouchEnd? ==> r.0.start.None?
    ensures e.TouchEnd? && t.start.Some? ==>
              var p := EndPoint(e.changed);
              r.1 == Classify(p.x - t.start.value.x, p.y - t.start.value.y, threshold)
  {
    match e
    case TouchStart(touches) =>
      if |touches| == 2 then
        (Tracker(Some(Point(Mid(touches[0].x, touches[1].x), Mid(touches[0].y, touches[1].y)))), None)
      else (t, None)
    case TouchEnd(changed) =>
      if t.start.None? then (t, None)
      else
        var p := EndPoint(changed);
        (Tracker(None), Classify(p.x - t.start.value.x, p.y - t.start.value.y, threshold))
  }

  /** Feeds a sequence of events through the hook and collects the swipes
      reported. */
  function Run(t: Tracker, events: seq<TouchEvent>, threshold: real): (r: (Tracker, seq<Direction>))
    requires forall i :: 0 <= i < |events| ==> WellFormed(events[i])
    decreases |events|
  {
    if |events| == 0 then (t, [])
    else
      var (t1, out) := Handle(t, events[0], threshold);
      var (t2, rest) := Run(t1, events[1..], threshold);
      (t2, (if out.Some? then [out.value] else []) + rest)
  }

  /** How many two-finger starts a sequence holds. */
  function Starts(events: seq<TouchEvent>): (r: nat)
    ensures r <= |events|
  {
    if |events| == 0 then 0
    else (if events[0].TouchStart? && |events[0].touches| == 2 then 1 else 0) + Starts(events[1..])
  }

  /** At most one swipe per recorded start: from a tracker with no start,
      a sequence of events reports no more swipes than it holds two-finger
      starts, and one extra when a start was already recorded. */
  lemma {:induction false} OneSwipePerStart(t: Tracker, events: seq<TouchEvent>, threshold: real)
    requires forall i :: 0 <= i < |events| ==> WellFormed(events[i])
    ensures |Run(t, events, threshold).1| <= Starts(events) + (if t.start.Some? then 1 else 0)
    ensures Run(t, events, threshold).0.start.Some? ==>
              |Run(t, events, threshold).1| < Starts(events) + (if t.start.Some? then 1 else 0)
    decreases |events|
  {
    if |events| > 0 {
      var (t1, out) := Handle(t, events[0], threshold);
      OneSwipePerStart(t1, events[1..], threshold);
    }
  }

  /** Moving both start fingers and both lifted fingers by the same amount
      leaves the swipe unchanged, provided no second-finger coordinate of
      the end is zero before or after the shift. */
  lemma TranslationInvariant(a: Point, b: Point, c: Point, d: Point, v: Point, threshold: real)
    requires d.x != 0.0 && d.y != 0.0 && d.x + v.x != 0.0 && d.y + v.y != 0.0
    ensures var t := Handle(Tracker(None), TouchStart([a, b]), threshold).0;
            var u := Handle(Tracker(None), TouchStart([Shift(a, v), Shift(b, v)]), threshold).0;
            Handle(t, TouchEnd([c, d]), threshold).1
              == Handle(u, TouchEnd([Shift(c, v), Shift(d, v)]), threshold).1
  {
  }

  function Shift(p: Point, v: Point): Point {
    Point(p.x + v.x, p.y + v.y)
  }

  /** A second finger lifted at coordinate 0 is read as absent: the end
      midpoint then sits on the first finger instead of halfway between the
      two, so the same pair of fingers can swipe or not depending on where
      the screen's edge is. */
  lemma ZeroCoordinateReadAsMissing()
    ensures EndPoint([Point(60.0, 0.0), Point(0.0, 0.0)]) == Point(60.0, 0.0)
    ensures var t := Handle(Tracker(None), TouchStart([Point(0.0, 0.0), Point(0.0, 0.0)]), DEFAULT_THRESHOLD).0;
            Handle(t, TouchEnd([Point(60.0, 0.0), Point(0.0, 0.0)]), DEFAULT_THRESHOLD).1 == Some(Right)
    ensures var t := Handle(Tracker(None), TouchStart([Point(1.0, 1.0), Point(1.0, 1.0)]), DEFAULT_THRESHOLD).0;
            Handle(t, TouchEnd([Point(61.0, 1.0), Point(1.0, 1.0)]), DEFAULT_THRESHOLD).1 == None
  {
  }

  /** Two fingers starting at (10,10) and (20,10) and lifted 90 to the
      right report RIGHT; lifted 90 up they report UP; moved only 20 to the
      right they report nothing. */
  lemma KnownSwipes()
    ensures var t := Handle(Tracker(None), TouchStart([Point(10.0, 10.0), Point(20.0, 10.0)]), DEFAULT_THRESHOLD).0;
            Handle(t, TouchEnd([Point(100.0, 10.0), Point(110.0, 10.0)]), DEFAULT_THRESHOLD).1 == Some(Right)
    ensures var t := Handle(Tracker(None), TouchStart([Point(10.0, 100.0), Point(20.0, 100.0)]), DEFAULT_THRESHOLD).0;
            Handle(t, TouchEnd([Point(10.0, 10.0), Point(20.0, 10.0)]), DEFAULT_THRESHOLD).1 == Some(Up)
    ensures var t := Handle(Tracker(None), TouchStart([Point(10.0, 10.0), Point(20.0, 10.0)]), DEFAULT_THRESHOLD).0;
            Handle(t, TouchEnd([Point(30.0, 10.0), Point(40.0, 10.0)]), DEFAULT_THRESHOLD).1 == None
  {
  }
}

=== FILE: trackpad_swipe.dfy ===
/** The trackpad swipe (src/hooks/useTrackpadSwipe.ts): wheel deltas are
    summed into an accumulator; once either axis of the sum passes the
    threshold one swipe fires, the sum resets and a cooldown starts. A
    pause in movement resets the sum. Times are whole milliseconds and
    deltas exact reals. */
module TrackpadSwipe {
  import opened Common
  import TouchSwipe

  /** The hook's options. */
  datatype Config = Config(threshold: real, cooldown: int, disabled: bool, preventX: bool, preventY: bool)

  /** Threshold 120, cooldown 500 ms, enabled, blocking horizontal browser
      navigation but not vertical scrolling. */
  const DEFAULTS := Config(120.0, 500, false, true, false)

  /** The hook's refs: the running sum, the time of the last swipe (0 at
      mount) and whether the idle reset timer is armed. */
  datatype Pad = Pad(x: real, y: real, last: int, pending: bool)

  const MOUNTED := Pad(0.0, 0.0, 0, false)

  /** An `onProgress` report. */
  datatype Offset = Offset(x: real, y: real)

  /** What one wheel event does: the new refs, whether the browser's
      default action is blocked, the swipe fired and the progress reports
      in the order they are made. */
  datatype WheelResult = WheelResult(pad: Pad, prevent: bool, swipe: Option<Direction>, progress: seq<Offset>)

  /** Whether the browser's own handling of a wheel event is blocked:
      horizontally dominant movement of more than 5 when `preventX`, or
      the vertical counterpart when `preventY`. */
  predicate Prevent(c: Config, dx: real, dy: real) {
    || (c.preventX && Abs(dx) > Abs(dy) && Abs(dx) > 5.0)
    || (c.preventY && Abs(dy) > Abs(dx) && Abs(dy) > 5.0)
  }

  /** The swipe a running sum fires, if any: either axis beyond the
      threshold fires, the strictly larger axis gives the direction (ties
      vertical) and its sign the way. */
  function Fire(x: real, y: real, threshold: real): (r: Option<Direction>)
    ensures r.Some? <==> Abs(x) > threshold || Abs(y) > threshold
    ensures r.None? ==> Abs(x) <= threshold && Abs(y) <= threshold
  {
    var ax, ay := Abs(x), Abs(y);
    if ax > threshold || ay > threshold then
      if ax > ay then Some(if x > 0.0 then Right else Left)
      else Some(if y > 0.0 then Down else Up)
    else None
  }

  /** The trackpad fires on a sum exactly what the touch swipe reports for
      the same displacement: testing "either axis" against the threshold
      is the same as testing the dominant one. */
  lemma FireIsTouchClassify(x: real, y: real, threshold: real)
    ensures Fire(x, y, threshold) == TouchSwipe.Classify(x, y, threshold)
  {
  }

  /** `handleWheel`. A disabled hook has no listener. Otherwise the block
      decision is made first, on the raw deltas; an event within the
      cooldown of the last swipe then stops. Any other event adds its
      deltas, reports the sum, fires if the sum is far enough (stamping
      the time, resetting the sum and reporting zero) and re-arms the idle
      timer. */
  function Wheel(c: Config, p: Pad, dx: real, dy: real, now: int): (r: WheelResult)
    ensures c.disabled ==> r == WheelResult(p, false, None, [])
    ensures !c.disabled ==> r.prevent == Prevent(c, dx, dy)
    ensures !c.disabled && now - p.last < c.cooldown ==> r.pad == p && r.swipe.None? && r.progress == []
    ensures r.swipe.Some? ==>
              && now - p.last >= c.cooldown
              && r.swipe == Fire(p.x + dx, p.y + dy, c.threshold)
              && r.pad == Pad(0.0, 0.0, now, true)
              && r.progress == [Offset(p.x + dx, p.y + dy), Offset(0.0, 0.0)]
    ensures !c.disabled && now - p.last >= c.cooldown && r.swipe.None? ==>
              && r.pad == Pad(p.x + dx, p.y + dy, p.last, true)
              && Abs(r.pad.x) <= c.threshold && Abs(r.pad.y) <= c.threshold
              && r.progress == [Offset(p.x + dx, p.y + dy)]
  {
    if c.disabled then WheelResult(p, false, None, [])
    else
      var prevent := Prevent(c, dx, dy);
      if now - p.last < c.cooldown then WheelResult(p, prevent, None, [])
      else
        var x, y := p.x + dx, p.y + dy;
        var swipe := Fire(x, y, c.threshold);
        if swipe.Some? then
          WheelResult(Pad(0.0, 0.0, now, true), prevent, swipe, [Offset(x, y), Offset(0.0, 0.0)])
        else
          WheelResult(Pad(x, y, p.last, true), prevent, None, [Offset(x, y)])
  }

  /** The idle timer going off, 150 ms after the last wheel event that got
      past the cooldown: the sum resets and zero is reported. A disabled
      hook has no timer. */
  function Idle(c: Config, p: Pad): (r: (Pad, seq<Offset>))
    ensures c.disabled || !p.pending ==> r == (p, [])
    ensures !c.disabled && p.pending ==> r.0 == Pad(0.0, 0.0, p.last, false) && r.1 == [Offset(0.0, 0.0)]
  {
    if c.disabled || !p.pending then (p, [])
    else (Pad(0.0, 0.0, p.last, false), [Offset(0.0, 0.0)])
  }

  /** The sum never holds more than the threshold on either axis between
      events: a sum beyond it fires and resets. */
  predicate Bounded(c: Config, p: Pad) {
    Abs(p.x) <= c.threshold && Abs(p.y) <= c.threshold
  }

  datatype PadEvent = WheelEvent(dx: real, dy: real, now: int) | IdleEvent

  /** Runs the hook over a sequence of events and collects the time of
      every swipe fired. */
  function Run(c: Config, p: Pad, events: seq<PadEvent>): (r: (Pad, seq<int>))
    decreases |events|
  {
    if |events| == 0 then (p, [])
    else
      match events[0]
      case WheelEvent(dx, dy, now) =>
        var w := Wheel(c, p, dx, dy, now);
        var (q, times) := Run(c, w.pad, events[1..]);
        (q, (if w.swipe.Some? then [now] else []) + times)
      case IdleEvent =>
        Run(c, Idle(c, p).0, events[1..])
  }

  /** Every event keeps the sum within the threshold. */
  lemma {:induction false} RunKeepsBounded(c: Config, p: Pad, events: seq<PadEvent>)
    requires Bounded(c, p)
    ensures Bounded(c, Run(c, p, events).0)
    decreases |events|
  {
    if |events| > 0 {
      match events[0]
      case WheelEvent(dx, dy, now) =>
        RunKeepsBounded(c, Wheel(c, p, dx, dy, now).pad, events[1..]);
      case IdleEvent =>
        RunKeepsBounded(c, Idle(c, p).0, events[1..]);
    }
  }

  /** The cooldown holds between swipes whatever order the event times
      come in: each swipe comes at least `cooldown` after the previous
      one, the first at least `cooldown` after the last swipe before the
      run, and the final refs remember the last swipe's time. */
  lemma {:induction false} SwipesSpacedByCooldown(c: Config, p: Pad, events: seq<PadEvent>)
    ensures var (q, times) := Run(c, p, events);
            && (|times| > 0 ==> times[0] - p.last >= c.cooldown && q.last == times[|times| - 1])
            && (|times| == 0 ==> q.last == p.last)
            && forall i :: 0 < i < |times| ==> times[i] - times[i - 1] >= c.cooldown
    decreases |events|
  {
    if |events| > 0 {
      match events[0]
      case WheelEvent(dx, dy, now) =>
        var w := Wheel(c, p, dx, dy, now);
        SwipesSpacedByCooldown(c, w.pad, events[1..]);
        var (q, rest) := Run(c, w.pad, events[1..]);
        if w.swipe.Some? {
          var times := [now] + rest;
          assert forall i :: 0 < i < |times| ==> times[i] - times[i - 1] >= c.cooldown by {
            forall i | 0 < i < |times|
              ensures times[i] - times[i - 1] >= c.cooldown
            {
              if i > 1 {
                assert times[i] == rest[i - 1] && times[i - 1] == rest[i - 2];
              }
            }
          }
        } else {
          assert w.pad.last == p.last;
        }
      case IdleEvent =>
        SwipesSpacedByCooldown(c, Idle(c, p).0, events[1..]);
    }
  }

  /** A disabled hook never fires and never changes its refs. */
  lemma {:induction false} DisabledIsInert(c: Config, p: Pad, events: seq<PadEvent>)
    requires c.disabled
    ensures Run(c, p, events) == (p, [])
    decreases |events|
  {
    if |events| > 0 {
      match events[0]
      case WheelEvent(dx, dy, now) =>
        assert Wheel(c, p, dx, dy, now) == WheelResult(p, false, None, []);
        DisabledIsInert(c, p, events[1..]);
        var empty: seq<int> := [];
        assert empty + empty == empty;
      case IdleEvent =>
        DisabledIsInert(c, p, events[1..]);
    }
  }

  /** With the defaults a mostly vertical scroll is never blocked, while a
      mostly horizontal one of more than 5 is blocked even inside the
      cooldown. */
  lemma DefaultsBlockOnlyHorizontal(p: Pad, dx: real, dy: real, now: int)
    ensures Abs(dy) >= Abs(dx) ==> !Wheel(DEFAULTS, p, dx, dy, now).prevent
    ensures Abs(dx) > Abs(dy) && Abs(dx) > 5.0 ==> Wheel(DEFAULTS, p, dx, dy, now).prevent
  {
  }

  /** Right after mounting, 130 to the right in one event fires RIGHT; the
      same move split in two events fires on the second, and a third
      event 100 ms later is swallowed by the cooldown. */
  lemma MountedSwipes()
    ensures Run(DEFAULTS, MOUNTED, [WheelEvent(130.0, 0.0, 1000)]).1 == [1000]
    ensures Wheel(DEFAULTS, MOUNTED, 130.0, 0.0, 1000).swipe == Some(Right)
    ensures Run(DEFAULTS, MOUNTED, [WheelEvent(70.0, 0.0, 1000), WheelEvent(60.0, 0.0, 1010),
                                    WheelEvent(0.0, 200.0, 1110)]).1 == [1010]
  {
    var w1 := Wheel(DEFAULTS, MOUNTED, 70.0, 0.0, 1000);
    assert w1.swipe.None?;
    var w2 := Wheel(DEFAULTS, w1.pad, 60.0, 0.0, 1010);
    assert w2.swipe == Some(Right);
    var w3 := Wheel(DEFAULTS, w2.pad, 0.0, 200.0, 1110);
    assert w3.swipe.None?;
  }
}
